=== FILE: README.md ===
# UniGrading core, modelled in Dafny

UniGrading is a Django site for a university course. Professors own subjects,
organise them into folders called categories, and publish assignments and
multiple-choice tests. Students upload submissions, and a background task
grades them automatically. This project models the logic that decides
grades and enforces the site's rules, then proves what that logic promises.

Each module follows one part of the program:

- `Wrappers`, `Strings`, `Paths`, `Sorting`, `Json`: the Python built-ins the
  core relies on. These are `str.strip`/`lower`/`title`/`split`, `int()`,
  `pathlib` names, parents and suffixes, the stable `sorted`, and
  `dict.get` on a parsed JSON plan.
- `SafeCmd`: `_safe_cmd`, which removes the forbidden shell fragments from a
  command.
- `Plan`: `_sanitize_plan` turns an untrusted JSON build plan into services
  that pass the allowlist. `_fallback_plan` builds the default plan from
  marker files.
- `Sandbox`: how a sanitised service becomes a container request, and the
  container poll. It also covers `run_services`.
- `Inventory`: the archive inventory. This is `_list_files`,
  `_candidate_roots`, `_detect_languages`, `_ext_to_lang` and
  `_compose_tree_summary`.
- `Grading`: `grade_submission` of the current autograder, with its handlers:
  - routing by file kind;
  - the archive pipeline with its plan-refine step;
  - notebooks and single code files;
  - the textual grader with its heuristic fallback;
  - the final leniency floors and clamping.
- `LegacyGrader`: the older `autgrader.py`, which is still importable. It
  differs from the current autograder in how it reports failures and how it
  stores the status.
- `Tasks`: the Celery task `run_autograde`, which stores a grader result on a
  submission or marks it for manual review.
- `Models`: the upload-path builders and the submission status field.
- `Access`: the assignment views. Which assignments a user sees, whether a
  student can still submit, and who may delete.
- `Subjects`: the subject and category views. Creating a subject with its
  default folders, renaming, and creating, renaming and deleting folders,
  with the duplicate-name and protected-folder rules. Also the category
  breadcrumbs.
- `Breadcrumbs`: the session breadcrumb middleware.
- `Quiz`: the test editor's dynamic form parsing, attempt scoring, the
  one-attempt rule and the percentage.

Effects such as storage, Docker, the LLM, the clock and the database are
inputs to the model. Each input is the value the program would observe (for
example `Effects`, `LlmReply`, `PollEnd`, `Launch`). Source paths below are
relative to the repository root.

## Model

| member | source | states |
|---|---|---|
| `Strings.Take` | UniGrading/assignments/autograder.py:803 | A Python slice `s[:n]` is the prefix of length `min(n, len(s))`. |
| `Strings.TakeLast` | UniGrading/UniGrading/middleware.py:79 | A Python slice `s[-n:]` is the suffix of length `min(n, len(s))`. |
| `Strings.Lower` | UniGrading/assignments/autograder.py:783-787 | `str.lower` keeps the length and lowers every letter in place (ASCII letters only). |
| `Strings.Upper` | UniGrading/assignments/autograder.py:521-522 | `str.upper` keeps the length and raises every letter in place (ASCII letters only). |
| `Strings.Title` | UniGrading/UniGrading/middleware.py:38 | `str.title` keeps the length and which characters are letters; a letter right after a letter is lowered, any other character raised (ASCII letters only). |
| `Strings.TitleIdempotent` | UniGrading/UniGrading/middleware.py:38 | Title-casing an already title-cased text changes nothing. |
| `Strings.ReplaceChar` | UniGrading/UniGrading/middleware.py:38 | `str.replace` of one character by another replaces every occurrence and keeps every other character in place. |
| `Strings.TrimLeft` | UniGrading/tests/views.py:158 | The result is a suffix of the input that does not start with whitespace, and everything cut off in front is whitespace. |
| `Strings.TrimRight` | UniGrading/tests/views.py:158 | The result is a prefix of the input that does not end with whitespace, and everything cut off at the end is whitespace. |
| `Strings.Strip` | UniGrading/tests/views.py:158 | `str.strip` gives a contiguous piece of the input that neither starts nor ends with whitespace, with only whitespace before and after it. |
| `Strings.StripEmptyIffBlank` | UniGrading/tests/views.py:158-159 | A text strips to the empty string exactly when every character of it is whitespace, which is the blank-field test of the views. |
| `Strings.StripIsPiece` | UniGrading/tests/views.py:185 | The stripped text is a contiguous piece of the original. |
| `Strings.Split` | UniGrading/tests/views.py:151 | `str.split` always gives at least one part, no part holds the separator, and a text without the separator is its own single part. |
| `Strings.SplitAtFirst` | UniGrading/tests/views.py:151 | Splitting `a + c + b` when `a` has no `c` gives `a` followed by the parts of `b`. |
| `Strings.SplitJoinRoundTrip` | UniGrading/assignments/autograder.py:809 | Joining parts that do not hold the separator and splitting again gives the same parts back. |
| `Strings.IntToString` | UniGrading/tests/views.py:326 | `str(i)` starts with a minus exactly when `i` is negative, and every other character is a digit. |
| `Strings.NatToString` | UniGrading/tests/views.py:326 | The decimal rendering of a number is non-empty and made only of digits. |
| `Strings.ParseSigned` | UniGrading/tests/views.py:171 | `int()` yields a negative number only for text with a leading minus. |
| `Strings.DigitsValueOfNatToString` | UniGrading/tests/views.py:171 | Reading back the digits of a rendered number gives that number. |
| `Strings.ParseIntOfDigits` | UniGrading/tests/views.py:151 | `int(str(n)) == n` for every natural `n`. |
| `Strings.ParseIntOfNegative` | UniGrading/tests/views.py:330 | `int("-" + str(n)) == -n`. |
| `Strings.ParseIntRoundTrip` | UniGrading/tests/views.py:326-330 | `int(str(i)) == i` for every integer, so an `answer-{id}` field names exactly the id that was rendered. |
| `Paths.NameStart` | UniGrading/assignments/autograder.py:787 | The name of a path starts right after its last slash. |
| `Paths.Name` | UniGrading/assignments/autograder.py:757-758 | `Path.name` is slash-free and ends the path. |
| `Paths.Parent` | UniGrading/assignments/autograder.py:760 | `Path.parent`: the path is the parent, a slash and the name. A bare name has parent `.`. |
| `Paths.LastDot` | UniGrading/assignments/autograder.py:783 | Finds the last dot of a name, if any. |
| `Paths.Suffix` | UniGrading/assignments/autograder.py:783 | `Path.suffix` is empty or a dot-led proper tail of the name. It is non-empty whenever the name has an inner dot that is not its last character. |
| `Paths.NameStartOfJoin` | UniGrading/assignments/autograder.py:760 | Joining `a / b` with a slash-free `b` puts the name right after `a/`. |
| `Paths.ParentOfJoin` | UniGrading/assignments/autograder.py:760-766 | `(a / b).parent == a` and `(a / b).name == b`. |
| `Sorting.Insert` | UniGrading/assignments/autograder.py:770 | Insertion into a sorted list keeps it sorted and adds exactly the one element. |
| `Sorting.SortBy` | UniGrading/assignments/autograder.py:790 | `sorted` with a total preorder returns a sorted permutation of its input. |
| `Sorting.InsertStable` | UniGrading/assignments/autograder.py:790 | Insertion keeps equal keys in their input order. |
| `Sorting.SortByStable` | UniGrading/assignments/autograder.py:790 | `sorted` is stable: elements with equal keys keep their input order. |
| `Sorting.LexLeTotal` | UniGrading/assignments/autograder.py:751 | Any two strings are comparable in string order. |
| `Sorting.LexLeTransitive` | UniGrading/assignments/autograder.py:751 | String order is transitive. |
| `Sorting.LexLeIsTotalPreorder` | UniGrading/assignments/autograder.py:751 | String order is a total preorder, so `list.sort` on strings is well defined. |
| `Sorting.SortStrings` | UniGrading/assignments/autograder.py:751 | `out.sort()` returns the same strings in string order. |
| `Sorting.SortInts` | UniGrading/tests/views.py:157 | `sorted(question_indices)` returns the same numbers in ascending order. |
| `Json.Get` | UniGrading/assignments/autograder.py:417-424 | `dict.get` on a parsed object: present iff some field has the key, and then it is the value of the last such field (later duplicates win in `json.loads`). |
| `Json.GetOr` | UniGrading/assignments/autograder.py:424-428 | `d.get(k) or default`: the stored value when present and truthy, otherwise the default. |
| `Json.ToInt` | UniGrading/assignments/autograder.py:453 | `int(v)` gives the integer for ints, 0 or 1 for booleans, and raises for null, lists and objects. |
| `SafeCmd.Safe` | UniGrading/assignments/autograder.py:588-594 | `_safe_cmd` as written. The result is at most 2000 characters, does not start with whitespace, and contains none of the space-free forbidden fragments (`daemon`, `systemctl`, `&>`, `>/dev`). A command with no forbidden fragment at all is only stripped and cut to 2000 characters. |
| `SafeCmd.ReplaceEachKeepsClean` | UniGrading/assignments/autograder.py:591-593 | The replacement loop leaves a command with none of the fragments unchanged. |
| `SafeCmd.SafeIntended` | UniGrading/assignments/autograder.py:589-594 | The evident intent of `_safe_cmd`: none of the six forbidden fragments, `nohup ` and `service ` included, survives. |
| `SafeCmd.Scrub` | UniGrading/assignments/autograder.py:592-593 | Repeated replacement until a fixed point removes every forbidden fragment and never lengthens the command. |
| `SafeCmd.SafeIntendedAgrees` | UniGrading/assignments/autograder.py:591-594 | When one pass already leaves no forbidden fragment, the intended sanitiser and the one as written agree. |
| `SafeCmd.ScrubOnce` | UniGrading/assignments/autograder.py:592-593 | A command that one pass cleans is left as that one pass leaves it. |
| `SafeCmd.ReplaceNoLonger` | UniGrading/assignments/autograder.py:593 | Replacing a fragment of length at least one by a single space never lengthens the text. |
| `SafeCmd.ReplaceRemoves` | UniGrading/assignments/autograder.py:593 | After `str.replace(p, " ")` with a space-free `p`, `p` no longer occurs. |
| `SafeCmd.ReplaceKeepsAbsent` | UniGrading/assignments/autograder.py:592-593 | A later replacement by a space cannot create a space-free fragment that was absent. |
| `SafeCmd.AbsentAfterReplaceEach` | UniGrading/assignments/autograder.py:592-593 | After the loop over all fragments, every space-free fragment of the list is absent. |
| `SafeCmd.NohupCanSurvive` | UniGrading/assignments/autograder.py:590-593 | Counterexample: `_safe_cmd("nohupdaemonx")` still contains `nohup `. |
| `SafeCmd.NohupSurvives` | UniGrading/assignments/autograder.py:592-594 | Any command whose single pass leaves `nohup x` in front keeps `nohup ` after `_safe_cmd`. |
| `Plan.NonBlankItems` | UniGrading/assignments/autograder.py:102-103 | `[s.strip() for s in xs if s.strip()]`: every entry is a non-empty stripped item, and every item that strips to something non-empty is kept. |
| `Plan.NonEmpty` | UniGrading/assignments/autograder.py:102-103 | The `if s` filter keeps exactly the non-empty entries. |
| `Plan.NonEmptyConcat` | UniGrading/assignments/autograder.py:102-103 | The filter distributes over concatenation, so it keeps the entries in their order. |
| `Plan.NonBlankItemsConcat` | UniGrading/assignments/autograder.py:102-103 | The whole comprehension distributes over concatenation: the allowlist keeps the environment's order. |
| `Plan.AllowedImagesFrom` | UniGrading/assignments/autograder.py:90-103 | The allowlist is never empty and has no blank entry. It is the comprehension over the comma-separated environment value when that has a non-blank entry, and the built-in list otherwise. |
| `Plan.DefaultAllowedNonBlank` | UniGrading/assignments/autograder.py:90-101 | The built-in allowlist is non-empty and has no blank entry. |
| `Plan.ClampTimeout` | UniGrading/assignments/autograder.py:454 | A timeout is clamped into 30..240 and kept when already inside. |
| `Plan.FirstWithPrefix` | UniGrading/assignments/autograder.py:437-446 | Finds the first allowlisted image with a prefix, or reports that none exists. |
| `Plan.PickOr` | UniGrading/assignments/autograder.py:437-446 | Auto-pick either keeps the image or replaces it by an allowlisted image with the prefix. |
| `Plan.AutoPick` | UniGrading/assignments/autograder.py:434-447 | Maven commands pick a `maven:` image first, then gradle commands a `gradle:` image, then npm/node commands a `node:` image. Otherwise the image is unchanged, and it is always the image or an allowlisted one. |
| `Plan.Strs` | UniGrading/assignments/autograder.py:460-461 | Converts every command item with `str()`, keeping the order. |
| `Plan.Put` | UniGrading/assignments/autograder.py:462 | A dict assignment: the key maps to the new value, other keys are kept, and keys stay distinct. |
| `Plan.EnvMap` | UniGrading/assignments/autograder.py:449-462 | The env comprehension: distinct keys, keys at most 64 and values at most 200 characters, and every input key present, truncated. |
| `Plan.LastWithKey` | UniGrading/assignments/autograder.py:462 | Finds the last input entry whose truncated key is the given key, or reports that there is none. |
| `Plan.EnvMapEntry` | UniGrading/assignments/autograder.py:462 | Each output entry holds the value of the last input entry whose key truncates to the same key, truncated: a later key overwrites an earlier one in the dict comprehension. |
| `Plan.EnvMapLastBinding` | UniGrading/assignments/autograder.py:462 | The same for all output entries at once. |
| `Plan.SanitizeService` | UniGrading/assignments/autograder.py:421-465 | A service is rejected exactly when its timeout raises. Otherwise: the name is the falsy-defaulted `name` or `svcN` cut to 64; the image is the auto-picked one if allowlisted, else the default; the workdir defaults to `.`; setup and run are the first 12 items as `str`, run falling back to the no-op; the env is the env comprehension; network is the truthiness of `network`; the timeout is clamped. It satisfies every safety bound (see `SafeService`). |
| `Plan.TakeStrs` | UniGrading/assignments/autograder.py:460-461 | `[str(c) for c in xs][:12]` has `min(len(xs), 12)` entries, each the `str` of the item at the same index. |
| `Plan.CountObjects` | UniGrading/assignments/autograder.py:421-423 | Counts the dict entries of the services list. |
| `Plan.SanitizeServices` | UniGrading/assignments/autograder.py:420-466 | The loop raises iff some dict entry has a bad timeout. Otherwise it emits, for the k-th dict entry in order, exactly the service `SanitizeService` gives it with `k` services already emitted. |
| `Plan.NumberedCons` | UniGrading/assignments/autograder.py:420-424 | A service emitted for the head, followed by the services numbered after it for the tail, is the numbered output of the whole list. |
| `Plan.AllSafeCons` | UniGrading/assignments/autograder.py:456-465 | Adding a safe service to safe services keeps them all safe. |
| `Plan.BadTimeoutCons` | UniGrading/assignments/autograder.py:453 | The loop raises on a list iff its head or its tail raises. |
| `Plan.Sanitize` | UniGrading/assignments/autograder.py:413-466 | `_sanitize_plan`: not a plan iff the input is not a dict with a services list. It raises iff a timeout is bad. Otherwise the k-th service is `SanitizeService` of the k-th dict entry, numbered from `svc1`. |
| `Plan.TimeoutDefault` | UniGrading/assignments/autograder.py:453 | A missing or falsy timeout becomes 180. |
| `Plan.TimeoutClamped` | UniGrading/assignments/autograder.py:453-454 | An integer timeout is clamped, and 0 falls back to 180. |
| `Plan.RawTimeoutOfInt` | UniGrading/assignments/autograder.py:453 | `int(svc.get("timeout") or 180)` for an integer field is that integer, or 180 for 0. |
| `Plan.MavenCommandsPickMavenImage` | UniGrading/assignments/autograder.py:434-439 | A service whose joined setup and run commands mention maven gets the first allowlisted maven image. |
| `Plan.Detect` | UniGrading/assignments/autograder.py:1051-1097 | Marker precedence: Python markers first, then `package.json`, then Java build files, otherwise none. |
| `Plan.ServiceNamesDistinct` | UniGrading/assignments/autograder.py:1053-1099 | The fallback service names identify the detected kind uniquely. |
| `Plan.Fallback` | UniGrading/assignments/autograder.py:1039-1107 | `_fallback_plan` yields exactly one service, shaped as the detected kind requires. |
| `Plan.FallbackFor` | UniGrading/assignments/autograder.py:1048-1105 | Every marker kind gets a fallback service of the required shape. |
| `Plan.FallbackNames` | UniGrading/assignments/autograder.py:1051-1099 | The fallback service name is `python-checks`, `node-checks`, `java-tests` or `static-snapshot`, according to the markers. |
| `Plan.PythonChecks` | UniGrading/assignments/autograder.py:1051-1069 | The Python fallback uses the default image and has the required shape. |
| `Plan.NodeChecks` | UniGrading/assignments/autograder.py:1071-1081 | The Node fallback has the required shape. |
| `Plan.JavaTests` | UniGrading/assignments/autograder.py:1083-1096 | The Java fallback has the required shape. |
| `Plan.StaticSnapshot` | UniGrading/assignments/autograder.py:1097-1105 | The static fallback has the required shape. |
| `Plan.FallbackPython` | UniGrading/assignments/autograder.py:1051-1069 | With Python markers the fallback is the Python check service on the default image. |
| `Sandbox.NetworkMode` | UniGrading/assignments/autograder.py:503 | The network is `bridge` iff networking is allowed and the service asks for it, otherwise `none`. |
| `Sandbox.PassEnv` | UniGrading/assignments/autograder.py:521-522 | Passes every env pair whose upper-cased key is not `PATH`, and no other pair. |
| `Sandbox.SafeJoin` | UniGrading/assignments/autograder.py:516-517 | An empty list joins to the empty string. A single command is just its sanitised form. |
| `Sandbox.Compound` | UniGrading/assignments/autograder.py:516-519 | The shell line is `(run)` alone when the joined setup is empty, and exactly `(setup) \|\| true; (run)` otherwise, with the joined sanitised commands. |
| `Sandbox.RunPart` | UniGrading/assignments/autograder.py:517 | The run part is the `&&`-join of the sanitised commands when that is non-empty, and exactly `echo no-op` when it is empty. |
| `Sandbox.RequestFor` | UniGrading/assignments/autograder.py:503-542 | The container request has the service's image, works in `/work`, runs `sh -lc` on exactly the compound line, passes exactly the env pairs whose key is not `PATH` in any case, asks for 1g of memory and two CPUs, and uses `bridge` only when allowed and asked. |
| `Sandbox.Poll` | UniGrading/assignments/autograder.py:564-586 | Corrected poll: success iff the container stopped with exit code 0. |
| `Sandbox.PollAsWrittenNeverSucceeds` | UniGrading/assignments/autograder.py:571-573 | The poll as written never reports success, whatever the container does. |
| `Sandbox.CleanExitMisreported` | UniGrading/assignments/autograder.py:573 | On exit code 0 the corrected poll succeeds and the poll as written fails. |
| `Sandbox.RunServices` | UniGrading/assignments/autograder.py:489-562 | No Docker or no services means failure with no results. Otherwise there is one result per service, and overall success iff some launched container polled successfully. |
| `Sandbox.AnySucceeded` | UniGrading/assignments/autograder.py:560 | `ok_any` holds iff some launched service succeeded. |
| `Sandbox.RunServicesAsWrittenNeverSucceeds` | UniGrading/assignments/autograder.py:548-560 | With the poll as written, `run_services` never reports success. |
| `Inventory.ExtToLang` | UniGrading/assignments/autograder.py:793-799 | An extension maps to a language iff it is in the table, and always to one of its eleven languages. |
| `Inventory.CodeExtensionsHaveLanguages` | UniGrading/assignments/autograder.py:1116-1118 | Every name that counts as code has a language. |
| `Inventory.FilesOf` | UniGrading/assignments/autograder.py:742-748 | A path is listed iff some walked entry is a file with that path. |
| `Inventory.FilesOfConcat` | UniGrading/assignments/autograder.py:742-748 | Filtering files distributes over concatenated walks. |
| `Inventory.ListFiles` | UniGrading/assignments/autograder.py:740-752 | Lists the walk's files, capped at 20000, in string order, and all of them when under the cap. |
| `Inventory.Proposals` | UniGrading/assignments/autograder.py:756-768 | Proposes exactly the directories of marker files and the roots above `src/main/java`. |
| `Inventory.Dedup` | UniGrading/assignments/autograder.py:755 | The candidate set holds each proposal once. |
| `Inventory.RootBeforeIsTotalPreorder` | UniGrading/assignments/autograder.py:770 | The ranking key (depth, then name, reversed) is a total preorder. |
| `Inventory.CandidateRoots` | UniGrading/assignments/autograder.py:754-770 | Returns exactly the proposed roots, each once, deepest first, in the ranking order. |
| `Inventory.JavaRootOffByOne` | UniGrading/assignments/autograder.py:763-766 | For `src/main/java` the code as written proposes `src`, and the corrected version proposes `.`. |
| `Inventory.SrcMainJavaProposals` | UniGrading/assignments/autograder.py:766 | A `src/main/java` directory at the top proposes `src` as written and `.` when corrected. |
| `Inventory.Bump` | UniGrading/assignments/autograder.py:786 | `counts[k] = counts.get(k, 0) + n` raises only `k` by `n` and keeps keys distinct and positive. |
| `Inventory.Step` | UniGrading/assignments/autograder.py:783-789 | One path adds 1 to its language and 5 to its manifest name, and nothing else. |
| `Inventory.BumpIf` | UniGrading/assignments/autograder.py:785-789 | An optional key is bumped only when present. |
| `Inventory.Tally` | UniGrading/assignments/autograder.py:781-789 | The counts equal an independent per-key score over all files, and the keys are exactly those with a positive score. |
| `Inventory.DetectLanguages` | UniGrading/assignments/autograder.py:780-791 | Every key with a positive score appears once, with its score, by non-increasing score. Ties stay in first-seen order. |
| `Inventory.SortedTallyTies` | UniGrading/assignments/autograder.py:790 | The stable sort by score keeps equal scores in the dict's insertion order. |
| `Inventory.BumpNames` | UniGrading/assignments/autograder.py:786 | A new dict key goes last and existing keys keep their place. |
| `Inventory.TallyNames` | UniGrading/assignments/autograder.py:781-789 | The dict's keys are the languages and manifests in first-seen order. |
| `Inventory.TallyInSeenOrder` | UniGrading/assignments/autograder.py:781-789 | The tally lists its keys by first sighting. |
| `Inventory.PermutedTally` | UniGrading/assignments/autograder.py:790-791 | Any permutation of the tally keeps distinct keys and their scores. |
| `Inventory.ShallowOf` | UniGrading/assignments/autograder.py:803-806 | Keeps only listed files of at most 10 parts. |
| `Inventory.ShallowOfConcat` | UniGrading/assignments/autograder.py:803-806 | The shallow filter distributes over concatenation. |
| `Inventory.TreeSummary` | UniGrading/assignments/autograder.py:801-809 | The summary is the first 400 shallow files among the first 3000 listed, joined by newlines. |
| `Grading.StatusName` | UniGrading/assignments/autograder.py:1133-1138 | A status is reported as `done`, `partial` or `failed`, and `failed` only for a failure. |
| `Grading.Clamp` | UniGrading/assignments/autograder.py:1033-1034 | Grades are clamped into 0..100 and kept when inside. |
| `Grading.GradeTextual` | UniGrading/assignments/autograder.py:966-1022 | The grade stays in 0..100. It fails (grade 5) iff there is no LLM answer and no text or attachment. It is done iff the LLM answered and there was work. An unparsable LLM grade gives the 70 base. Without the LLM the heuristic gives exactly 70, plus 10 when the text is longer than 2000 characters. |
| `Grading.MimeOf` | UniGrading/assignments/autograder.py:156 | A non-empty guess is kept, and the type is never empty: the code falls back to `application/octet-stream`. |
| `Grading.Route` | UniGrading/assignments/autograder.py:161-182 | The file kind, one iff per kind in the code's precedence order: archive, notebook, code, PDF, DOCX, text, image, otherwise binary. |
| `Grading.NotebookRequest` | UniGrading/assignments/autograder.py:599-650 | An executed notebook with exit 0 earns the bonus and its log tail reaches the textual grading step. Otherwise the static text is graded. |
| `Grading.SingleCodeRequest` | UniGrading/assignments/autograder.py:652-680 | A single code file is graded on a non-empty text that ends with its run log's tail. |
| `Grading.GradeContext` | UniGrading/assignments/autograder.py:840-841 | The grading context holds the tree summary and ends with the log tail, plus a bounded header. |
| `Grading.PlanRuns` | UniGrading/assignments/autograder.py:266-292 | Success comes from the refined run when a refine happened. The log graded is the first run's log as written, and the refined log in the corrected pipeline. |
| `Grading.StaleLogGraded` | UniGrading/assignments/autograder.py:270-291 | Example: a failed first run refined into a passing one still grades the first run's log. |
| `Grading.ArchiveRequest` | UniGrading/assignments/autograder.py:220-301 | A failed extraction grades the peeked text. An archive with a notebook goes through the notebook handler. Otherwise the project run is graded with its context. |
| `Grading.RequestFor` | UniGrading/assignments/autograder.py:161-182 | Each kind builds its grading request. Documents and images use the extracted text, and only notebook paths can earn the notebook bonus. |
| `Grading.Leniency` | UniGrading/assignments/autograder.py:193-196 | The leniency step only raises a grade, and only to the floor of 40, and never touches failures or undetected work. |
| `Grading.Handle` | UniGrading/assignments/autograder.py:639-642 | A handler's grade is in 0..100, is at least 80 with the notebook bonus, and fails exactly as the textual grader does. |
| `Grading.Pipeline` | UniGrading/assignments/autograder.py:121-198 | Unreadable storage fails with 0, a crash fails with 5, and grades stay in 0..100. |
| `Grading.GradeSubmission` | UniGrading/assignments/autograder.py:121-198 | `grade_submission` as written, with its storage-failure and crash outcomes and the 0..100 bound. |
| `Grading.GradeSubmissionIntended` | UniGrading/assignments/autograder.py:289-292 | The corrected pipeline grades the refined run's log. It has the same failure outcomes and bounds. |
| `Grading.IntendedDiffersOnlyAfterRefine` | UniGrading/assignments/autograder.py:274-292 | Both pipelines agree unless an extracted project archive failed its first run and was refined. |
| `Grading.StaleLogMisgrades` | UniGrading/assignments/autograder.py:271-292 | With the LLM unavailable, a short first log and a long refined log, the code as written gives 70 and the corrected pipeline 80. |
| `Grading.ArchiveTextLengths` | UniGrading/assignments/autograder.py:289-291 | In that situation the text graded as written is at most 2000 characters, and the corrected text is longer. |
| `Grading.RaisedModelGrade` | UniGrading/assignments/autograder.py:1008-1022 | When the LLM raises, the heuristic gives 70 plus 10 for more than 2000 characters, and leniency leaves it there. |
| `Grading.FailsExactly` | UniGrading/assignments/autograder.py:147-196 | A submission fails exactly on unreadable storage, a crash, or nothing gradable with no LLM answer. |
| `Grading.FloorWhenWorkSeen` | UniGrading/assignments/autograder.py:193-196 | Any non-failed submission whose work was seen gets at least 40. |
| `Grading.CodeNeverFails` | UniGrading/assignments/autograder.py:652-680 | A readable single code file never fails and gets at least 40. |
| `Grading.ExtractedArchiveNeverFails` | UniGrading/assignments/autograder.py:220-301 | An extracted project archive never fails and gets at least 40. |
| `Grading.CleanNotebookFloor` | UniGrading/assignments/autograder.py:639-642 | A notebook that executes cleanly gets at least 80. |
| `Grading.EmptyDocumentFails` | UniGrading/assignments/autograder.py:1013-1015 | An empty document with no LLM answer fails with 5. |
| `LegacyGrader.Final` | UniGrading/assignments/autgrader.py:796-805 | Keeps the status. A missing grade stays missing, and a present grade is clamped. |
| `LegacyGrader.GradeTextual` | UniGrading/assignments/autgrader.py:705-769 | Done with the clamped LLM grade iff the whole `try` block succeeds, that is, the LLM answers with a number and a `suggestions` value `str.join` accepts (any other answer is `LlmRaised`). Otherwise failed with no grade. The report flag records any work seen. |
| `LegacyGrader.GradeSubmission` | UniGrading/assignments/autgrader.py:83-184 | Never partial, and the grade is missing iff failed. Storage failure or a crash fails, and it is done iff the LLM graded. |
| `LegacyGrader.ApplyResult` | UniGrading/assignments/autgrader.py:187-216 | A missing grade keeps the stored one. A known status is stored and an unknown one becomes `failed`. |
| `LegacyGrader.PartialStoredAsFailed` | UniGrading/assignments/autgrader.py:204-209 | A `partial` status is stored as `failed`. |
| `LegacyGrader.ApplyKeepsGradeOnManualReview` | UniGrading/assignments/autgrader.py:193-209 | A failed legacy grading leaves the stored grade untouched. |
| `LegacyGrader.ChooseImage` | UniGrading/assignments/autgrader.py:489-510 | The container image for each language, with the environment override for Python. |
| `LegacyGrader.LangCmdSingle` | UniGrading/assignments/autgrader.py:513-520 | The run command by language or extension: python, bash, node, otherwise `sh`. |
| `LegacyGrader.RunSingle` | UniGrading/assignments/autgrader.py:421-549 | A Docker run reports success whatever the exit code. A local run succeeds iff the exit code is 0, and an exception reports no run. |
| `LegacyGrader.DockerIgnoresExitCode` | UniGrading/assignments/autgrader.py:461-472 | Exit code 1 counts as success under Docker but not locally. |
| `Tasks.RunAutograde` | UniGrading/assignments/tasks.py:20-73 | A missing submission changes nothing. Otherwise only that submission changes, and it passes through `running` to `done` or `failed`. A result with a grade is stored, as `done` for a done or partial status. A result without a grade clears the grade and leaves `failed` for manual review. |
| `Tasks.FromCurrent` | UniGrading/assignments/autograder.py:1133-1144 | The current grader always delivers a grade. |
| `Tasks.FromLegacy` | UniGrading/assignments/autgrader.py:796-805 | The legacy grader's grade is passed through. |
| `Tasks.CurrentPipelineNeverManual` | UniGrading/assignments/tasks.py:43-73 | Results of the current grader are never sent to manual review. |
| `Tasks.LegacyPipelineManualExactlyOnFailure` | UniGrading/assignments/tasks.py:43-65 | Results of the legacy grader go to manual review exactly when it failed. |
| `Models.Or` | UniGrading/assignments/models.py:12 | `a or b` on strings. |
| `Models.SegmentsOf` | UniGrading/assignments/models.py:14 | Slash-free parts joined with `/` split back into exactly those parts and the file name. |
| `Models.JoinPath` | UniGrading/assignments/models.py:14 | The joined path ends with `/` and the file name. |
| `Models.AssignmentUploadPath` | UniGrading/assignments/models.py:10-14 | The path is `professor/subject/assignment-files/<file>`. The professor falls back to the username and then to `prof`, and the subject to `subject`. With slash-free slugs, each segment is exactly that slug. |
| `Models.SubmissionUploadPath` | UniGrading/assignments/models.py:53-63 | The path is `professor/subject/assignment-submissions/assignment/student/<file>`, segment by segment. The assignment falls back to `assignment-{pk}` and the student to `user-{id}`. |
| `Models.GradingKeepsStatusDomain` | UniGrading/assignments/models.py:76-82 | The task only ever stores a status from the field's choices. |
| `Models.SubjectFileUploadPath` | UniGrading/subjects/models.py:8-27 | The path is professor, subject and category. A student's upload adds the student's own folder. Anyone else uploading to `assignments` or `tests` gets `<category> Files`. |
| `Access.ListAssignments` | UniGrading/assignments/views.py:40-52 | Empty unless the user owns the subject or is enrolled. Otherwise exactly the subject's assignments. |
| `Access.CanSubmit` | UniGrading/assignments/views.py:70-93 | Professors get no flag. A student can submit iff the deadline has not passed and, when submissions are tracked, they have not submitted. |
| `Access.DeleteAssignment` | UniGrading/assignments/views.py:180-188 | Deletes iff the assignment exists and the user may delete it, removing exactly that id. Otherwise nothing changes. |
| `Access.FirstWithId` | UniGrading/assignments/views.py:181 | `get_object_or_404` finds the record with the key when one exists. |
| `Access.FindAssignment` | UniGrading/assignments/views.py:181 | A lookup by key finds a record with that key, or reports that none exists. |
| `Access.RemoveId` | UniGrading/assignments/views.py:187 | Deleting removes exactly the records with that key. |
| `Subjects.WithoutIds` | UniGrading/subjects/views.py:254-262 | Cascading deletion keeps exactly the categories outside the deleted set. |
| `Subjects.WithoutIdsPairwise` | UniGrading/subjects/views.py:254-262 | Deleting categories keeps every pairwise invariant. |
| `Subjects.FindSubject` | UniGrading/subjects/views.py:299 | A subject lookup finds the subject with the key, or reports that none exists. |
| `Subjects.FindCategory` | UniGrading/subjects/views.py:399-400 | A category lookup finds the category with the key, or reports that none exists. |
| `Subjects.SameFoldSymmetric` | UniGrading/subjects/views.py:310-317 | The case-insensitive name clash is symmetric. |
| `Subjects.RenameSubjectIn` | UniGrading/subjects/views.py:323-324 | Renames exactly the subject with the key. |
| `Subjects.RenameCategoryIn` | UniGrading/subjects/views.py:281-282 | Renames exactly the category with the key. |
| `Subjects.RenameKeepsUnique` | UniGrading/subjects/views.py:314-325 | A rename that passes the clash check keeps subject names unique per professor. |
| `Subjects.GetOrCreate` | UniGrading/subjects/views.py:161-170 | `get_or_create` adds a missing name once and keeps the existing ones. |
| `Subjects.InitialCategories` | UniGrading/subjects/views.py:161-170 | A new subject's folders are the defaults plus the non-blank extras, each once. |
| `Subjects.TopLevel` | UniGrading/subjects/views.py:161-170 | Creates the initial folders as top-level categories of the new subject. |
| `Subjects.CreateSubject` | UniGrading/subjects/views.py:142-172 | Refuses a name the professor already uses, ignoring case. Otherwise it adds the subject with its folders and keeps names unique and ids distinct. |
| `Subjects.NewSubjectCategories` | UniGrading/subjects/views.py:158-170 | A created subject's top-level folder names are unique. |
| `Subjects.TopLevelOfNew` | UniGrading/subjects/views.py:161-170 | A top-level folder of the new subject comes from its initial names. |
| `Subjects.AppendNewKeepsTopLevelUnique` | UniGrading/subjects/views.py:161-170 | Adding a new subject's folders keeps top-level names unique. |
| `Subjects.RenameSubject` | UniGrading/subjects/views.py:294-325 | Replies 404 for no subject, 403 for a non-owner, 400 for a blank name, accepts an unchanged name, and 409 for a clash. Otherwise it renames and keeps names unique. |
| `Subjects.SubjectPost` | UniGrading/subjects/views.py:206-287 | The subject page actions: rename (400, 409 or applied), description, new top-level folder (exact top-level duplicate refused), delete (404, protected folders kept), and update category (accepted iff not blank, of this subject, not protected, no exact top-level duplicate and no exact sibling; an exact sibling is a server error). |
| `Subjects.SubjectRename` | UniGrading/subjects/views.py:212-228 | Blank name 400, a case-insensitive clash with another subject of the professor 409, otherwise exactly that subject renamed, keeping names unique. |
| `Subjects.DescriptionUpdate` | UniGrading/subjects/views.py:231-236 | A blank description only redirects; otherwise only that subject's description changes. |
| `Subjects.TopLevelCreate` | UniGrading/subjects/views.py:239-251 | Accepted iff the name is non-blank and no top-level folder of the subject has it exactly; then the folder is appended. |
| `Subjects.Descendants` | UniGrading/subjects/views.py:261 | The keys a cascading delete removes: only stored categories, always including the deleted one. |
| `Subjects.CategoryDelete` | UniGrading/subjects/views.py:254-262 | 404 for an unknown key; accepted iff the category is not protected, and then it goes with everything under it. |
| `Subjects.CategoryRename` | UniGrading/subjects/views.py:265-285 | Accepted iff the name is non-blank, the category belongs to the subject, is not protected, and neither a top-level folder nor a sibling has the name exactly; a sibling with the exact name raises the unique-together error, a server error. |
| `Subjects.SubjectPostKeepsTopLevelUnique` | UniGrading/subjects/views.py:239-285 | The subject page keeps top-level folder names unique. |
| `Subjects.Subfolder` | UniGrading/subjects/views.py:443-446 | Finds a child folder with the key, or reports that none exists. |
| `Subjects.FolderPost` | UniGrading/subjects/views.py:399-527 | The folder page: 404 for a missing folder, owner only, then create, rename or delete a subfolder. Sibling names stay unique. |
| `Subjects.OwnerOf` | UniGrading/subjects/views.py:404-405 | The owner of the folder's subject, when the subject exists. |
| `Subjects.CreateFolderIn` | UniGrading/subjects/views.py:417-431 | A blank name gives 400 and a sibling clash 409. Otherwise the folder is appended, keeping sibling names unique. |
| `Subjects.RenameFolderIn` | UniGrading/subjects/views.py:434-456 | Replies 400, 404 or 409 as the checks fail. Otherwise it renames exactly that subfolder, keeping sibling names unique. |
| `Subjects.DeleteFolderIn` | UniGrading/subjects/views.py:459-473 | Replies 404 for no such subfolder and 409 iff it is non-empty. Otherwise it deletes exactly it. |
| `Subjects.Without` | UniGrading/subjects/views.py:472 | Removes exactly the category with the key. |
| `Subjects.RenameKeepsOthers` | UniGrading/subjects/views.py:281-282 | Renaming one category keeps every other category unchanged. |
| `Subjects.SubjectPostKeepsProtected` | UniGrading/subjects/views.py:258-259 | No subject page action removes a protected top-level folder. |
| `Subjects.FolderPostKeepsProtected` | UniGrading/subjects/views.py:459-473 | No folder page action removes a protected top-level folder. |
| `Subjects.SubjectPageRenameSkipsSiblings` | UniGrading/subjects/views.py:265-285 | Example: the subject page lets a subfolder take a sibling's name, because it checks only top-level names. |
| `Subjects.NotesRenameAccepted` | UniGrading/subjects/views.py:265-285 | In that example the rename is accepted and applied: `notes` differs from the sibling `Notes`, so the database takes it. |
| `Subjects.SubjectPageExactSiblingFails` | UniGrading/subjects/models.py:54-55 | Renaming a subfolder on the subject page to a sibling's exact name passes the view's checks and fails on the unique-together constraint: a server error, with nothing changed. |
| `Subjects.RenamedSiblingsClash` | UniGrading/subjects/views.py:449-452 | After that rename two siblings share a name, which the folder page would refuse. |
| `Subjects.SiblingExampleUnique` | UniGrading/subjects/views.py:449-452 | Before the rename the example's sibling names were unique. |
| `Subjects.DeleteSubcategory` | UniGrading/subjects/views.py:573-586 | 404 for a missing category. Otherwise it deletes iff the category is empty, removing exactly it. |
| `Subjects.EmptyProtectedDeletableAsFolder` | UniGrading/subjects/views.py:573-586 | Example: `delete_subcategory` removes an empty protected top-level folder, because it has no protection check. |
| `Subjects.AncestorChain` | UniGrading/subjects/views.py:339-343 | The parent chain ends at the category, links each element to the next by parent, and stops at a root or a missing parent. |
| `Subjects.CategoryCrumbs` | UniGrading/subjects/views.py:346-356 | Dashboard, My Subjects and the subject come first, then one crumb per ancestor, and the current category last. |
| `Breadcrumbs.EntityName` | UniGrading/UniGrading/middleware.py:20-21 | An existing entity's non-empty name, otherwise nothing. |
| `Breadcrumbs.CrumbName` | UniGrading/UniGrading/middleware.py:17-42 | Fixed names for the dashboard and My Subjects, the entity name for details, `Unknown` for no view. Any other view name gives, character by character, a blank for `_` and otherwise the title-cased character. Only details can yield nothing. |
| `Breadcrumbs.CrumbNameRecoversView` | UniGrading/UniGrading/middleware.py:37-40 | For a view name without blanks, turning the crumb's blanks back into underscores gives the view name up to case. |
| `Breadcrumbs.KeepValid` | UniGrading/UniGrading/middleware.py:51-59 | Keeps exactly the crumbs that are current or still valid, in order. |
| `Breadcrumbs.KeepValidConcat` | UniGrading/UniGrading/middleware.py:52-55 | The validity filter distributes over concatenation. |
| `Breadcrumbs.Trail` | UniGrading/UniGrading/middleware.py:72-76 | The history up to and including the first crumb of the current URL. |
| `Breadcrumbs.Record` | UniGrading/UniGrading/middleware.py:61-69 | Appends the current page iff its URL is new, keeping URLs distinct. |
| `Breadcrumbs.Display` | UniGrading/UniGrading/middleware.py:71-79 | The last five crumbs of the trail, ending at the current page. |
| `Breadcrumbs.Visit` | UniGrading/UniGrading/middleware.py:48-82 | After a visit the history is exactly the valid old crumbs in order, followed by `Crumb(name, path)` iff no kept crumb has the current URL. The breadcrumbs are the trail's last five. |
| `Breadcrumbs.VisitHistory` | UniGrading/UniGrading/middleware.py:51-66 | The recorded history is the kept crumbs plus the named current page iff its URL is absent. Every old valid crumb survives, every other crumb is the current page, and URLs stay distinct. |
| `Breadcrumbs.VisitMembers` | UniGrading/UniGrading/middleware.py:62-66 | A crumb is in the new history iff it was kept, or it is the current page under its name and the URL was not yet there. |
| `Breadcrumbs.VisitShowsNewCrumb` | UniGrading/UniGrading/middleware.py:62-79 | A page whose URL was new is shown as the last breadcrumb, under its name. |
| `Breadcrumbs.NewCrumbShown` | UniGrading/UniGrading/middleware.py:71-79 | A crumb appended with a new URL ends its own trail, so it is the last of the five shown. |
| `Breadcrumbs.DashboardVisit` | UniGrading/UniGrading/middleware.py:28-30 | The dashboard resets both lists to the dashboard alone. |
| `Breadcrumbs.ProcessView` | UniGrading/UniGrading/middleware.py:6-84 | Login and logout change nothing. A missing entity changes nothing. A tracked page is filtered, recorded and shown as the last five of its trail. When its URL is new it is appended under its crumb name. |
| `Breadcrumbs.TrackedVisit` | UniGrading/UniGrading/middleware.py:48-66 | A tracked view grows the kept history by one crumb iff its URL is new, and that crumb carries the view's crumb name and URL. |
| `Breadcrumbs.ProcessViewShowsNewCrumb` | UniGrading/UniGrading/middleware.py:62-79 | A tracked page whose URL was new is shown last, under its crumb name. |
| `Quiz.Get` | UniGrading/tests/views.py:158 | `request.POST.get`: present iff the key was sent, and then the last value sent under it. |
| `Quiz.LastBefore` | UniGrading/tests/views.py:158 | Finds the last position of a key before a bound. |
| `Quiz.Field` | UniGrading/tests/views.py:158 | `(get(k) or "").strip()`: empty when missing, otherwise stripped. |
| `Quiz.Slice` | UniGrading/tests/views.py:169 | A Python slice with reversed bounds is empty. |
| `Quiz.InsertIndex` | UniGrading/tests/views.py:152 | Adding to an increasing set keeps it increasing and adds exactly the element. |
| `Quiz.IndexSet` | UniGrading/tests/views.py:147-157 | `sorted(set(...))` of the parsed indices: increasing, and exactly the indices that parsed. |
| `Quiz.QuestionIndices` | UniGrading/tests/views.py:147-157 | Exactly the indices of `questions-N-text` keys, ascending. |
| `Quiz.ChoiceIndices` | UniGrading/tests/views.py:164-174 | Exactly the indices of this question's choice keys, ascending. |
| `Quiz.Kept` | UniGrading/tests/views.py:157-160 | Skips indices whose text is blank, keeping the order. |
| `Quiz.BuildChoices` | UniGrading/tests/views.py:184-190 | One choice per non-blank text, in index order, marked correct iff its index is the correct one. |
| `Quiz.MarkedCount` | UniGrading/tests/views.py:188 | At most the one listed correct index is marked. |
| `Quiz.MarkDefault` | UniGrading/tests/views.py:193-197 | If none is marked, the first choice becomes correct, so a question with choices has exactly one correct. |
| `Quiz.DraftedChoices` | UniGrading/tests/views.py:183-197 | A saved question's choices have exactly one correct when there are any. |
| `Quiz.BuildQuestion` | UniGrading/tests/views.py:158-197 | A question is saved iff its text is non-blank, with the choices as sent and exactly one correct. |
| `Quiz.BuildQuestions` | UniGrading/tests/views.py:157-199 | The saved questions are the non-blank ones, in ascending index order, each as sent. |
| `Quiz.ParseTestForm` | UniGrading/tests/views.py:146-199 | The whole form: non-blank questions in index order, each as sent, each with exactly one correct choice when it has choices. |
| `Quiz.AllSavedShaped` | UniGrading/tests/views.py:157-199 | Every saved question has non-blank text and one correct choice. |
| `Quiz.SavedShape` | UniGrading/tests/views.py:158-197 | One saved question has that shape. |
| `Quiz.ChoicesFromCount` | UniGrading/tests/views.py:184-197 | Choices drafted from the form have exactly one correct when there are any. |
| `Quiz.QuestionKeyIndex` | UniGrading/tests/views.py:149-152 | The key `questions-N-text` parses back to `N`. |
| `Quiz.ChoiceKeyIndex` | UniGrading/tests/views.py:168-172 | The key `questions-Q-choice-C-text` parses back to `C` for question `Q`. |
| `Quiz.MarkedChoiceIsTheCorrectOne` | UniGrading/tests/views.py:177-197 | When the marked index has non-blank text, it is the only correct choice. |
| `Quiz.MarkedWins` | UniGrading/tests/views.py:184-197 | The marked choice wins over the default-first rule. |
| `Quiz.ListedChoice` | UniGrading/tests/views.py:164-174 | Every sent choice key is listed among the question's choice indices. |
| `Quiz.FindChoice` | UniGrading/tests/views.py:330 | `q.choices.get(pk=id)` finds that question's choice, or reports that none exists. |
| `Quiz.Picked` | UniGrading/tests/views.py:326-332 | The picked answer is always a choice of that question. |
| `Quiz.CorrectAnswers` | UniGrading/tests/views.py:325-342 | The score is at most the number of questions. |
| `Quiz.Point` | UniGrading/tests/views.py:334-342 | A question scores one iff it was answered with a correct choice. |
| `Quiz.ScoreAttempt` | UniGrading/tests/views.py:312-345 | The maximum is the question count, the score counts the correct answers, and all correct gives full marks. |
| `Quiz.ScorePrefix` | UniGrading/tests/views.py:325-342 | Scoring one more question adds its point. |
| `Quiz.AllCorrect` | UniGrading/tests/views.py:341-342 | All questions correct gives full marks. |
| `Quiz.Percent` | UniGrading/tests/views.py:347 | The percentage is 0 with no questions, lies in 0..100, and is 100 for full marks. |
| `Quiz.SubmitAttempt` | UniGrading/tests/views.py:297-349 | Only an enrolled student or the owner may submit, and only once. The stored attempt has the computed score, and attempts stay one per student and test. |

Some members are definitions with no contract of their own. The rows above
state their properties through the members that use them:

- `Access.IsOwnerProf` (assignments/views.py:26-27) and `Access.CanDelete` (assignments/views.py:184-187): see `Access.ListAssignments` and `Access.DeleteAssignment`.
- `Inventory.IsArchive`, `Inventory.LooksLikeCode` and `Inventory.LooksLikeImage` (assignments/autograder.py:1112-1121), and `Grading.KindOf` (assignments/autograder.py:155-156): see `Grading.Route`, `Grading.FailsExactly` and `Inventory.CodeExtensionsHaveLanguages`.
- `Sandbox.PollAsWritten` (assignments/autograder.py:571-573): see `Sandbox.PollAsWrittenNeverSucceeds`.
- `SafeCmd.ReplaceEach` (assignments/autograder.py:591-593) and `Strings.Replace`: see `SafeCmd.ReplaceEachKeepsClean` and `SafeCmd.AbsentAfterReplaceEach`.
- `Subjects.IsProtected` (subjects/views.py:209, 258): see `Subjects.CategoryDelete` and `Subjects.SubjectPostKeepsProtected`.
- `Strings.ParseInt` (tests/views.py:151): see `Strings.ParseIntRoundTrip`. `Strings.Join` (assignments/autograder.py:809): see `Strings.SplitJoinRoundTrip`.

## Left out

- Storage, Docker, the LLM, the clock, the database and Celery are not modelled. What the program observes from each one is an input: `Effects`, `LlmReply`, `PollEnd`, `Launch`, `Exec`, `now`, and the store records.
- The text extraction helpers are left out. The PDF, DOCX, image, notebook and archive readers, and their length caps, enter only as the text they return.
- The LLM prompts and `_collect_key_hints` are left out. Only whether the model answered, and with what number, matters to the grade.
- The feedback and log strings of the graders are left out, except where a log tail reaches the textual grading step. The time stamps are left out too.
- Floating-point rounding is not modelled. Grades and percentages are reals, so `round(pct, 2)` and float parsing of the LLM's reply are not modelled.
- JSON floats are not modelled. A float timeout in a plan is not represented, and only integers, booleans, strings, null, lists and objects are.
- `Json.Repr` renders values for `str()` without escaping quotes and without Python's switch of quote style.
- `_best_root_by_markers` is not modelled. It only tests the ranked candidates for existence on disk.
- The workdir resolution of `run_services` (autograder.py:506-514) is left out. The container request always works in `/work`, and the volume mounts are not represented.
- The current autograder's single-file runner, its image table and its command table (autograder.py:682-730) are left out. Only the run log they produce is an input.
- The legacy grader's per-kind handlers (autgrader.py:236-351) are left out. Only the text they hand to the textual grader is modelled.
- The Celery retry policy (`autoretry_for`, tasks.py:15) is left out, because retries re-run the same pure step.
- Django's errors for malformed primary keys are left out. A non-numeric key raises `ValueError` or a 404 before any view logic runs, so keys are integers here.
- `Quiz.SubmitAttempt`: `int(request.POST.get("elapsed_seconds", 0) or 0)` (tests/views.py:322) raises on non-numeric input. The model does not store the duration, so that error path is not modelled.
- `LegacyGrader.GradeTextual`: a `suggestions` value that `"\n- ".join` rejects (null, a number, a list holding a non-string) makes the legacy grader fail (autgrader.py:761-769). The model has no separate input for it: such an answer is `LlmRaised` for this grader, though the current grader, which applies `str` to each item (autograder.py:1001-1005), sees it as `LlmAnswered`.
- The `Quiz` rows model only the view-side logic. `tests/views.py` imports `AttemptAnswer` (lines 16-23) and passes `max_score` and `duration_seconds` (lines 320, 322), none of which `tests/models.py` defines, so the module fails to import as it stands.
- `Access.ListAssignments`: states the set of assignments returned, not the `order_by("-due_date", "title")` ordering (assignments/views.py:51).
- `Strings.Strip`: whitespace is ASCII whitespace plus `\x1c`-`\x1f`. Unicode spaces such as `\x85`, `\xa0` and `\u2028`, which Python also strips, are not modelled.
- `Strings.Lower`: only ASCII letters change case. The same goes for `Strings.Upper` and `Strings.Title`.
- `Subjects.SameFoldSymmetric`: `iexact` and `casefold` comparisons use the ASCII lowering, so Unicode case folding is not modelled. The same goes for `Sandbox.PassEnv`.
- `Strings.ParseSigned`: Python's `int()` also accepts `_` digit separators (`1_000`) and non-ASCII digits. The model rejects both.
- `Subjects.AncestorChain`: the parent walk carries a fuel bound. The source loop has none and relies on the category tree being acyclic. A chain longer than the fuel is cut off.
- `Grading.GradeSubmission`: states the failure outcomes and bounds. The grade of each path is stated by the lemmas that follow it, such as `Grading.FailsExactly`, `Grading.FloorWhenWorkSeen` and `Grading.CleanNotebookFloor`.

## Findings

| source | as written | input that shows it | evidently intended | confidence | as-written member | corrected member |
|---|---|---|---|---|---|---|
| UniGrading/assignments/autograder.py:573 | `ok = int(exit_code or 1) == 0`, so exit code 0 turns into 1 | a container that stops with exit code 0 | success iff the container exits with 0 | high, not executed | `Sandbox.CleanExitMisreported` | `Sandbox.Poll` |
| UniGrading/assignments/autograder.py:271-292 | after a successful plan refine, the grade is computed from the first run's log (`sandbox_last_log`) | LLM raises, first run fails with a short log, refined run produces a log over 2000 characters: graded 70 | grade the refined run's log (80 here) | medium, not executed | `Grading.StaleLogMisgrades` | `Grading.GradeSubmissionIntended` |
| UniGrading/assignments/autograder.py:766 | `d.parent.parent` for `d = src/main/java` is `src` | an archive whose only marker is `src/main/java` at the top | the project root above `src`, i.e. `.` | high, not executed | `Inventory.JavaRootOffByOne` | `Inventory.CandidateRoots` |
| UniGrading/assignments/autograder.py:588-594 | one replacement pass over the fragments, in list order | `nohupdaemonx` becomes `nohup x`, which still contains `nohup ` | no forbidden fragment in the result | high, not executed | `SafeCmd.NohupCanSurvive` | `SafeCmd.SafeIntended` |

=== FILE: access.dfy ===
/** Who may see, submit to, edit and delete assignments
    (UniGrading/assignments/views.py). Times are instants on one integer
    clock; the current time is an input. */
module Access {
  import opened Wrappers

  /** A signed-in user; `role` is absent when the user record has none. */
  datatype User = User(id: int, role: Option<string>)

  /** The part of a subject the rules read. */
  datatype SubjectRef = SubjectRef(id: int, professorId: Option<int>)

  datatype Assignment = Assignment(id: int, subject: int, professor: int, title: string, due: Option<int>)

  /** `_is_owner_prof`: a professor who owns the subject. */
  predicate IsOwnerProf(u: User, s: SubjectRef) {
    u.role == Some("professor") && s.professorId == Some(u.id)
  }

  /** `AssignmentListView.get_queryset`: the subject's assignments for its
      professor and for enrolled users, nothing for anyone else. */
  function ListAssignments(u: User, s: SubjectRef, enrolled: bool, all: seq<Assignment>): (r: seq<Assignment>)
    ensures !IsOwnerProf(u, s) && !enrolled ==> r == []
    ensures IsOwnerProf(u, s) || enrolled ==> forall a :: a in r <==> a in all && a.subject == s.id
    ensures |r| <= |all|
    decreases |all|
  {
    if !IsOwnerProf(u, s) && !enrolled then []
    else if |all| == 0 then []
    else
      var rest := ListAssignments(u, s, enrolled, all[1..]);
      assert forall a :: a in all <==> a == all[0] || a in all[1..];
      if all[0].subject == s.id then [all[0]] + rest else rest
  }

  /** The `can_submit` flag of the list and detail pages: set only for
      users who are not professors; true while the deadline has not passed
      (or there is none), and false once the user has a submission when the
      submission model is present. */
  function CanSubmit(u: User, due: Option<int>, now: int, submitted: bool, hasSubmissions: bool): (r: Option<bool>)
    ensures r.None? <==> u.role == Some("professor")
    ensures r == Some(true) ==> due.None? || now < due.value
    ensures r == Some(true) ==> !(hasSubmissions && submitted)
    ensures r.Some? && (due.None? || now < due.value) && !(hasSubmissions && submitted) ==> r == Some(true)
  {
    if u.role == Some("professor") then None
    else
      var open := due.None? || due.value > now;
      Some(if hasSubmissions && submitted then false else open)
  }

  /** Editing and creating assignments: the subject's owning professor only. */
  predicate CanManage(u: User, s: SubjectRef) {
    IsOwnerProf(u, s)
  }

  /** `delete_assignment`: the assignment's professor or the subject's
      owning professor removes it; anyone else is sent back to the list
      with nothing changed. The flag says whether it was deleted. */
  function DeleteAssignment(all: seq<Assignment>, pk: int, u: User, subjectOf: int -> SubjectRef): (r: (seq<Assignment>, bool))
    ensures r.1 <==> (exists a | a in all :: a.id == pk) && CanDelete(u, FirstWithId(all, pk).value, subjectOf)
    ensures !r.1 ==> r.0 == all
    ensures r.1 ==> forall a :: a in r.0 <==> a in all && a.id != pk
    ensures |r.0| <= |all|
  {
    match FindAssignment(all, pk)
    case None => (all, false)
    case Some(a) =>
      if CanDelete(u, a, subjectOf) then (RemoveId(all, pk), true) else (all, false)
  }

  /** The rule `delete_assignment` applies. */
  predicate CanDelete(u: User, a: Assignment, subjectOf: int -> SubjectRef) {
    u.id == a.professor || IsOwnerProf(u, subjectOf(a.subject))
  }

  function FirstWithId(all: seq<Assignment>, pk: int): (r: Option<Assignment>)
    requires exists a | a in all :: a.id == pk
    ensures r.Some? && r.value in all && r.value.id == pk
    ensures r == FindAssignment(all, pk)
  {
    FindAssignment(all, pk)
  }

  function FindAssignment(all: seq<Assignment>, pk: int): (r: Option<Assignment>)
    ensures r.Some? ==> r.value in all && r.value.id == pk
    ensures r.None? <==> forall a | a in all :: a.id != pk
    decreases |all|
  {
    if |all| == 0 then None
    else if all[0].id == pk then Some(all[0])
    else
      assert forall a | a in all :: a == all[0] || a in all[1..];
      FindAssignment(all[1..], pk)
  }

  function RemoveId(all: seq<Assignment>, pk: int): (r: seq<Assignment>)
    ensures forall a :: a in r <==> a in all && a.id != pk
    ensures |r| <= |all|
    decreases |all|
  {
    if |all| == 0 then []
    else
      var rest := RemoveId(all[1..], pk);
      assert forall a :: a in all <==> a == all[0] || a in all[1..];
      if all[0].id == pk then rest else [all[0]] + rest
  }

}

=== FILE: breadcrumbs.dfy ===
/** The breadcrumb trail kept in the session by `BreadcrumbMiddleware`
    (UniGrading/UniGrading/middleware.py). The URL resolver and the database
    are inputs: the view name the path resolves to, the name of the subject
    or category the view's `pk` designates (absent when it does not exist),
    and whether the subject or category an old URL points to still exists. */
module Breadcrumbs {
  import opened Wrappers
  import opened Strings

  datatype Crumb = Crumb(name: string, url: string)

  /** The two session lists; a missing key is an empty list. */
  datatype Session = Session(breadcrumbs: seq<Crumb>, history: seq<Crumb>)

  /** What the middleware asks the database. */
  datatype Db = Db(
    subjectName: Option<string>,
    categoryName: Option<string>,
    subjectExists: string -> bool,
    categoryExists: string -> bool)

  const MaxShown: nat := 5

  /** `exists() and name or None`: the entity's name, unless it is gone or
      its name is empty. */
  function EntityName(name: Option<string>): (r: Option<string>)
    ensures r.Some? <==> name.Some? && name.value != ""
    ensures r.Some? ==> r == name
  {
    if name.Some? && name.value != "" then name else None
  }

  /** The breadcrumb name of a view: fixed names for the dashboard and the
      subject list, the entity's name for the detail views, otherwise the
      view name with underscores as blanks in title case, or `Unknown`. */
  function CrumbName(view: Option<string>, db: Db): (r: Option<string>)
    ensures view == Some("professor_dashboard") ==> r == Some("Professor Dashboard")
    ensures view == Some("my_subjects") ==> r == Some("My Subjects")
    ensures view == Some("subject_detail") ==> r == EntityName(db.subjectName)
    ensures view == Some("category_detail") ==> r == EntityName(db.categoryName)
    ensures view.None? || view == Some("") ==> r == Some("Unknown")
    ensures r.None? ==> view in {Some("subject_detail"), Some("category_detail")}
    ensures view.Some? && view.value !in {"professor_dashboard", "my_subjects", "subject_detail", "category_detail"}
      ==> r.Some? && |r.value| == (if view.value == "" then 7 else |view.value|)
    ensures view.Some? && Generic(view.value) ==> r.Some? && forall i | 0 <= i < |view.value| ::
      r.value[i] == (if view.value[i] == '_' then ' '
        else if i > 0 && IsLetter(view.value[i - 1]) then LowerChar(view.value[i])
        else UpperChar(view.value[i]))
  {
    match view
    case None => Some("Unknown")
    case Some(v) =>
      if v == "professor_dashboard" then Some("Professor Dashboard")
      else if v == "my_subjects" then Some("My Subjects")
      else if v == "subject_detail" then EntityName(db.subjectName)
      else if v == "category_detail" then EntityName(db.categoryName)
      else if v == "" then Some("Unknown")
      else Some(Title(ReplaceChar(v, '_', ' ')))
  }

  /** A view name without a fixed breadcrumb name. */
  predicate Generic(v: string) {
    v != "" && v !in {"professor_dashboard", "my_subjects", "subject_detail", "category_detail"}
  }

  /** The generic crumb name keeps the view name readable: turning its blanks
      back into underscores gives the view name up to case. */
  lemma CrumbNameRecoversView(v: string, db: Db)
    requires Generic(v) && ' ' !in v
    ensures CrumbName(Some(v), db).Some?
    ensures Lower(ReplaceChar(CrumbName(Some(v), db).value, ' ', '_')) == Lower(v)
  {
    var t := CrumbName(Some(v), db).value;
    forall i | 0 <= i < |v| ensures Lower(ReplaceChar(t, ' ', '_'))[i] == Lower(v)[i] {
      if v[i] != '_' {
        assert v[i] != ' ';
      }
    }
  }

  /** `url.split('/')[-1]`. */
  function LastSegment(url: string): string {
    var parts := Split(url, '/');
    parts[|parts| - 1]
  }

  /** `is_breadcrumb_valid`: URLs naming a category or subject view stay
      valid while the entity their last segment names exists. */
  predicate IsValid(c: Crumb, db: Db) {
    if Contains(c.url, "category_detail") then db.categoryExists(LastSegment(c.url))
    else if Contains(c.url, "subject_detail") then db.subjectExists(LastSegment(c.url))
    else true
  }

  predicate DistinctUrls(h: seq<Crumb>) {
    forall i, j | 0 <= i < j < |h| :: h[i].url != h[j].url
  }

  predicate HasUrl(h: seq<Crumb>, url: string) {
    exists i | 0 <= i < |h| :: h[i].url == url
  }

  /** The history without invalid crumbs; the current URL is always kept. */
  function KeepValid(h: seq<Crumb>, current: string, db: Db): (r: seq<Crumb>)
    ensures |r| <= |h|
    ensures forall c :: c in r <==> c in h && (c.url == current || IsValid(c, db))
    ensures DistinctUrls(h) ==> DistinctUrls(r)
    ensures |h| == 1 ==> r == (if h[0].url == current || IsValid(h[0], db) then h else [])
    decreases |h|
  {
    if |h| == 0 then []
    else
      var rest := KeepValid(h[1..], current, db);
      assert h == [h[0]] + h[1..];
      DistinctTail(h);
      if h[0].url == current || IsValid(h[0], db) then
        ConsDistinct(h, rest);
        [h[0]] + rest
      else rest
  }

  /** Dropping the first crumb keeps the URLs distinct. */
  lemma DistinctTail(h: seq<Crumb>)
    requires |h| > 0
    ensures DistinctUrls(h) ==> DistinctUrls(h[1..])
  {
    if DistinctUrls(h) {
      forall i, j | 0 <= i < j < |h[1..]| ensures h[1..][i].url != h[1..][j].url {
        assert h[1..][i] == h[i + 1] && h[1..][j] == h[j + 1];
      }
    }
  }

  /** The first crumb put back before crumbs taken from the rest keeps the
      URLs distinct. */
  lemma ConsDistinct(h: seq<Crumb>, rest: seq<Crumb>)
    requires |h| > 0
    requires forall c | c in rest :: c in h[1..]
    requires DistinctUrls(h) ==> DistinctUrls(rest)
    ensures DistinctUrls(h) ==> DistinctUrls([h[0]] + rest)
  {
    var r := [h[0]] + rest;
    if DistinctUrls(h) {
      forall i, j | 0 <= i < j < |r| ensures r[i].url != r[j].url {
        if i == 0 {
          assert r[j] in rest;
          var k :| 0 <= k < |h[1..]| && h[1..][k] == r[j];
          assert h[k + 1] == r[j];
        }
      }
    }
  }

  /** `KeepValid` is a filter: it keeps the order of what it keeps, so the
      history splits into parts filtered one by one. */
  lemma {:induction false} KeepValidConcat(h1: seq<Crumb>, h2: seq<Crumb>, current: string, db: Db)
    ensures KeepValid(h1 + h2, current, db) == KeepValid(h1, current, db) + KeepValid(h2, current, db)
    decreases |h1|
  {
    if |h1| > 0 {
      assert (h1 + h2)[1..] == h1[1..] + h2;
      assert (h1 + h2)[0] == h1[0];
      KeepValidConcat(h1[1..], h2, current, db);
    } else {
      assert h1 + h2 == h2;
    }
  }

  /** The history up to and including the first crumb of the current URL
      (all of it when there is none). */
  function Trail(h: seq<Crumb>, current: string): (r: seq<Crumb>)
    ensures |r| <= |h| && r == h[..|r|]
    ensures HasUrl(h, current) ==> |r| > 0 && r[|r| - 1].url == current
    ensures forall i | 0 <= i < |r| - 1 :: r[i].url != current
    ensures !HasUrl(h, current) ==> r == h
    decreases |h|
  {
    if |h| == 0 then []
    else if h[0].url == current then [h[0]]
    else
      var rest := Trail(h[1..], current);
      assert HasUrl(h, current) ==> HasUrl(h[1..], current) by {
        if HasUrl(h, current) {
          var i :| 0 <= i < |h| && h[i].url == current;
          assert h[1..][i - 1] == h[i];
        }
      }
      assert !HasUrl(h, current) ==> !HasUrl(h[1..], current) by {
        forall i | 0 <= i < |h[1..]| ensures h[1..][i] == h[i + 1] { }
      }
      assert h == [h[0]] + h[1..];
      [h[0]] + rest
  }

  /** The history with the current page recorded: unchanged when its URL
      is already there, otherwise the new crumb goes last. */
  function Record(h: seq<Crumb>, path: string, name: string): (r: seq<Crumb>)
    ensures HasUrl(r, path)
    ensures |r| == |h| + (if HasUrl(h, path) then 0 else 1) && r[..|h|] == h
    ensures forall c :: c in r <==> c in h || (!HasUrl(h, path) && c == Crumb(name, path))
    ensures DistinctUrls(h) ==> DistinctUrls(r)
  {
    if HasUrl(h, path) then h
    else
      var r := h + [Crumb(name, path)];
      assert r[|h|].url == path;
      assert DistinctUrls(h) ==> DistinctUrls(r) by {
        if DistinctUrls(h) {
          forall i, j | 0 <= i < j < |r| ensures r[i].url != r[j].url {
            if j == |h| {
              assert r[i] == h[i];
            }
          }
        }
      }
      r
  }

  /** The crumbs shown: the trail to the current page, at most the last five. */
  function Display(h: seq<Crumb>, path: string): (r: seq<Crumb>)
    ensures |r| <= MaxShown
    ensures var t := Trail(h, path);
      |r| == (if |t| < MaxShown then |t| else MaxShown) && r == t[|t| - |r|..]
    ensures HasUrl(h, path) ==> |r| > 0 && r[|r| - 1].url == path
    ensures forall c | c in r :: c in h
    ensures DistinctUrls(h) ==> DistinctUrls(r)
  {
    var trail := Trail(h, path);
    var shown := TakeLast(trail, MaxShown);
    var off := |trail| - |shown|;
    assert shown == h[off..|trail|];
    SliceOfHistory(h, off, |trail|);
    shown
  }

  /** A slice of the history holds crumbs of it, with distinct URLs when
      the history's are. */
  lemma SliceOfHistory(h: seq<Crumb>, a: nat, b: nat)
    requires a <= b <= |h|
    ensures forall c | c in h[a..b] :: c in h
    ensures DistinctUrls(h) ==> DistinctUrls(h[a..b])
  {
    var s := h[a..b];
    forall c | c in s ensures c in h {
      var k :| 0 <= k < |s| && s[k] == c;
      assert h[a + k] == c;
    }
    if DistinctUrls(h) {
      forall i, j | 0 <= i < j < |s| ensures s[i].url != s[j].url {
        assert s[i] == h[a + i] && s[j] == h[a + j];
      }
    }
  }

  /** The session after a visit to `path`, named `name`, with `prior` the
      history before it. */
  function Visit(prior: seq<Crumb>, path: string, name: string, db: Db): (r: Session)
    ensures |r.breadcrumbs| <= MaxShown
    ensures |r.breadcrumbs| > 0 && r.breadcrumbs[|r.breadcrumbs| - 1].url == path
    ensures HasUrl(r.history, path)
    ensures forall c :: c in r.history && c.url != path ==> c in prior && IsValid(c, db)
    ensures forall c :: c in prior && IsValid(c, db) ==> c in r.history
    ensures DistinctUrls(prior) ==> DistinctUrls(r.history) && DistinctUrls(r.breadcrumbs)
    ensures var kept := KeepValid(prior, path, db);
      |kept| <= |r.history| <= |kept| + 1 && r.history[..|kept|] == kept
    ensures r.breadcrumbs == TakeLast(Trail(r.history, path), MaxShown)
    ensures var kept := KeepValid(prior, path, db);
      r.history == (if HasUrl(kept, path) then kept else kept + [Crumb(name, path)])
  {
    var kept := KeepValid(prior, path, db);
    var history := Record(kept, path, name);
    var shown := Display(history, path);
    VisitHistory(prior, path, name, db, kept, history);
    VisitShown(history, path, shown);
    Session(shown, history)
  }

  /** The crumbs a visit stores: the kept ones, and the current page under
      `name` exactly when its URL was not among them. */
  lemma VisitMembers(prior: seq<Crumb>, path: string, name: string, db: Db, c: Crumb)
    ensures var kept := KeepValid(prior, path, db);
      c in Visit(prior, path, name, db).history <==> c in kept || (!HasUrl(kept, path) && c == Crumb(name, path))
  {
    var kept := KeepValid(prior, path, db);
    VisitHistory(prior, path, name, db, kept, Record(kept, path, name));
  }

  /** A visit to a page the kept history lacks shows that page last, under
      the name it was given. */
  lemma VisitShowsNewCrumb(prior: seq<Crumb>, path: string, name: string, db: Db)
    ensures var r := Visit(prior, path, name, db);
      !HasUrl(KeepValid(prior, path, db), path) ==> |r.breadcrumbs| > 0 && r.breadcrumbs[|r.breadcrumbs| - 1] == Crumb(name, path)
  {
    var kept := KeepValid(prior, path, db);
    if !HasUrl(kept, path) {
      NewCrumbShown(kept, Crumb(name, path), Visit(prior, path, name, db).breadcrumbs);
    }
  }

  /** A crumb appended for a URL the history lacked is the last one shown. */
  lemma NewCrumbShown(kept: seq<Crumb>, crumb: Crumb, shown: seq<Crumb>)
    requires !HasUrl(kept, crumb.url)
    requires shown == TakeLast(Trail(kept + [crumb], crumb.url), MaxShown)
    ensures |shown| > 0 && shown[|shown| - 1] == crumb
  {
    var h := kept + [crumb];
    var t := Trail(h, crumb.url);
    assert h[|kept|].url == crumb.url;
    assert forall i | 0 <= i < |kept| :: h[i] == kept[i];
  }

  /** The history a visit leaves: the valid crumbs of the one before, in
      their order, then the current page when it was not there. */
  lemma VisitHistory(prior: seq<Crumb>, path: string, name: string, db: Db,
                     kept: seq<Crumb>, history: seq<Crumb>)
    requires kept == KeepValid(prior, path, db)
    requires history == Record(kept, path, name)
    ensures forall c :: c in history && c.url != path ==> c in prior && IsValid(c, db)
    ensures forall c :: c in prior && IsValid(c, db) ==> c in history
    ensures DistinctUrls(prior) ==> DistinctUrls(history)
    ensures |kept| <= |history| <= |kept| + 1 && history[..|kept|] == kept
    ensures history == (if HasUrl(kept, path) then kept else kept + [Crumb(name, path)])
    ensures forall c :: c in history <==> c in kept || (!HasUrl(kept, path) && c == Crumb(name, path))
  {
    if !HasUrl(kept, path) {
      assert history[|kept|] == Crumb(name, path);
    }
  }

  /** The crumbs a visit shows: at most five, ending at the current page. */
  lemma VisitShown(history: seq<Crumb>, path: string, shown: seq<Crumb>)
    requires HasUrl(history, path)
    requires shown == Display(history, path)
    ensures |shown| <= MaxShown
    ensures |shown| > 0 && shown[|shown| - 1].url == path
    ensures DistinctUrls(history) ==> DistinctUrls(shown)
    ensures shown == TakeLast(Trail(history, path), MaxShown)
  {
  }

  /** A visit with an empty history leaves only the current page. */
  lemma DashboardVisit(path: string, name: string, db: Db)
    ensures Visit([], path, name, db) == Session([Crumb(name, path)], [Crumb(name, path)])
  {
    var history := Record([], path, name);
    assert history == [Crumb(name, path)];
    assert Trail(history, path) == history;
  }

  /** The sign-in and sign-out views, which leave the session alone. */
  predicate IsAuthView(view: Option<string>) {
    view == Some("login") || view == Some("logout")
  }

  /** The dashboard, which starts the trail afresh. */
  predicate IsDashboard(view: Option<string>) {
    view == Some("professor_dashboard")
  }

  /** A view whose visit extends the kept history: named, and neither a
      sign-in view nor the dashboard. */
  predicate Tracked(view: Option<string>, db: Db) {
    !IsAuthView(view) && !IsDashboard(view) && CrumbName(view, db).Some?
  }

  /** `process_view`: the session after a request for `path`, which resolves
      to `view`. */
  function ProcessView(s: Session, path: string, view: Option<string>, db: Db): (r: Session)
    ensures IsAuthView(view) ==> r == s
    ensures IsDashboard(view) ==>
      r == Session([Crumb("Professor Dashboard", path)], [Crumb("Professor Dashboard", path)])
    ensures CrumbName(view, db).None? ==> r == s
    ensures Tracked(view, db) ==>
      && |r.breadcrumbs| <= MaxShown
      && |r.breadcrumbs| > 0 && r.breadcrumbs[|r.breadcrumbs| - 1].url == path
      && HasUrl(r.history, path)
    ensures Tracked(view, db) ==>
      forall c :: c in r.history && c.url != path ==> c in s.history && IsValid(c, db)
    ensures Tracked(view, db) ==>
      forall c :: c in s.history && IsValid(c, db) ==> c in r.history
    ensures Tracked(view, db) && DistinctUrls(s.history) ==>
      DistinctUrls(r.history) && DistinctUrls(r.breadcrumbs)
    ensures Tracked(view, db) ==>
      var kept := KeepValid(s.history, path, db);
      |kept| <= |r.history| <= |kept| + 1 && r.history[..|kept|] == kept
    ensures Tracked(view, db) ==>
      r.breadcrumbs == TakeLast(Trail(r.history, path), MaxShown)
    ensures Tracked(view, db) ==>
      var kept := KeepValid(s.history, path, db);
      && |r.history| == |kept| + (if HasUrl(kept, path) then 0 else 1)
      && (!HasUrl(kept, path) ==> r.history[|kept|] == Crumb(CrumbName(view, db).value, path))
  {
    if IsAuthView(view) then s
    else
      var name := CrumbName(view, db);
      if name.None? then s
      else if IsDashboard(view) then
        DashboardVisit(path, name.value, db);
        Visit([], path, name.value, db)
      else TrackedVisit(s, path, view, db)
  }

  /** The visit of a tracked view, recorded under its crumb name. */
  function TrackedVisit(s: Session, path: string, view: Option<string>, db: Db): (r: Session)
    requires Tracked(view, db)
    ensures |r.breadcrumbs| <= MaxShown
    ensures |r.breadcrumbs| > 0 && r.breadcrumbs[|r.breadcrumbs| - 1].url == path
    ensures HasUrl(r.history, path)
    ensures forall c :: c in r.history && c.url != path ==> c in s.history && IsValid(c, db)
    ensures forall c :: c in s.history && IsValid(c, db) ==> c in r.history
    ensures DistinctUrls(s.history) ==> DistinctUrls(r.history) && DistinctUrls(r.breadcrumbs)
    ensures var kept := KeepValid(s.history, path, db);
      |kept| <= |r.history| <= |kept| + 1 && r.history[..|kept|] == kept
    ensures r.breadcrumbs == TakeLast(Trail(r.history, path), MaxShown)
    ensures var kept := KeepValid(s.history, path, db);
      && |r.history| == |kept| + (if HasUrl(kept, path) then 0 else 1)
      && (!HasUrl(kept, path) ==> r.history[|kept|] == Crumb(CrumbName(view, db).value, path))
  {
    Visit(s.history, path, CrumbName(view, db).value, db)
  }

  /** A tracked page the kept history lacks is shown last, under its crumb
      name. */
  lemma ProcessViewShowsNewCrumb(s: Session, path: string, view: Option<string>, db: Db)
    requires Tracked(view, db) && !HasUrl(KeepValid(s.history, path, db), path)
    ensures var r := ProcessView(s, path, view, db);
      |r.breadcrumbs| > 0 && r.breadcrumbs[|r.breadcrumbs| - 1] == Crumb(CrumbName(view, db).value, path)
  {
    VisitShowsNewCrumb(s.history, path, CrumbName(view, db).value, db);
  }
}

=== FILE: grading.dfy ===
/** The grading pipeline of `grade_submission` (UniGrading/assignments/autograder.py):
    routing a submission by its name and MIME type, the handler for each kind,
    the lenient textual grade, and the leniency floor applied at the end.

    What the outside world does is an input: whether storage could be read,
    whether a handler raised, the text an extractor produced, what the language
    model answered, what the containers printed. The model fixes how those
    inputs decide the status and the grade. */
module Grading {
  import opened Wrappers
  import opened Strings
  import Paths
  import Inventory

  datatype Status = Done | Partial | Failed

  /** The status string the pipeline reports. */
  function StatusName(s: Status): (r: string)
    ensures r in {"done", "partial", "failed"}
    ensures r == "failed" <==> s == Failed
  {
    match s
    case Done => "done"
    case Partial => "partial"
    case Failed => "failed"
  }

  /** `_clamp(x)`: the grade scale is 0 to 100. */
  function Clamp(x: real): (r: real)
    ensures 0.0 <= r <= 100.0
    ensures 0.0 <= x <= 100.0 ==> r == x
    ensures x < 0.0 ==> r == 0.0
    ensures x > 100.0 ==> r == 100.0
  {
    if x > 100.0 then 100.0 else if x < 0.0 then 0.0 else x
  }

  function Max(a: real, b: real): (r: real)
    ensures r >= a && r >= b && (r == a || r == b)
  {
    if a >= b then a else b
  }

  /** A handler's verdict, with the `detected_work` flag of the report. */
  datatype Graded = Graded(status: Status, grade: real, detected: bool)

  /** The result of `grade_submission` as the submission sees it. */
  datatype Outcome = Outcome(status: Status, grade: real)

  // ---------------------------------------------------------------------
  // `_llm_grade_textual`

  /** What the language model did: not configured (`USE_LLM` off or no
      client), raised (the call, the JSON or the `float` conversion failed),
      or answered with an optional `grade_pct`. The earlier pipeline
      (`LegacyGrader`) also raises when `"\n- ".join` rejects the
      `suggestions` value; this one converts each item with `str` and never
      does, so one model answer can be `LlmAnswered` here and `LlmRaised`
      there. */
  datatype LlmReply = LlmOff | LlmRaised | LlmAnswered(grade: Option<real>)

  const HeuristicBase: real := 70.0
  const HeuristicLongBonus: real := 10.0
  const LongSubmission: nat := 2000
  const NothingDetectedGrade: real := 5.0

  /** `_llm_grade_textual`: a model answer gives `done` when the submission
      text or the assignment attachment is non-empty and `partial` otherwise;
      without an answer, non-empty text gives a heuristic `partial` grade and
      no text at all fails. The report's flag only ever turns on. */
  function GradeTextual(text: string, attachment: string, priorDetected: bool, llm: LlmReply): (g: Graded)
    ensures 0.0 <= g.grade <= 100.0
    ensures g.detected <==> priorDetected || |text| > 0 || |attachment| > 0
    ensures g.status == Failed <==> !llm.LlmAnswered? && |text| == 0 && |attachment| == 0
    ensures g.status == Failed ==> g.grade == NothingDetectedGrade
    ensures g.status == Done <==> llm.LlmAnswered? && (|text| > 0 || |attachment| > 0)
    ensures llm.LlmAnswered? && llm.grade.Some? ==> g.grade == Clamp(llm.grade.value)
    ensures llm.LlmAnswered? && llm.grade.None? ==> g.grade == HeuristicBase
    ensures !llm.LlmAnswered? && g.status != Failed ==> 70.0 <= g.grade <= 80.0
    ensures !llm.LlmAnswered? && (|text| > 0 || |attachment| > 0) ==>
      g.grade == HeuristicBase + (if |text| > LongSubmission then HeuristicLongBonus else 0.0)
  {
    var detected := |text| > 0 || |attachment| > 0;
    var flag := priorDetected || detected;
    match llm
    case LlmAnswered(grade) =>
      Graded(if detected then Done else Partial, Clamp(Clamp(grade.GetOr(HeuristicBase))), flag)
    case _ =>
      if !detected then Graded(Failed, Clamp(NothingDetectedGrade), flag)
      else
        var base := HeuristicBase + (if |text| > LongSubmission then HeuristicLongBonus else 0.0);
        Graded(Partial, Clamp(base), flag)
  }

  // ---------------------------------------------------------------------
  // Routing

  datatype Kind = ArchiveKind | NotebookKind | CodeKind | PdfKind | DocxKind | TextKind | ImageKind | BinaryKind

  /** `mimetypes.guess_type(name)[0] or "application/octet-stream"`. */
  function MimeOf(guess: Option<string>): (r: string)
    ensures guess.Some? && guess.value != "" ==> r == guess.value
    ensures |r| > 0
  {
    if guess.Some? && guess.value != "" then guess.value else "application/octet-stream"
  }

  /** The dispatch of `grade_submission` on the lower-cased file name and
      its MIME type: each kind only when its own test passes, and the first
      passing test in the source's order wins. */
  function Route(name: string, mime: string): (k: Kind)
    ensures k == ArchiveKind <==> Inventory.IsArchive(name)
    ensures k == NotebookKind <==> !Inventory.IsArchive(name) && EndsWith(name, ".ipynb")
    ensures k == CodeKind <==> (!Inventory.IsArchive(name) && !EndsWith(name, ".ipynb")
      && Inventory.LooksLikeCode(name))
    ensures k == PdfKind <==> (!Inventory.IsArchive(name) && !EndsWith(name, ".ipynb")
      && !Inventory.LooksLikeCode(name)
      && (EndsWith(name, ".pdf") || Contains(mime, "pdf")))
    ensures k == DocxKind <==> (!Inventory.IsArchive(name) && !EndsWith(name, ".ipynb")
      && !Inventory.LooksLikeCode(name)
      && !(EndsWith(name, ".pdf") || Contains(mime, "pdf"))
      && (EndsWith(name, ".docx") || Contains(mime, "word")))
    ensures k == TextKind <==> (!Inventory.IsArchive(name) && !EndsWith(name, ".ipynb")
      && !Inventory.LooksLikeCode(name)
      && !(EndsWith(name, ".pdf") || Contains(mime, "pdf"))
      && !(EndsWith(name, ".docx") || Contains(mime, "word"))
      && (EndsWith(name, ".txt") || EndsWith(name, ".md") || Contains(mime, "text")))
    ensures k == ImageKind <==> (!Inventory.IsArchive(name) && !EndsWith(name, ".ipynb")
      && !Inventory.LooksLikeCode(name)
      && !(EndsWith(name, ".pdf") || Contains(mime, "pdf"))
      && !(EndsWith(name, ".docx") || Contains(mime, "word"))
      && !(EndsWith(name, ".txt") || EndsWith(name, ".md") || Contains(mime, "text"))
      && Inventory.LooksLikeImage(name, mime))
    ensures k == BinaryKind <==> (!Inventory.IsArchive(name) && !EndsWith(name, ".ipynb")
      && !Inventory.LooksLikeCode(name)
      && !(EndsWith(name, ".pdf") || Contains(mime, "pdf"))
      && !(EndsWith(name, ".docx") || Contains(mime, "word"))
      && !(EndsWith(name, ".txt") || EndsWith(name, ".md") || Contains(mime, "text"))
      && !Inventory.LooksLikeImage(name, mime))
  {
    if Inventory.IsArchive(name) then ArchiveKind
    else if EndsWith(name, ".ipynb") then NotebookKind
    else if Inventory.LooksLikeCode(name) then CodeKind
    else if EndsWith(name, ".pdf") || Contains(mime, "pdf") then PdfKind
    else if EndsWith(name, ".docx") || Contains(mime, "word") then DocxKind
    else if EndsWith(name, ".txt") || EndsWith(name, ".md") || Contains(mime, "text") then TextKind
    else if Inventory.LooksLikeImage(name, mime) then ImageKind
    else BinaryKind
  }

  // ---------------------------------------------------------------------
  // Handlers

  /** How the notebook run ended: the runner raised, or `nbconvert` exited
      with a return code after printing `log`, the executed notebook's
      outputs being `outputText`. */
  datatype NotebookRun = NbRaised | NbExecuted(returnCode: int, outputText: string, log: string)

  /** The refinement pass: the planner failed or returned nothing, or the
      refined plan ran. */
  datatype RefineOutcome = RefineFailed | Refined(ok: bool, log: string)

  /** What happened while an archive was processed. */
  datatype ArchiveRun = ArchiveRun(
    extracted: bool,
    notebookFound: bool,
    notebookText: string,
    treeSummary: string,
    firstOk: bool,
    firstLog: string,
    refine: RefineOutcome)

  /** Everything outside the pipeline's own logic, for one submission. */
  datatype Effects = Effects(
    storageReadable: bool,
    crashed: bool,
    fileText: string,
    attachment: string,
    llm: LlmReply,
    nbformat: bool,
    notebook: NotebookRun,
    singleRunLog: string,
    archive: ArchiveRun)

  /** The text a handler hands to the textual grader, the report flag it
      has already set, and whether a clean notebook run lifts the grade. */
  datatype Request = Request(text: string, priorDetected: bool, notebookBonus: bool)

  const MaxLog: nat := 200000
  const NotebookLogTail: nat := 4000
  const GradeLogTail: nat := 12000
  const NotebookFloor: real := 80.0

  /** `_handle_notebook`: static review without `nbformat` or when the run
      raises; otherwise the executed outputs and the log tail, and a clean
      exit earns the notebook floor. */
  function NotebookRequest(nbformat: bool, run: NotebookRun, staticText: string): (q: Request)
    ensures q.priorDetected
    ensures q.notebookBonus <==> nbformat && run.NbExecuted? && run.returnCode == 0
    ensures nbformat && run.NbExecuted? ==> |q.text| > 0 && EndsWith(q.text, TakeLast(run.log, NotebookLogTail))
    ensures !(nbformat && run.NbExecuted?) ==> q.text == staticText
  {
    if !nbformat then Request(staticText, true, false)
    else match run
      // `staticText` is the file's text as read here, so it includes the
      // appended eval cell when the rewrite succeeded; file contents are inputs.
      case NbRaised => Request(staticText, true, false)
      case NbExecuted(rc, outputText, log) =>
        var out := TakeLast(log, MaxLog);
        var tail := TakeLast(out, NotebookLogTail);
        assert tail == TakeLast(log, NotebookLogTail);
        var text := "NOTEBOOK OUTPUT:\n" + outputText + "\n\nLOG TAIL:\n" + tail;
        assert text[|text| - |tail|..] == tail;
        Request(text, true, rc == 0)
  }

  /** `_handle_single_code`: the sandbox output, whatever it was. */
  function SingleCodeRequest(runLog: string): (q: Request)
    ensures q.priorDetected && !q.notebookBonus && |q.text| > 0
    ensures EndsWith(q.text, TakeLast(runLog, MaxLog))
  {
    var full := TakeLast(runLog, MaxLog);
    var text := "RUNTIME STDOUT/STDERR (full, truncated):\n" + full;
    assert text[|text| - |full|..] == full;
    Request(text, true, false)
  }

  /** `_compose_grade_context`: the tree summary and the last 12000
      characters of the logs. */
  function GradeContext(treeSummary: string, logs: string): (r: string)
    ensures |r| > 0
    ensures EndsWith(r, TakeLast(logs, GradeLogTail))
    ensures |treeSummary| + |TakeLast(logs, GradeLogTail)| < |r| <= |treeSummary| + |TakeLast(logs, GradeLogTail)| + 100
  {
    var tail := TakeLast(logs, GradeLogTail);
    var r := "FILE TREE (truncated):\n" + treeSummary + "\n\nRUNTIME/BUILD LOGS (truncated):\n" + tail;
    assert r[|r| - |tail|..] == tail;
    r
  }

  /** The plan runs of `_handle_archive_with_ai_plan`: the verdict and the log
      the grade is based on. A refinement is attempted only when the first
      run failed and a model is configured. As written, the graded log is the
      `sandbox_last_log` recorded after the first run, which the refined run
      never overwrites; the corrected version grades the latest run's log, as
      the comment before the grading step says. */
  function PlanRuns(a: ArchiveRun, llmUsable: bool, asWritten: bool): (r: (bool, string))
    ensures !a.firstOk && llmUsable && a.refine.Refined? ==> r.0 == a.refine.ok
    ensures a.firstOk || !llmUsable || a.refine.RefineFailed? ==> r == (a.firstOk, TakeLast(a.firstLog, MaxLog))
    ensures asWritten ==> r.1 == TakeLast(a.firstLog, MaxLog)
    ensures !asWritten && !a.firstOk && llmUsable && a.refine.Refined? ==> r.1 == TakeLast(a.refine.log, MaxLog)
  {
    var full := TakeLast(a.firstLog, MaxLog);
    if !a.firstOk && llmUsable && a.refine.Refined? then
      var full2 := TakeLast(a.refine.log, MaxLog);
      (a.refine.ok, if asWritten then full else full2)
    else (a.firstOk, full)
  }

  /** A refined run that succeeds is graded on the failed first run's log. */
  lemma StaleLogGraded()
    ensures var a := ArchiveRun(true, false, "", "", false, "boom", Refined(true, "all tests passed"));
      PlanRuns(a, true, true) == (true, "boom")
      && PlanRuns(a, true, false) == (true, "all tests passed")
  {
  }

  /** `_handle_archive_with_ai_plan`: a corrupt archive gets the byte peek, a
      notebook inside goes to the notebook handler, anything else is graded
      on its tree summary and the log `PlanRuns` picks (the first run's as
      written, the latest run's when corrected). */
  function ArchiveRequest(a: ArchiveRun, nbformat: bool, notebook: NotebookRun,
                          peek: string, llmUsable: bool, asWritten: bool): (q: Request)
    ensures q.priorDetected
    ensures !a.extracted ==> q == Request(peek, true, false)
    ensures a.extracted && a.notebookFound && nbformat ==> q == NotebookRequest(nbformat, notebook, a.notebookText)
    ensures a.extracted && !(a.notebookFound && nbformat) ==> (
      var log := PlanRuns(a, llmUsable, asWritten).1;
      && |q.text| > 0 && !q.notebookBonus
      && EndsWith(q.text, TakeLast(log, GradeLogTail))
      && |a.treeSummary| + |TakeLast(log, GradeLogTail)| < |q.text| <= |a.treeSummary| + |TakeLast(log, GradeLogTail)| + 100)
  {
    if !a.extracted then Request(peek, true, false)
    else if a.notebookFound && nbformat then NotebookRequest(nbformat, notebook, a.notebookText)
    else
      var runs := PlanRuns(a, llmUsable, asWritten);
      Request(GradeContext(a.treeSummary, runs.1), true, false)
  }

  /** The request each kind of submission makes. Document kinds start with
      the report flag off. */
  function RequestFor(k: Kind, e: Effects, asWritten: bool): (q: Request)
    ensures k == CodeKind ==> |q.text| > 0 && q.priorDetected
    ensures k in {PdfKind, DocxKind, TextKind, ImageKind, BinaryKind} ==> q == Request(e.fileText, false, false)
    ensures q.notebookBonus ==> k in {NotebookKind, ArchiveKind} && e.nbformat && e.notebook.NbExecuted? && e.notebook.returnCode == 0
  {
    match k
    case ArchiveKind => ArchiveRequest(e.archive, e.nbformat, e.notebook, e.fileText, !e.llm.LlmOff?, asWritten)
    case NotebookKind => NotebookRequest(e.nbformat, e.notebook, e.fileText)
    case CodeKind => SingleCodeRequest(e.singleRunLog)
    case _ => Request(e.fileText, false, false)
  }

  // ---------------------------------------------------------------------
  // `grade_submission`

  const LeniencyFloor: real := 40.0

  /** The leniency floor: a `done` or `partial` result below 40 is lifted to
      40 when the report says work was detected. */
  function Leniency(g: Graded): (r: Graded)
    ensures r.status == g.status && r.detected == g.detected
    ensures r.grade >= g.grade
    ensures g.status != Failed && g.detected ==> r.grade >= LeniencyFloor
    ensures r.grade != g.grade ==> r.grade == LeniencyFloor
    ensures g.status == Failed || !g.detected ==> r == g
  {
    if g.status != Failed && g.grade < LeniencyFloor && g.detected then g.(grade := Max(g.grade, LeniencyFloor))
    else g
  }

  const StorageFailureGrade: real := 0.0
  const CrashGrade: real := 5.0

  /** The graded result before the floor: the textual grade of the request,
      lifted to 80 after a clean notebook run. */
  function Handle(q: Request, e: Effects): (g: Graded)
    ensures 0.0 <= g.grade <= 100.0
    ensures q.notebookBonus ==> g.grade >= NotebookFloor
    ensures g.status == Failed <==> !e.llm.LlmAnswered? && |q.text| == 0 && |e.attachment| == 0
    ensures g.detected <==> q.priorDetected || |q.text| > 0 || |e.attachment| > 0
  {
    var g := GradeTextual(q.text, e.attachment, q.priorDetected, e.llm);
    if q.notebookBonus then
      g.(grade := Max(g.grade, NotebookFloor))
    else g
  }

  /** `grade_submission(assignment, submission)`, with `asWritten` choosing
      which log an archive's plan runs are graded on. */
  function Pipeline(fileName: string, mimeGuess: Option<string>, e: Effects, asWritten: bool): (r: Outcome)
    ensures 0.0 <= r.grade <= 100.0
    ensures !e.storageReadable ==> r == Outcome(Failed, StorageFailureGrade)
    ensures e.storageReadable && e.crashed ==> r == Outcome(Failed, CrashGrade)
  {
    if !e.storageReadable then Outcome(Failed, Clamp(StorageFailureGrade))
    else
      var name := Lower(Paths.Name(fileName));
      var kind := Route(name, MimeOf(mimeGuess));
      var g := if e.crashed then Graded(Failed, Clamp(CrashGrade), false) else Handle(RequestFor(kind, e, asWritten), e);
      var l := Leniency(g);
      Outcome(l.status, l.grade)
  }

  /** `grade_submission` as written: an archive is graded on its first
      run's log even after a refined run. */
  function GradeSubmission(fileName: string, mimeGuess: Option<string>, e: Effects): (r: Outcome)
    ensures 0.0 <= r.grade <= 100.0
    ensures !e.storageReadable ==> r == Outcome(Failed, StorageFailureGrade)
    ensures e.storageReadable && e.crashed ==> r == Outcome(Failed, CrashGrade)
  {
    Pipeline(fileName, mimeGuess, e, true)
  }

  /** `grade_submission` grading an archive on the latest run's log, as the
      comment before its grading step says it does. */
  function GradeSubmissionIntended(fileName: string, mimeGuess: Option<string>, e: Effects): (r: Outcome)
    ensures 0.0 <= r.grade <= 100.0
    ensures !e.storageReadable ==> r == Outcome(Failed, StorageFailureGrade)
    ensures e.storageReadable && e.crashed ==> r == Outcome(Failed, CrashGrade)
  {
    Pipeline(fileName, mimeGuess, e, false)
  }

  /** The two differ only for an extracted archive without a notebook
      shortcut whose failed first run was followed by a refined run. */
  lemma IntendedDiffersOnlyAfterRefine(fileName: string, mimeGuess: Option<string>, e: Effects)
    requires !(KindOf(fileName, mimeGuess) == ArchiveKind && e.archive.extracted
      && !(e.archive.notebookFound && e.nbformat) && !e.archive.firstOk
      && !e.llm.LlmOff? && e.archive.refine.Refined?)
    ensures GradeSubmission(fileName, mimeGuess, e) == GradeSubmissionIntended(fileName, mimeGuess, e)
  {
    var k := KindOf(fileName, mimeGuess);
    assert RequestFor(k, e, true) == RequestFor(k, e, false);
  }

  /** A refined run with a long log, after a failed first run with a short
      one, while the model call raises: as written the heuristic sees the
      short log and gives 70; graded on the latest log it gives 80. */
  lemma StaleLogMisgrades(fileName: string, mimeGuess: Option<string>, e: Effects)
    requires e.storageReadable && !e.crashed && KindOf(fileName, mimeGuess) == ArchiveKind
    requires e.llm == LlmRaised
    requires e.archive.extracted && !e.archive.notebookFound
    requires !e.archive.firstOk && e.archive.refine.Refined?
    requires |e.archive.treeSummary| + |e.archive.firstLog| <= 1800
    requires |e.archive.refine.log| > LongSubmission
    ensures GradeSubmission(fileName, mimeGuess, e) == Outcome(Partial, HeuristicBase)
    ensures GradeSubmissionIntended(fileName, mimeGuess, e) == Outcome(Partial, HeuristicBase + HeuristicLongBonus)
  {
    var stale := RequestFor(ArchiveKind, e, true);
    var latest := RequestFor(ArchiveKind, e, false);
    ArchiveTextLengths(e);
    RaisedModelGrade(stale, e);
    RaisedModelGrade(latest, e);
  }

  /** The lengths of the two archive grading texts in `StaleLogMisgrades`. */
  lemma ArchiveTextLengths(e: Effects)
    requires e.llm == LlmRaised
    requires e.archive.extracted && !e.archive.notebookFound
    requires !e.archive.firstOk && e.archive.refine.Refined?
    requires |e.archive.treeSummary| + |e.archive.firstLog| <= 1800
    requires |e.archive.refine.log| > LongSubmission
    ensures var q := RequestFor(ArchiveKind, e, true); 0 < |q.text| <= LongSubmission && !q.notebookBonus
    ensures var q := RequestFor(ArchiveKind, e, false); |q.text| > LongSubmission && !q.notebookBonus
  {
    var a := e.archive;
    assert PlanRuns(a, true, true).1 == TakeLast(a.firstLog, MaxLog);
    assert PlanRuns(a, true, false).1 == TakeLast(a.refine.log, MaxLog);
  }

  /** With the model call raising, a non-empty text gets the heuristic
      `partial` grade, which is above the floor. */
  lemma RaisedModelGrade(q: Request, e: Effects)
    requires e.llm == LlmRaised && |q.text| > 0 && !q.notebookBonus
    ensures Leniency(Handle(q, e)) == Graded(Partial, HeuristicBase + (if |q.text| > LongSubmission then HeuristicLongBonus else 0.0),
      true)
  {
  }

  /** The submission's kind as `grade_submission` decides it. */
  function KindOf(fileName: string, mimeGuess: Option<string>): Kind {
    Route(Lower(Paths.Name(fileName)), MimeOf(mimeGuess))
  }

  /** A submission fails exactly when storage cannot be read, a handler
      raises, or the textual grading step gets no text, no attachment and no model answer;
      a failure scores 0 or 5. */
  lemma FailsExactly(fileName: string, mimeGuess: Option<string>, e: Effects)
    ensures var r := GradeSubmission(fileName, mimeGuess, e);
      r.status == Failed <==>
        !e.storageReadable || e.crashed
        || (!e.llm.LlmAnswered? && |RequestFor(KindOf(fileName, mimeGuess), e, true).text| == 0 && |e.attachment| == 0)
    ensures var r := GradeSubmission(fileName, mimeGuess, e);
      r.status == Failed ==> r.grade == StorageFailureGrade || r.grade == CrashGrade || r.grade == NothingDetectedGrade
  {
  }

  /** Whenever the pipeline did not fail and saw work, the grade is at least
      the leniency floor. */
  lemma FloorWhenWorkSeen(fileName: string, mimeGuess: Option<string>, e: Effects)
    requires e.storageReadable && !e.crashed
    requires var q := RequestFor(KindOf(fileName, mimeGuess), e, true);
      q.priorDetected || |q.text| > 0 || |e.attachment| > 0
    ensures GradeSubmission(fileName, mimeGuess, e).status != Failed ==>
      GradeSubmission(fileName, mimeGuess, e).grade >= LeniencyFloor
  {
  }

  /** A single code file is never failed and never scores below 40, whatever
      its run printed and whatever the model said. */
  lemma CodeNeverFails(fileName: string, mimeGuess: Option<string>, e: Effects)
    requires e.storageReadable && !e.crashed
    requires KindOf(fileName, mimeGuess) == CodeKind
    ensures GradeSubmission(fileName, mimeGuess, e).status != Failed
    ensures GradeSubmission(fileName, mimeGuess, e).grade >= LeniencyFloor
  {
    var q := RequestFor(CodeKind, e, true);
    assert |q.text| > 0;
  }

  /** An archive that extracts and holds no notebook to shortcut to is
      never failed and never scores below 40. */
  lemma ExtractedArchiveNeverFails(fileName: string, mimeGuess: Option<string>, e: Effects)
    requires e.storageReadable && !e.crashed
    requires KindOf(fileName, mimeGuess) == ArchiveKind
    requires e.archive.extracted && !(e.archive.notebookFound && e.nbformat)
    ensures GradeSubmission(fileName, mimeGuess, e).status != Failed
    ensures GradeSubmission(fileName, mimeGuess, e).grade >= LeniencyFloor
  {
    var q := RequestFor(ArchiveKind, e, true);
    assert |q.text| > 0;
  }

  /** A notebook that executes cleanly scores at least 80. */
  lemma CleanNotebookFloor(fileName: string, mimeGuess: Option<string>, e: Effects)
    requires e.storageReadable && !e.crashed
    requires KindOf(fileName, mimeGuess) == NotebookKind
    requires e.nbformat && e.notebook.NbExecuted? && e.notebook.returnCode == 0
    ensures GradeSubmission(fileName, mimeGuess, e).status != Failed
    ensures GradeSubmission(fileName, mimeGuess, e).grade >= NotebookFloor
  {
    var q := RequestFor(NotebookKind, e, true);
    assert q.notebookBonus && |q.text| > 0;
  }

  /** An empty document with no attachment and no model answer fails with 5. */
  lemma EmptyDocumentFails(fileName: string, mimeGuess: Option<string>, e: Effects)
    requires e.storageReadable && !e.crashed
    requires KindOf(fileName, mimeGuess) in {PdfKind, DocxKind, TextKind, ImageKind, BinaryKind}
    requires e.fileText == "" && e.attachment == "" && !e.llm.LlmAnswered?
    ensures GradeSubmission(fileName, mimeGuess, e) == Outcome(Failed, NothingDetectedGrade)
  {
  }
}

=== FILE: inventory.dfy ===
/** The inventory the archive pipeline takes of an extracted project
    (UniGrading/assignments/autograder.py): file classification by name, the
    capped file list, the candidate project roots, the language scores and
    the tree summary shown to the language model. The filesystem walk is an input:
    the entries `rglob("*")` yields, in the order it yields them. */
module Inventory {
  import opened Wrappers
  import opened Strings
  import opened Sorting
  import opened Paths

  /** One entry of the walk: a relative path and whether it is a file. */
  datatype Entry = Entry(path: string, isFile: bool)

  // ---------------------------------------------------------------------
  // Classification by name

  /** `_ext_to_lang(ext)`. */
  function ExtToLang(ext: string): (r: Option<string>)
    ensures r.Some? ==> r.value in {"python", "bash", "node", "java", "c", "cpp", "go", "rust", "ruby", "php", "dotnet"}
    ensures r.Some? <==> ext in CodeExtensions + [".ipynb"]
  {
    if ext == ".py" || ext == ".ipynb" then Some("python")
    else if ext == ".sh" then Some("bash")
    else if ext == ".js" || ext == ".ts" then Some("node")
    else if ext == ".java" then Some("java")
    else if ext == ".c" then Some("c")
    else if ext == ".cc" || ext == ".cpp" then Some("cpp")
    else if ext == ".go" then Some("go")
    else if ext == ".rs" then Some("rust")
    else if ext == ".rb" then Some("ruby")
    else if ext == ".php" then Some("php")
    else if ext == ".cs" then Some("dotnet")
    else None
  }

  /** The extensions `_looks_like_code` accepts. */
  const CodeExtensions: seq<string> :=
    [".py", ".sh", ".js", ".ts", ".java", ".c", ".cc", ".cpp", ".go", ".rs", ".rb", ".php", ".cs"]

  const ImageExtensions: seq<string> := [".png", ".jpg", ".jpeg", ".gif", ".webp", ".bmp", ".tiff", ".svg"]

  predicate EndsWithAny(s: string, suffixes: seq<string>) {
    exists i | 0 <= i < |suffixes| :: EndsWith(s, suffixes[i])
  }

  /** `_is_archive(name)`. */
  predicate IsArchive(name: string) {
    EndsWithAny(Lower(name), [".zip", ".tar.gz", ".tgz", ".tar"])
  }

  /** `_looks_like_code(name)`. */
  predicate LooksLikeCode(name: string) {
    EndsWithAny(Lower(name), CodeExtensions)
  }

  /** `_looks_like_image(name, mt)`. */
  predicate LooksLikeImage(name: string, mime: string) {
    EndsWithAny(Lower(name), ImageExtensions) || StartsWith(mime, "image/")
  }

  /** A file whose extension names a language is code; the only exception is
      a notebook, which `_ext_to_lang` counts as Python. */
  lemma CodeExtensionsHaveLanguages(name: string)
    requires LooksLikeCode(name)
    ensures exists i | 0 <= i < |CodeExtensions| ::
      EndsWith(Lower(name), CodeExtensions[i]) && ExtToLang(CodeExtensions[i]).Some?
  {
    var i :| 0 <= i < |CodeExtensions| && EndsWith(Lower(name), CodeExtensions[i]);
    assert CodeExtensions[i] in CodeExtensions + [".ipynb"];
  }

  // ---------------------------------------------------------------------
  // `_list_files`

  const MaxListed: nat := 20000

  /** The file paths of a walk, in walk order. */
  function FilesOf(walk: seq<Entry>): (r: seq<string>)
    ensures |r| <= |walk|
    ensures forall x :: x in r <==> exists i | 0 <= i < |walk| :: walk[i].isFile && walk[i].path == x
    decreases |walk|
  {
    if |walk| == 0 then []
    else
      var init := walk[..|walk| - 1];
      var last := walk[|walk| - 1];
      assert forall i | 0 <= i < |init| :: init[i] == walk[i];
      FilesOf(init) + (if last.isFile then [last.path] else [])
  }

  lemma {:induction false} FilesOfConcat(a: seq<Entry>, b: seq<Entry>)
    ensures FilesOf(a + b) == FilesOf(a) + FilesOf(b)
    decreases |b|
  {
    if |b| > 0 {
      assert (a + b)[..|a + b| - 1] == a + b[..|b| - 1];
      FilesOfConcat(a, b[..|b| - 1]);
    } else {
      assert a + b == a;
    }
  }

  /** `_list_files(root)`: the walk's files up to the cap, stopping as soon as
      the cap is reached, then sorted. */
  method ListFiles(walk: seq<Entry>) returns (files: seq<string>)
    ensures |files| <= MaxListed
    ensures multiset(files) == multiset(Take(FilesOf(walk), MaxListed))
    ensures forall i, j | 0 <= i < j < |files| :: LexLe(files[i], files[j])
    ensures |FilesOf(walk)| <= MaxListed ==> multiset(files) == multiset(FilesOf(walk))
  {
    var out: seq<string> := [];
    var i := 0;
    while i < |walk| && |out| < MaxListed
      invariant 0 <= i <= |walk|
      invariant out == FilesOf(walk[..i])
      invariant |out| <= MaxListed
    {
      assert walk[..i + 1][..i] == walk[..i];
      if walk[i].isFile {
        out := out + [walk[i].path];
      }
      i := i + 1;
    }
    assert walk == walk[..i] + walk[i..];
    FilesOfConcat(walk[..i], walk[i..]);
    if i == |walk| {
      assert walk[..i] == walk;
    } else {
      assert Take(FilesOf(walk), MaxListed) == out;
    }
    files := SortStrings(out);
  }

  // ---------------------------------------------------------------------
  // `_candidate_roots`

  /** Build files whose directory is a likely project root. */
  const RootMarkers: set<string> := {"manage.py", "pom.xml", "package.json", "pyproject.toml", "build.gradle"}

  predicate IsMarkerFile(e: Entry) {
    e.isFile && Lower(Name(e.path)) in RootMarkers
  }

  /** A directory that `rglob("src/main/java")` yields. */
  predicate IsJavaSourceDir(e: Entry) {
    !e.isFile && (e.path == "src/main/java" || EndsWith(e.path, "/src/main/java"))
  }

  /** The root an entry proposes. For a Java source tree the source takes
      `d.parent.parent`, which is the `src` directory (`asWritten`); the
      comment beside it describes the project directory above `src`. */
  function Proposal(e: Entry, asWritten: bool): Option<string> {
    if IsMarkerFile(e) then Some(Parent(e.path))
    else if IsJavaSourceDir(e) then
      Some(if asWritten then Parent(Parent(e.path)) else Parent(Parent(Parent(e.path))))
    else None
  }

  predicate Proposes(walk: seq<Entry>, x: string, asWritten: bool) {
    exists i | 0 <= i < |walk| :: Proposal(walk[i], asWritten) == Some(x)
  }

  /** The proposals in walk order, repeats included. */
  function Proposals(walk: seq<Entry>, asWritten: bool): (r: seq<string>)
    ensures forall x :: x in r <==> Proposes(walk, x, asWritten)
    decreases |walk|
  {
    if |walk| == 0 then []
    else
      var rest := Proposals(walk[1..], asWritten);
      ProposesCons(walk, asWritten);
      match Proposal(walk[0], asWritten)
      case Some(x) => [x] + rest
      case None => rest
  }

  lemma ProposesCons(walk: seq<Entry>, asWritten: bool)
    requires |walk| > 0
    ensures forall x :: (Proposes(walk, x, asWritten)
      <==> Proposal(walk[0], asWritten) == Some(x) || Proposes(walk[1..], x, asWritten))
  {
    forall x ensures Proposes(walk, x, asWritten)
      <==> Proposal(walk[0], asWritten) == Some(x) || Proposes(walk[1..], x, asWritten)
    {
      if Proposes(walk[1..], x, asWritten) {
        var i :| 0 <= i < |walk[1..]| && Proposal(walk[1..][i], asWritten) == Some(x);
        assert walk[i + 1] == walk[1..][i];
      }
      if Proposes(walk, x, asWritten) && Proposal(walk[0], asWritten) != Some(x) {
        var i :| 0 <= i < |walk| && Proposal(walk[i], asWritten) == Some(x);
        assert walk[1..][i - 1] == walk[i];
      }
    }
  }

  /** The elements of a sequence, first occurrences only. */
  function Dedup(s: seq<string>): (r: seq<string>)
    ensures forall x :: x in r <==> x in s
    ensures forall i, j | 0 <= i < j < |r| :: r[i] != r[j]
    decreases |s|
  {
    if |s| == 0 then []
    else
      var prev := Dedup(s[..|s| - 1]);
      var x := s[|s| - 1];
      assert forall y :: y in s <==> y in s[..|s| - 1] || y == x by {
        assert s == s[..|s| - 1] + [x];
      }
      if x in prev then prev else prev + [x]
  }

  /** The ranking order: more components first, then reverse string order. */
  predicate RootBefore(a: string, b: string) {
    Depth(a) > Depth(b) || (Depth(a) == Depth(b) && LexLe(b, a))
  }

  lemma RootBeforeIsTotalPreorder()
    ensures IsTotalPreorder((a: string, b: string) => RootBefore(a, b))
  {
    forall a: string, b: string ensures RootBefore(a, b) || RootBefore(b, a) {
      LexLeTotal(a, b);
    }
    forall a: string, b: string, c: string | RootBefore(a, b) && RootBefore(b, c)
      ensures RootBefore(a, c)
    {
      if Depth(a) == Depth(b) == Depth(c) {
        LexLeTransitive(c, b, a);
      }
    }
  }

  /** A permutation of a sequence without repeats has none either. */
  lemma DistinctPreserved<T>(e: seq<T>, r: seq<T>, i: int, j: int)
    requires forall a, b | 0 <= a < b < |e| :: e[a] != e[b]
    requires multiset(r) == multiset(e)
    requires 0 <= i < j < |r|
    ensures r[i] != r[j]
  {
    if r[i] == r[j] {
      var x := r[i];
      var left := r[..j];
      assert r == left + r[j..];
      assert multiset(left)[x] >= 1 by { assert left[i] == x; }
      assert multiset(r[j..])[x] >= 1 by { assert r[j..][0] == x; }
      CountAtMostOne(e, x);
    }
  }

  lemma {:induction false} CountAtMostOne<T>(e: seq<T>, x: T)
    requires forall a, b | 0 <= a < b < |e| :: e[a] != e[b]
    ensures multiset(e)[x] <= 1
    decreases |e|
  {
    if |e| > 0 {
      assert e == [e[0]] + e[1..];
      CountAtMostOne(e[1..], x);
      if e[0] == x {
        assert x !in e[1..] by {
          forall k | 0 <= k < |e[1..]| ensures e[1..][k] != x {
            assert e[1..][k] == e[k + 1];
          }
        }
      }
    }
  }

  /** `_candidate_roots(root)`: every proposed root once, deeper roots first,
      equal depths in reverse string order. */
  function CandidateRoots(walk: seq<Entry>, asWritten: bool): (r: seq<string>)
    ensures forall x :: x in r <==> Proposes(walk, x, asWritten)
    ensures forall i, j | 0 <= i < j < |r| :: r[i] != r[j]
    ensures forall i, j | 0 <= i < j < |r| :: Depth(r[i]) >= Depth(r[j])
    ensures forall i, j | 0 <= i < j < |r| :: RootBefore(r[i], r[j])
  {
    var e := Dedup(Proposals(walk, asWritten));
    RootBeforeIsTotalPreorder();
    var r := SortBy(e, (a: string, b: string) => RootBefore(a, b));
    PermutedDistinct(e, r);
    r
  }

  /** A permutation of a sequence without repeats has its elements, once. */
  lemma PermutedDistinct(e: seq<string>, r: seq<string>)
    requires forall i, j | 0 <= i < j < |e| :: e[i] != e[j]
    requires multiset(r) == multiset(e)
    ensures forall x :: x in r <==> x in e
    ensures forall i, j | 0 <= i < j < |r| :: r[i] != r[j]
  {
    forall x ensures x in r <==> x in e {
      assert x in r <==> x in multiset(r);
      assert x in e <==> x in multiset(e);
    }
    forall i, j | 0 <= i < j < |r| ensures r[i] != r[j] {
      DistinctPreserved(e, r, i, j);
    }
  }

  /** A Maven project at the top of the archive: the source proposes `src`,
      the intended root is `.`. */
  lemma JavaRootOffByOne()
    ensures Proposes([Entry("src/main/java", false)], "src", true)
    ensures !Proposes([Entry("src/main/java", false)], ".", true)
    ensures Proposes([Entry("src/main/java", false)], ".", false)
    ensures !Proposes([Entry("src/main/java", false)], "src", false)
  {
    var e := Entry("src/main/java", false);
    SrcMainJavaProposals(e);
    assert "src" != "." by { assert "src"[0] != "."[0]; }
    ProposesOne(e, "src", true);
    ProposesOne(e, ".", true);
    ProposesOne(e, ".", false);
    ProposesOne(e, "src", false);
  }

  lemma SrcMainJavaProposals(e: Entry)
    requires e == Entry("src/main/java", false)
    ensures Proposal(e, true) == Some("src")
    ensures Proposal(e, false) == Some(".")
  {
    assert !IsMarkerFile(e);
    assert IsJavaSourceDir(e);
    SrcMainJavaParents();
  }

  lemma SrcMainJavaParents()
    ensures Parent("src/main/java") == "src/main"
    ensures Parent("src/main") == "src"
    ensures Parent("src") == "."
  {
    ParentOfJoin("src/main", "java");
    assert "src/main" + "/" + "java" == "src/main/java";
    ParentOfJoin("src", "main");
    assert "src" + "/" + "main" == "src/main";
    assert '/' !in "src";
  }

  /** A one-entry walk proposes exactly that entry's root. */
  lemma ProposesOne(e: Entry, x: string, asWritten: bool)
    ensures Proposes([e], x, asWritten) <==> Proposal(e, asWritten) == Some(x)
  {
    assert [e][0] == e;
  }

  // ---------------------------------------------------------------------
  // `_detect_languages`

  /** File names that score five points for themselves. */
  const Manifests: set<string> :=
    {"pom.xml", "build.gradle", "package.json", "requirements.txt", "pyproject.toml", "makefile", "cmakelists.txt"}

  function LangOf(f: string): Option<string> {
    ExtToLang(Lower(Suffix(f)))
  }

  function ManifestOf(f: string): Option<string> {
    var n := Lower(Name(f));
    if n in Manifests then Some(n) else None
  }

  /** The independent definition of a key's score: one point per file of
      that language, five per manifest file of that name. */
  function Score(files: seq<string>, key: string): nat
    decreases |files|
  {
    if |files| == 0 then 0
    else
      var f := files[|files| - 1];
      Score(files[..|files| - 1], key)
        + (if LangOf(f) == Some(key) then 1 else 0)
        + (if ManifestOf(f) == Some(key) then 5 else 0)
  }

  function Lookup(m: seq<(string, nat)>, k: string): nat
    decreases |m|
  {
    if |m| == 0 then 0 else if m[0].0 == k then m[0].1 else Lookup(m[1..], k)
  }

  predicate DistinctNames(m: seq<(string, nat)>) {
    forall i, j | 0 <= i < j < |m| :: m[i].0 != m[j].0
  }

  predicate Positive(m: seq<(string, nat)>) {
    forall i | 0 <= i < |m| :: m[i].1 > 0
  }

  predicate HasName(m: seq<(string, nat)>, k: string) {
    exists i | 0 <= i < |m| :: m[i].0 == k
  }

  /** `counts[k] = counts.get(k, 0) + n` on an insertion-ordered dict. */
  function Bump(m: seq<(string, nat)>, k: string, n: nat): (r: seq<(string, nat)>)
    requires DistinctNames(m) && Positive(m) && n > 0
    ensures DistinctNames(r) && Positive(r)
    ensures forall j :: Lookup(r, j) == Lookup(m, j) + (if j == k then n else 0)
    ensures forall j :: HasName(r, j) <==> j == k || HasName(m, j)
    decreases |m|
  {
    if |m| == 0 then
      assert HasName([(k, n)], k) by { assert [(k, n)][0].0 == k; }
      [(k, n)]
    else if m[0].0 == k then
      BumpFront(m, k, n);
      [(k, m[0].1 + n)] + m[1..]
    else
      TailDistinct(m);
      var rest := Bump(m[1..], k, n);
      BumpBehind(m, rest, k, n);
      [m[0]] + rest
  }

  /** The tail of a dict has its names, but not the head's. */
  lemma TailDistinct(m: seq<(string, nat)>)
    requires DistinctNames(m) && Positive(m) && |m| > 0
    ensures DistinctNames(m[1..]) && Positive(m[1..])
    ensures !HasName(m[1..], m[0].0)
    ensures forall j :: HasName(m, j) <==> j == m[0].0 || HasName(m[1..], j)
  {
    var tail := m[1..];
    assert forall i | 0 <= i < |tail| :: tail[i] == m[i + 1];
    forall j ensures HasName(m, j) <==> j == m[0].0 || HasName(tail, j) {
      if HasName(m, j) && j != m[0].0 {
        var i :| 0 <= i < |m| && m[i].0 == j;
        assert tail[i - 1].0 == j;
      }
      if HasName(tail, j) {
        var i :| 0 <= i < |tail| && tail[i].0 == j;
        assert m[i + 1].0 == j;
      }
    }
  }

  /** Adding to the first entry's count. */
  lemma BumpFront(m: seq<(string, nat)>, k: string, n: nat)
    requires DistinctNames(m) && Positive(m) && n > 0 && |m| > 0 && m[0].0 == k
    ensures var r := [(k, m[0].1 + n)] + m[1..];
      && DistinctNames(r) && Positive(r)
      && (forall j :: Lookup(r, j) == Lookup(m, j) + (if j == k then n else 0))
      && (forall j :: HasName(r, j) <==> j == k || HasName(m, j))
  {
    var r := [(k, m[0].1 + n)] + m[1..];
    assert forall i | 1 <= i < |m| :: r[i] == m[i];
    assert r[1..] == m[1..];
    forall j ensures HasName(r, j) <==> HasName(m, j) {
      if HasName(r, j) {
        var i :| 0 <= i < |r| && r[i].0 == j;
        assert m[i].0 == j;
      }
      if HasName(m, j) {
        var i :| 0 <= i < |m| && m[i].0 == j;
        assert r[i].0 == j;
      }
    }
  }

  /** Adding behind a first entry of another name. */
  lemma BumpBehind(m: seq<(string, nat)>, rest: seq<(string, nat)>, k: string, n: nat)
    requires |m| > 0 && m[0].0 != k && m[0].1 > 0
    requires !HasName(m[1..], m[0].0)
    requires forall j :: HasName(m, j) <==> j == m[0].0 || HasName(m[1..], j)
    requires DistinctNames(rest) && Positive(rest)
    requires forall j :: Lookup(rest, j) == Lookup(m[1..], j) + (if j == k then n else 0)
    requires forall j :: HasName(rest, j) <==> j == k || HasName(m[1..], j)
    ensures var r := [m[0]] + rest;
      && DistinctNames(r) && Positive(r)
      && (forall j :: Lookup(r, j) == Lookup(m, j) + (if j == k then n else 0))
      && (forall j :: HasName(r, j) <==> j == k || HasName(m, j))
  {
    var r := [m[0]] + rest;
    assert r[1..] == rest;
    assert forall i | 1 <= i < |r| :: r[i] == rest[i - 1];
    assert forall j :: Lookup(r, j) == (if j == m[0].0 then m[0].1 else Lookup(rest, j));
    assert forall j :: Lookup(m, j) == (if j == m[0].0 then m[0].1 else Lookup(m[1..], j));
    forall i | 0 <= i < |rest| ensures rest[i].0 != m[0].0 {
      assert HasName(rest, rest[i].0);
    }
    forall j ensures HasName(r, j) <==> j == m[0].0 || HasName(rest, j) {
      if HasName(r, j) && j != m[0].0 {
        var i :| 0 <= i < |r| && r[i].0 == j;
        assert rest[i - 1].0 == j;
      }
      if HasName(rest, j) {
        var i :| 0 <= i < |rest| && rest[i].0 == j;
        assert r[i + 1].0 == j;
      }
    }
  }

  /** One file's contribution to the counts. */
  function Step(m: seq<(string, nat)>, f: string): (r: seq<(string, nat)>)
    requires DistinctNames(m) && Positive(m)
    ensures DistinctNames(r) && Positive(r)
    ensures forall j :: (Lookup(r, j) == Lookup(m, j)
      + (if LangOf(f) == Some(j) then 1 else 0) + (if ManifestOf(f) == Some(j) then 5 else 0))
    ensures forall j :: HasName(r, j) <==> HasName(m, j) || LangOf(f) == Some(j) || ManifestOf(f) == Some(j)
  {
    BumpIf(BumpIf(m, LangOf(f), 1), ManifestOf(f), 5)
  }

  /** `Bump` when a name was found, otherwise nothing. */
  function BumpIf(m: seq<(string, nat)>, k: Option<string>, n: nat): (r: seq<(string, nat)>)
    requires DistinctNames(m) && Positive(m) && n > 0
    ensures DistinctNames(r) && Positive(r)
    ensures forall j :: Lookup(r, j) == Lookup(m, j) + (if k == Some(j) then n else 0)
    ensures forall j :: HasName(r, j) <==> HasName(m, j) || k == Some(j)
  {
    if k.Some? then Bump(m, k.value, n) else m
  }

  /** The `counts` dict after the loop, in first-seen order. */
  function Tally(files: seq<string>): (m: seq<(string, nat)>)
    ensures DistinctNames(m) && Positive(m)
    ensures forall k :: Lookup(m, k) == Score(files, k)
    ensures forall k :: HasName(m, k) <==> Score(files, k) > 0
    decreases |files|
  {
    if |files| == 0 then []
    else Step(Tally(files[..|files| - 1]), files[|files| - 1])
  }

  /** `_detect_languages(root)`: every language or manifest seen, once, with
      its score, highest score first; ties keep first-seen order. */
  function DetectLanguages(files: seq<string>): (r: seq<(string, nat)>)
    ensures DistinctNames(r)
    ensures forall i | 0 <= i < |r| :: r[i].1 == Score(files, r[i].0) && r[i].1 > 0
    ensures forall k :: Score(files, k) > 0 ==> HasName(r, k)
    ensures forall i, j | 0 <= i < j < |r| :: r[i].1 >= r[j].1
    ensures TiesInSeenOrder(files, r)
  {
    var m := Tally(files);
    ScoreFirstIsTotalPreorder();
    var r := SortBy(m, ScoreFirst);
    PermutedTally(files, m, r);
    SortedTallyTies(files);
    r
  }

  /** Names of equal score come in the order they were first seen. */
  predicate TiesInSeenOrder(files: seq<string>, r: seq<(string, nat)>) {
    forall i, j | 0 <= i < j < |r| && r[i].1 == r[j].1 :: FirstSeen(files, r[i].0) < FirstSeen(files, r[j].0)
  }

  /** Sorting the tally by score keeps equal scores in first-seen order. */
  lemma SortedTallyTies(files: seq<string>)
    ensures IsTotalPreorder(ScoreFirst)
    ensures TiesInSeenOrder(files, SortBy(Tally(files), ScoreFirst))
  {
    ScoreFirstIsTotalPreorder();
    var m := Tally(files);
    var r := SortBy(m, ScoreFirst);
    var pos := (e: (string, nat)) => FirstSeen(files, e.0);
    TallyInSeenOrder(files, pos);
    SortByStable(m, ScoreFirst, pos);
    forall i, j | 0 <= i < j < |r| && r[i].1 == r[j].1 ensures FirstSeen(files, r[i].0) < FirstSeen(files, r[j].0) {
      assert ScoreFirst(r[j], r[i]);
    }
  }

  /** The names the counting loop meets, in order and with repeats: each
      file's language, then its manifest name. */
  function Sightings(files: seq<string>): seq<string>
    decreases |files|
  {
    if |files| == 0 then []
    else
      var f := files[|files| - 1];
      Sightings(files[..|files| - 1]) + AsList(LangOf(f)) + AsList(ManifestOf(f))
  }

  /** The rank of `k` among the names in order of first sighting. */
  function FirstSeen(files: seq<string>, k: string): nat {
    IndexIn(Dedup(Sightings(files)), k)
  }

  /** The position of the first `k` in `s`, or `|s|` when there is none. */
  function IndexIn(s: seq<string>, k: string): (r: nat)
    ensures r <= |s|
    decreases |s|
  {
    if |s| == 0 then 0 else if s[0] == k then 0 else 1 + IndexIn(s[1..], k)
  }

  lemma {:induction false} IndexInDistinct(s: seq<string>, i: int)
    requires forall a, b | 0 <= a < b < |s| :: s[a] != s[b]
    requires 0 <= i < |s|
    ensures IndexIn(s, s[i]) == i
    decreases |s|
  {
    if i > 0 {
      assert s[0] != s[i];
      assert s[1..][i - 1] == s[i];
      IndexInDistinct(s[1..], i - 1);
    }
  }

  /** The names of a dict, in its order. */
  function Names(m: seq<(string, nat)>): (r: seq<string>)
    ensures |r| == |m| && forall i | 0 <= i < |m| :: r[i] == m[i].0
  {
    seq(|m|, i requires 0 <= i < |m| => m[i].0)
  }

  lemma NamesCons(x: (string, nat), t: seq<(string, nat)>)
    ensures Names([x] + t) == [x.0] + Names(t)
  {
    var l := Names([x] + t);
    var r := [x.0] + Names(t);
    forall i | 0 <= i < |l| ensures l[i] == r[i] {
      if i > 0 {
        assert ([x] + t)[i] == t[i - 1];
      }
    }
  }

  lemma HasNameInNames(m: seq<(string, nat)>, k: string)
    ensures HasName(m, k) <==> k in Names(m)
  {
    if k in Names(m) {
      var i :| 0 <= i < |Names(m)| && Names(m)[i] == k;
      assert m[i].0 == k;
    }
    if HasName(m, k) {
      var i :| 0 <= i < |m| && m[i].0 == k;
      assert Names(m)[i] == k;
    }
  }

  /** `Bump` adds a new name at the end and leaves the order alone. */
  lemma {:induction false} BumpNames(m: seq<(string, nat)>, k: string, n: nat)
    requires DistinctNames(m) && Positive(m) && n > 0
    ensures Names(Bump(m, k, n)) == Names(m) + (if HasName(m, k) then [] else [k])
    decreases |m|
  {
    if |m| == 0 {
      assert Names([(k, n)]) == [k];
    } else if m[0].0 == k {
      assert HasName(m, k) by { assert m[0].0 == k; }
      NamesCons((k, m[0].1 + n), m[1..]);
      NamesCons(m[0], m[1..]);
      assert m == [m[0]] + m[1..];
    } else {
      TailDistinct(m);
      BumpNames(m[1..], k, n);
      NamesCons(m[0], Bump(m[1..], k, n));
      NamesCons(m[0], m[1..]);
      assert m == [m[0]] + m[1..];
    }
  }

  /** A dict whose names are the first sightings so far stays so when one
      more name is counted. */
  lemma BumpSighting(m: seq<(string, nat)>, k: string, n: nat, seen: seq<string>)
    requires DistinctNames(m) && Positive(m) && n > 0
    requires Names(m) == Dedup(seen)
    ensures Names(Bump(m, k, n)) == Dedup(seen + [k])
  {
    BumpNames(m, k, n);
    HasNameInNames(m, k);
    assert (seen + [k])[..|seen|] == seen;
  }

  /** One file's step keeps the dict's names in first-sighting order: its
      language `lang` and manifest name `manifest` are counted in turn. */
  lemma StepSightings(m: seq<(string, nat)>, lang: Option<string>, manifest: Option<string>, seen: seq<string>)
    requires DistinctNames(m) && Positive(m)
    requires Names(m) == Dedup(seen)
    ensures Names(BumpIf(BumpIf(m, lang, 1), manifest, 5)) == Dedup(seen + AsList(lang) + AsList(manifest))
  {
    BumpIfSighting(m, lang, 1, seen);
    BumpIfSighting(BumpIf(m, lang, 1), manifest, 5, seen + AsList(lang));
  }

  function AsList(k: Option<string>): seq<string> {
    if k.Some? then [k.value] else []
  }

  lemma BumpIfSighting(m: seq<(string, nat)>, k: Option<string>, n: nat, seen: seq<string>)
    requires DistinctNames(m) && Positive(m) && n > 0
    requires Names(m) == Dedup(seen)
    ensures Names(BumpIf(m, k, n)) == Dedup(seen + AsList(k))
  {
    if k.Some? {
      BumpSighting(m, k.value, n, seen);
    } else {
      assert seen + AsList(k) == seen;
    }
  }

  /** The tally lists the names in the order they were first seen. */
  lemma {:induction false} TallyNames(files: seq<string>)
    ensures Names(Tally(files)) == Dedup(Sightings(files))
    decreases |files|
  {
    if |files| > 0 {
      var prefix := files[..|files| - 1];
      var f := files[|files| - 1];
      TallyNames(prefix);
      StepSightings(Tally(prefix), LangOf(f), ManifestOf(f), Sightings(prefix));
    }
  }

  /** Numbered by first sighting, the tally is in ascending order. */
  lemma TallyInSeenOrder(files: seq<string>, pos: ((string, nat)) -> int)
    requires forall e :: pos(e) == FirstSeen(files, e.0)
    ensures Ascending(Tally(files), pos)
  {
    var m := Tally(files);
    TallyNames(files);
    forall i | 0 <= i < |m| ensures pos(m[i]) == i {
      IndexInDistinct(Names(m), i);
    }
  }

  /** `key=lambda kv: kv[1], reverse=True`. */
  predicate ScoreFirst(a: (string, nat), b: (string, nat)) {
    a.1 >= b.1
  }

  lemma ScoreFirstIsTotalPreorder()
    ensures IsTotalPreorder(ScoreFirst)
  {
  }

  /** Reordering the tally keeps what it says about each name. */
  lemma PermutedTally(files: seq<string>, m: seq<(string, nat)>, r: seq<(string, nat)>)
    requires multiset(r) == multiset(m) && DistinctNames(m) && Positive(m)
    requires forall k :: Lookup(m, k) == Score(files, k)
    requires forall k :: HasName(m, k) <==> Score(files, k) > 0
    ensures DistinctNames(r)
    ensures forall i | 0 <= i < |r| :: r[i].1 == Score(files, r[i].0) && r[i].1 > 0
    ensures forall k :: Score(files, k) > 0 ==> HasName(r, k)
  {
    forall i | 0 <= i < |r| ensures r[i] in m {
      assert r[i] in multiset(r);
    }
    forall i | 0 <= i < |r| ensures r[i].1 == Score(files, r[i].0) && r[i].1 > 0 {
      var t :| 0 <= t < |m| && m[t] == r[i];
      LookupDistinct(m, t);
    }
    forall k | Score(files, k) > 0 ensures HasName(r, k) {
      var t :| 0 <= t < |m| && m[t].0 == k;
      assert m[t] in multiset(m);
      assert m[t] in r;
      var u :| 0 <= u < |r| && r[u] == m[t];
    }
    forall i, j | 0 <= i < j < |r| ensures r[i].0 != r[j].0 {
      DistinctPreserved(m, r, i, j);
      var a :| 0 <= a < |m| && m[a] == r[i];
      var b :| 0 <= b < |m| && m[b] == r[j];
      assert a != b;
    }
  }

  lemma {:induction false} LookupDistinct(m: seq<(string, nat)>, t: int)
    requires DistinctNames(m) && 0 <= t < |m|
    ensures Lookup(m, m[t].0) == m[t].1
    decreases |m|
  {
    if t > 0 {
      assert m[t].0 != m[0].0;
      assert m[1..][t - 1] == m[t];
      LookupDistinct(m[1..], t - 1);
    }
  }

  // ---------------------------------------------------------------------
  // `_compose_tree_summary`

  const SummaryFiles: nat := 3000
  const SummaryLines: nat := 400
  const SummaryDepth: nat := 10

  predicate Shallow(rel: string) {
    |Split(rel, '/')| <= SummaryDepth
  }

  /** The shallow paths of a list, in order. */
  function ShallowOf(files: seq<string>): (r: seq<string>)
    ensures |r| <= |files|
    ensures forall i | 0 <= i < |r| :: Shallow(r[i]) && r[i] in files
    decreases |files|
  {
    if |files| == 0 then []
    else
      var last := files[|files| - 1];
      var prev := ShallowOf(files[..|files| - 1]);
      assert forall i | 0 <= i < |prev| :: prev[i] in files by {
        forall i | 0 <= i < |prev| ensures prev[i] in files {
          var k :| 0 <= k < |files| - 1 && files[..|files| - 1][k] == prev[i];
          assert files[k] == prev[i];
        }
      }
      prev + (if Shallow(last) then [last] else [])
  }

  lemma {:induction false} ShallowOfConcat(a: seq<string>, b: seq<string>)
    ensures ShallowOf(a + b) == ShallowOf(a) + ShallowOf(b)
    decreases |b|
  {
    if |b| > 0 {
      assert (a + b)[..|a + b| - 1] == a + b[..|b| - 1];
      ShallowOfConcat(a, b[..|b| - 1]);
    } else {
      assert a + b == a;
    }
  }

  /** `_compose_tree_summary(root, files)`: the shallow paths among the first
      3000, at most 400 of them, one per line. */
  method TreeSummary(files: seq<string>) returns (lines: seq<string>, text: string)
    ensures lines == Take(ShallowOf(Take(files, SummaryFiles)), SummaryLines)
    ensures |lines| <= SummaryLines
    ensures forall i | 0 <= i < |lines| :: Shallow(lines[i]) && lines[i] in files
    ensures text == Join(lines, "\n")
  {
    var head := Take(files, SummaryFiles);
    lines := [];
    var i := 0;
    while i < |head| && |lines| < SummaryLines
      invariant 0 <= i <= |head|
      invariant lines == ShallowOf(head[..i])
      invariant |lines| <= SummaryLines
    {
      assert head[..i + 1][..i] == head[..i];
      if Shallow(head[i]) {
        lines := lines + [head[i]];
      }
      i := i + 1;
    }
    assert head == head[..i] + head[i..];
    ShallowOfConcat(head[..i], head[i..]);
    if i == |head| {
      assert head[..i] == head;
    }
    forall k | 0 <= k < |lines| ensures lines[k] in files {
      assert lines[k] in head;
    }
    text := Join(lines, "\n");
  }
}

=== FILE: json.dfy ===
/** The values `json.loads` produces for a run plan, with the Python
    operations the sanitiser applies to them: truthiness, `dict.get`,
    `isinstance`, `str(...)` and `int(...)`. */
module Json {
  import opened Wrappers
  import opened Strings

  /** A decoded JSON value. An object is the list of its members in
      document order; floats are not part of this model. */
  datatype Json =
    | JNull
    | JBool(b: bool)
    | JInt(i: int)
    | JStr(s: string)
    | JList(items: seq<Json>)
    | JObj(fields: seq<(string, Json)>)

  /** Python's `bool(v)`. */
  predicate Truthy(v: Json) {
    match v
    case JNull => false
    case JBool(b) => b
    case JInt(i) => i != 0
    case JStr(s) => |s| > 0
    case JList(items) => |items| > 0
    case JObj(fields) => |fields| > 0
  }

  /** `d.get(key)`: the value bound to `key`, `None` when the key is absent.
      A key written twice keeps its last value, as `json.loads` does. */
  function Get(fields: seq<(string, Json)>, key: string): (r: Option<Json>)
    ensures r.Some? <==> exists i | 0 <= i < |fields| :: fields[i].0 == key
    ensures r.Some? ==> (key, r.value) in fields
    ensures r.Some? ==> exists i | 0 <= i < |fields| :: (fields[i] == (key, r.value)
      && forall j | i < j < |fields| :: fields[j].0 != key)
    decreases |fields|
  {
    if |fields| == 0 then None
    else if fields[|fields| - 1].0 == key then Some(fields[|fields| - 1].1)
    else
      var r := Get(fields[..|fields| - 1], key);
      assert forall i | 0 <= i < |fields| - 1 :: fields[..|fields| - 1][i] == fields[i];
      r
  }

  /** `d.get(key) or default`: the default stands in for a missing or falsy value. */
  function GetOr(fields: seq<(string, Json)>, key: string, default: Json): (r: Json)
    ensures Get(fields, key).Some? && Truthy(Get(fields, key).value) ==> r == Get(fields, key).value
    ensures !(Get(fields, key).Some? && Truthy(Get(fields, key).value)) ==> r == default
  {
    match Get(fields, key)
    case Some(v) => if Truthy(v) then v else default
    case None => default
  }

  /** Python's `str(v)`: strings are themselves, the rest their `repr`. */
  function Str(v: Json): string {
    if v.JStr? then v.s else Repr(v)
  }

  /** Python's `repr(v)` (quotes inside strings are not escaped in this model). */
  function Repr(v: Json): string
    decreases v, 1
  {
    match v
    case JNull => "None"
    case JBool(b) => if b then "True" else "False"
    case JInt(i) => IntToString(i)
    case JStr(s) => "'" + s + "'"
    case JList(items) => "[" + ReprItems(v, 0) + "]"
    case JObj(fields) => "{" + ReprFields(v, 0) + "}"
  }

  function ReprItems(v: Json, from: nat): string
    requires v.JList?
    decreases v, 0, |v.items| - from
  {
    if from >= |v.items| then ""
    else
      var head := Repr(v.items[from]);
      if from + 1 == |v.items| then head else head + ", " + ReprItems(v, from + 1)
  }

  function ReprFields(v: Json, from: nat): string
    requires v.JObj?
    decreases v, 0, |v.fields| - from
  {
    if from >= |v.fields| then ""
    else
      var f := v.fields[from];
      var head := "'" + f.0 + "': " + Repr(f.1);
      if from + 1 == |v.fields| then head else head + ", " + ReprFields(v, from + 1)
  }

  /** Python's `int(v)`; `None` where Python raises `TypeError` or `ValueError`. */
  function ToInt(v: Json): (r: Option<int>)
    ensures v.JInt? ==> r == Some(v.i)
    ensures v.JBool? ==> r == Some(if v.b then 1 else 0)
    ensures v.JNull? || v.JList? || v.JObj? ==> r.None?
  {
    match v
    case JNull => None
    case JBool(b) => Some(if b then 1 else 0)
    case JInt(i) => Some(i)
    case JStr(s) => ParseInt(s)
    case JList(_) => None
    case JObj(_) => None
  }
}

=== FILE: legacy.dfy ===
/** The earlier grading pipeline (UniGrading/assignments/autgrader.py). It
    routes like the current one, but it never guesses a grade: without a
    usable model answer the result is `failed` with no grade, meant for
    manual review. It also holds the image and command tables of its
    single-file and project runners. */
module LegacyGrader {
  import opened Wrappers
  import opened Strings
  import Grading

  /** A result of this pipeline: the status and an optional grade. */
  datatype Result = Result(status: Grading.Status, grade: Option<real>)

  /** `_final`: a present grade is clamped, an absent one stays absent. */
  function Final(status: Grading.Status, grade: Option<real>): (r: Result)
    ensures r.status == status
    ensures r.grade.None? <==> grade.None?
    ensures r.grade.Some? ==> 0.0 <= r.grade.value <= 100.0
    ensures grade.Some? && 0.0 <= grade.value <= 100.0 ==> r.grade == grade
  {
    Result(status, if grade.None? then None else Some(Grading.Clamp(grade.value)))
  }

  /** `_llm_grade_textual`: only a model answer that carries a grade gives
      `done`; no model, a raised call and an answer without `grade_pct` (the
      `float(None)` raises) all give `failed` with no grade. Here `LlmRaised`
      also stands for an answer whose `suggestions` value `str.join` rejects
      (null, a number, a list holding a non-string): this pipeline joins it
      inside the `try`, so the call fails after the grade was read. The
      second component is the report's `detected_work` flag. */
  function GradeTextual(text: string, attachment: string, priorDetected: bool,
                        llm: Grading.LlmReply): (r: (Result, bool))
    ensures r.1 <==> priorDetected || |text| > 0 || |attachment| > 0
    ensures r.0.status == Grading.Done <==> llm.LlmAnswered? && llm.grade.Some?
    ensures r.0.status != Grading.Done ==> r.0 == Result(Grading.Failed, None)
    ensures r.0.status == Grading.Done ==> r.0.grade == Some(Grading.Clamp(llm.grade.value))
  {
    var detected := |text| > 0 || |attachment| > 0;
    var flag := priorDetected || detected;
    match llm
    case LlmAnswered(Some(g)) => (Final(Grading.Done, Some(Grading.Clamp(g))), flag)
    case _ => (Final(Grading.Failed, None), flag)
  }

  /** `grade_submission`: a storage error and a crashed handler give
      `failed` with no grade; every handler ends in `GradeTextual`. Which
      handler runs only decides the extracted `text` and the report's
      `detected_work` flag, and the report is not part of this result. */
  function GradeSubmission(storageReadable: bool, crashed: bool, text: string, attachment: string,
                           llm: Grading.LlmReply): (r: Result)
    ensures r.grade.None? <==> r.status == Grading.Failed
    ensures r.status != Grading.Partial
    ensures r.grade.Some? ==> 0.0 <= r.grade.value <= 100.0
    ensures !storageReadable || crashed ==> r == Result(Grading.Failed, None)
    ensures storageReadable && !crashed ==> (r.status == Grading.Done <==> llm.LlmAnswered? && llm.grade.Some?)
  {
    if !storageReadable then Final(Grading.Failed, None)
    else if crashed then Final(Grading.Failed, None)
    else GradeTextual(text, attachment, false, llm).0
  }

  /** The submission fields `apply_result_to_submission` writes. */
  datatype Fields = Fields(grade: Option<real>, status: string)

  const StatusChoices: set<string> := {"queued", "running", "done", "failed"}

  /** `apply_result_to_submission`: a missing grade leaves the stored one;
      the status defaults to `done` and any value outside the field's
      choices becomes `failed`. */
  function ApplyResult(current: Fields, resultStatus: Option<string>, resultGrade: Option<real>): (r: Fields)
    ensures resultGrade.None? ==> r.grade == current.grade
    ensures resultGrade.Some? ==> r.grade == resultGrade
    ensures r.status in StatusChoices
    ensures resultStatus.Some? && resultStatus.value in StatusChoices ==> r.status == resultStatus.value
    ensures resultStatus.None? ==> r.status == "done"
    ensures resultStatus.Some? && resultStatus.value !in StatusChoices ==> r.status == "failed"
  {
    var status := resultStatus.GetOr("done");
    Fields(
      if resultGrade.Some? then resultGrade else current.grade,
      if status in StatusChoices then status else "failed")
  }

  /** A `partial` from the current pipeline would be stored as `failed`. */
  lemma PartialStoredAsFailed(current: Fields, g: real)
    ensures ApplyResult(current, Some(Grading.StatusName(Grading.Partial)), Some(g)).status == "failed"
  {
  }

  /** What the pipeline's results do to a stored submission: a result with
      no grade never erases a grade, and its status is always a valid choice. */
  lemma ApplyKeepsGradeOnManualReview(current: Fields, storageReadable: bool, crashed: bool,
                                      text: string, attachment: string, llm: Grading.LlmReply)
    ensures var r := GradeSubmission(storageReadable, crashed, text, attachment, llm);
      var f := ApplyResult(current, Some(Grading.StatusName(r.status)), r.grade);
      (r.grade.None? ==> f == Fields(current.grade, "failed"))
      && (r.grade.Some? ==> f == Fields(r.grade, "done"))
  {
  }

  // ---------------------------------------------------------------------
  // Runner tables

  const DefaultImage: string := "python:3.11"

  /** `_choose_image_for_lang(lang, project)`. The two environment overrides
      are inputs; `None` means the variable is unset. */
  function ChooseImage(lang: Option<string>, project: bool, envDs: Option<string>, envPy: Option<string>): (r: string)
    ensures lang.None? || lang == Some("python") ==>
      r == (if project then envDs.GetOr(DefaultImage) else envPy.GetOr(DefaultImage))
    ensures lang == Some("node") ==> r == "node:20"
    ensures lang == Some("java") ==> r == "maven:3.9-eclipse-temurin-17"
    ensures lang == Some("c") || lang == Some("cpp") ==> r == "gcc:13"
    ensures lang == Some("go") ==> r == "golang:1.22"
    ensures lang == Some("rust") ==> r == "rust:1.79"
    ensures lang == Some("ruby") ==> r == "ruby:3.3"
    ensures lang == Some("php") ==> r == "php:8.3-cli"
    ensures lang == Some("dotnet") ==> r == "mcr.microsoft.com/dotnet/sdk:8.0"
    ensures lang.Some? && lang.value !in KnownLanguages ==> r == DefaultImage
    ensures lang.Some? && lang.value != "python" ==> r in FixedImages
  {
    match lang
    case None => if project then envDs.GetOr(DefaultImage) else envPy.GetOr(DefaultImage)
    case Some(l) =>
      if l == "python" then (if project then envDs.GetOr(DefaultImage) else envPy.GetOr(DefaultImage))
      else if l == "node" then "node:20"
      else if l == "java" then "maven:3.9-eclipse-temurin-17"
      else if l == "c" || l == "cpp" then "gcc:13"
      else if l == "go" then "golang:1.22"
      else if l == "rust" then "rust:1.79"
      else if l == "ruby" then "ruby:3.3"
      else if l == "php" then "php:8.3-cli"
      else if l == "dotnet" then "mcr.microsoft.com/dotnet/sdk:8.0"
      else DefaultImage
  }

  const KnownLanguages: set<string> := {"python", "node", "java", "c", "cpp", "go", "rust", "ruby", "php", "dotnet"}

  const FixedImages: seq<string> := [
    "python:3.11", "node:20", "maven:3.9-eclipse-temurin-17", "gcc:13", "golang:1.22",
    "rust:1.79", "ruby:3.3", "php:8.3-cli", "mcr.microsoft.com/dotnet/sdk:8.0"]

  /** `_lang_cmd_single(file, lang)`: Python, shell and Node files run under
      their interpreter, by language or by extension; anything else runs a
      shell line that ends in `false`. */
  function LangCmdSingle(file: string, lang: Option<string>): (r: seq<string>)
    ensures lang == Some("python") || EndsWith(file, ".py") ==> r == ["python", file]
    ensures r == ["python", file] || r == ["bash", file] || r == ["node", file]
      || (|r| == 3 && r[..2] == ["sh", "-lc"] && EndsWith(r[2], "&& false"))
    ensures r[0] == "bash" ==> lang == Some("bash") || EndsWith(file, ".sh")
    ensures r[0] == "node" ==> lang == Some("node") || EndsWith(file, ".js") || EndsWith(file, ".ts")
    ensures r[0] == "sh" ==> (lang !in {Some("python"), Some("bash"), Some("node")}
      && !EndsWith(file, ".py") && !EndsWith(file, ".sh") && !EndsWith(file, ".js") && !EndsWith(file, ".ts"))
  {
    if lang == Some("python") || EndsWith(file, ".py") then ["python", file]
    else if lang == Some("bash") || EndsWith(file, ".sh") then ["bash", file]
    else if lang == Some("node") || EndsWith(file, ".js") || EndsWith(file, ".ts") then ["node", file]
    else
      var line := "echo 'No direct runner for " + file + "' && false";
      assert line[|line| - 8..] == "&& false";
      ["sh", "-lc", line]
  }

  /** What a runner did: raised, or the process exited with a return code. */
  datatype Exec = ExecRaised | Exited(returnCode: int)

  /** `_run_single_file_in_sandbox`: Docker first, then local execution when
      it is enabled, else nothing. The Docker runner reports success for any
      container that ran; only the local runner looks at the return code.
      The result is `(ran, ok)`. */
  function RunSingle(dockerAvailable: bool, localEnabled: bool, exec: Exec): (r: (bool, bool))
    ensures r.1 ==> r.0
    ensures !dockerAvailable && !localEnabled ==> r == (false, false)
    ensures exec.ExecRaised? ==> r == (false, false)
    ensures dockerAvailable && exec.Exited? ==> r == (true, true)
    ensures !dockerAvailable && localEnabled && exec.Exited? ==> r == (true, exec.returnCode == 0)
  {
    if dockerAvailable then
      match exec
      case ExecRaised => (false, false)
      case Exited(_) => (true, true)
    else if localEnabled then
      match exec
      case ExecRaised => (false, false)
      case Exited(rc) => (true, rc == 0)
    else (false, false)
  }

  /** A failing program run under Docker is still reported as a success. */
  lemma DockerIgnoresExitCode()
    ensures RunSingle(true, false, Exited(1)) == (true, true)
    ensures RunSingle(false, true, Exited(1)) == (true, false)
  {
  }
}

=== FILE: models.dfy ===
/** Storage keys of uploaded files (UniGrading/assignments/models.py,
    UniGrading/subjects/models.py) and the grading status field of a
    submission. `slugify` is an input: any function from text to text; the
    structural facts need only that its results contain no `/`, which
    Django's `slugify` guarantees. */
module Models {
  import opened Wrappers
  import opened Strings
  import Tasks
  import LegacyGrader

  /** Python's `a or b`: the first non-empty text. */
  function Or(a: string, b: string): (r: string)
    ensures a != "" ==> r == a
    ensures a == "" ==> r == b
  {
    if a != "" then a else b
  }

  ghost predicate NoSlash(slug: string -> string) {
    forall x :: '/' !in slug(x)
  }

  /** The `/`-separated segments of a key built from `parts` and a final
      file name. */
  lemma {:induction false} SegmentsOf(parts: seq<string>, filename: string)
    requires forall i | 0 <= i < |parts| :: '/' !in parts[i]
    ensures Segmented(parts, filename)
    decreases |parts|
  {
    if |parts| > 0 {
      SegmentsOf(parts[1..], filename);
      SplitAtFirst(parts[0], '/', JoinPath(parts[1..], filename));
      assert parts == [parts[0]] + parts[1..];
    }
  }

  /** The key's segments start with `parts`, the file name after them. */
  predicate Segmented(parts: seq<string>, filename: string) {
    var segments := Split(JoinPath(parts, filename), '/');
    |segments| >= |parts| + 1 && segments[..|parts|] == parts
  }

  /** The same, segment by segment, whenever `clean` holds. */
  lemma SegmentAt(clean: bool, parts: seq<string>, filename: string)
    requires clean ==> forall i | 0 <= i < |parts| :: '/' !in parts[i]
    ensures clean ==> var segments := Split(JoinPath(parts, filename), '/');
      && |segments| >= |parts| + 1
      && forall i | 0 <= i < |parts| :: segments[i] == parts[i]
  {
    if !clean { return; }
    SegmentsOf(parts, filename);
    var segments := Split(JoinPath(parts, filename), '/');
    forall i | 0 <= i < |parts| ensures segments[i] == parts[i] {
      assert segments[..|parts|][i] == segments[i];
    }
  }

  /** `"{p0}/{p1}/…/{filename}"`. */
  function JoinPath(parts: seq<string>, filename: string): (r: string)
    ensures EndsWith(r, filename)
    ensures |parts| > 0 ==> EndsWith(r, "/" + filename)
    decreases |parts|
  {
    if |parts| == 0 then filename
    else
      var rest := JoinPath(parts[1..], filename);
      JoinStep(parts[0], rest, filename, |parts| > 1);
      parts[0] + "/" + rest
  }

  /** One more segment in front keeps the key ending in `/filename`. */
  lemma JoinStep(head: string, rest: string, filename: string, more: bool)
    requires more ==> EndsWith(rest, "/" + filename)
    requires !more ==> rest == filename
    ensures EndsWith(head + "/" + rest, "/" + filename)
    ensures EndsWith(head + "/" + rest, filename)
  {
    var r := head + "/" + rest;
    var tail := "/" + filename;
    assert r == head + ("/" + rest);
    if more {
      assert r[|r| - |tail|..] == rest[|rest| - |tail|..];
    } else {
      assert r[|r| - |tail|..] == tail;
    }
    assert r[|r| - |filename|..] == r[|r| - |tail|..][1..];
  }

  /** A key of three slash-free segments and a file name splits back into
      them. */
  lemma ThreeSegments(clean: bool, a: string, b: string, c: string, filename: string)
    requires clean ==> '/' !in a && '/' !in b && '/' !in c
    ensures clean ==> var segments := Split(JoinPath([a, b, c], filename), '/');
      |segments| >= 4 && segments[0] == a && segments[1] == b && segments[2] == c
  {
    var parts := [a, b, c];
    SegmentAt(clean, parts, filename);
    if clean {
      assert parts[0] == a && parts[1] == b && parts[2] == c;
    }
  }

  /** The same for five segments. */
  lemma FiveSegments(clean: bool, a: string, b: string, c: string, d: string, e: string, filename: string)
    requires clean ==> '/' !in a && '/' !in b && '/' !in c && '/' !in d && '/' !in e
    ensures clean ==> var segments := Split(JoinPath([a, b, c, d, e], filename), '/');
      && |segments| >= 6 && segments[0] == a && segments[1] == b && segments[2] == c
      && segments[3] == d && segments[4] == e
  {
    var parts := [a, b, c, d, e];
    SegmentAt(clean, parts, filename);
    if clean {
      assert parts[0] == a && parts[1] == b && parts[2] == c && parts[3] == d && parts[4] == e;
    }
  }

  // ---------------------------------------------------------------------
  // assignments/models.py

  /** The fixed folders of assignment files and of submissions. */
  const AssignmentFiles: string := "assignment-files"
  const SubmissionFiles: string := "assignment-submissions"

  /** `assignment_upload_path`: professor, subject, `assignment-files`, then
      the file name. The professor's full name falls back to the username
      and then to `prof`, the subject name to `subject`; both are stripped
      before slugging. */
  function AssignmentUploadPath(slug: string -> string, profFullName: string, profUsername: string,
                                subjectName: string, filename: string): (r: string)
    ensures EndsWith(r, "/" + filename)
    ensures NoSlash(slug) ==> (
      var parts := Split(r, '/');
      && |parts| >= 4
      && parts[0] == slug(Strip(Or(profFullName, Or(profUsername, "prof"))))
      && parts[1] == slug(Strip(Or(subjectName, "subject")))
      && parts[2] == AssignmentFiles)
  {
    FilesPath(slug, Strip(Or(profFullName, Or(profUsername, "prof"))), Strip(Or(subjectName, "subject")), filename)
  }

  /** The key of an assignment file once the names are chosen. */
  function FilesPath(slug: string -> string, prof: string, subj: string, filename: string): (r: string)
    ensures EndsWith(r, "/" + filename)
    ensures NoSlash(slug) ==> (
      var parts := Split(r, '/');
      |parts| >= 4 && parts[0] == slug(prof) && parts[1] == slug(subj) && parts[2] == AssignmentFiles)
  {
    assert NoSlash(slug) ==> '/' !in slug(prof) && '/' !in slug(subj);
    ThreeSegments(NoSlash(slug), slug(prof), slug(subj), AssignmentFiles, filename);
    JoinPath([slug(prof), slug(subj), AssignmentFiles], filename)
  }

  /** `submission_upload_path`: professor, subject,
      `assignment-submissions`, assignment, student, then the file name. The
      assignment falls back to `assignment-{pk}` and the student to
      `user-{id}`. */
  function SubmissionUploadPath(slug: string -> string, profFullName: string, profUsername: string,
                                subjectName: string, title: string, assignmentPk: int,
                                studentFullName: string, studentUsername: string, studentId: int,
                                filename: string): (r: string)
    ensures EndsWith(r, "/" + filename)
    ensures NoSlash(slug) ==> (
      var parts := Split(r, '/');
      && |parts| >= 6
      && parts[0] == slug(Or(profFullName, Or(profUsername, "prof")))
      && parts[1] == slug(Or(subjectName, "subject"))
      && parts[2] == SubmissionFiles
      && parts[3] == slug(Or(title, "assignment-" + IntToString(assignmentPk)))
      && parts[4] == slug(Or(studentFullName, Or(studentUsername, "user-" + IntToString(studentId)))))
  {
    var prof := slug(Or(profFullName, Or(profUsername, "prof")));
    var subj := slug(Or(subjectName, "subject"));
    var assignment := slug(Or(title, "assignment-" + IntToString(assignmentPk)));
    var student := slug(Or(studentFullName, Or(studentUsername, "user-" + IntToString(studentId))));
    assert NoSlash(slug) ==> '/' !in prof && '/' !in subj && '/' !in assignment && '/' !in student;
    FiveSegments(NoSlash(slug), prof, subj, SubmissionFiles, assignment, student, filename);
    JoinPath([prof, subj, SubmissionFiles, assignment, student], filename)
  }

  /** The values of `autograde_status`, and its default. */
  const AutogradeStatuses: seq<string> := ["queued", "running", "done", "failed"]
  const DefaultAutogradeStatus: string := "queued"

  /** The grading job keeps the status field inside its domain: from a
      store whose statuses are all allowed values, every status it saves and
      every status it leaves behind is one of them. */
  lemma GradingKeepsStatusDomain(store: map<int, Tasks.Stored>, id: int, result: Tasks.GraderResult)
    requires forall k | k in store :: store[k].status in AutogradeStatuses
    ensures var r := Tasks.RunAutograde(store, id, result);
      && (forall s | s in r.2 :: s in AutogradeStatuses)
      && (forall k | k in r.1 :: r.1[k].status in AutogradeStatuses)
  {
    var r := Tasks.RunAutograde(store, id, result);
    assert forall s | s in r.2 :: s in {"running", "done", "failed"};
  }

  // ---------------------------------------------------------------------
  // subjects/models.py

  /** Who uploaded a subject file; absent when the uploader was deleted. */
  datatype Uploader = Uploader(role: Option<string>, fullName: string, username: string)

  /** `subject_file_upload_path`: professor, subject and category; then the
      student's own folder for a student uploader, the `<category> Files`
      folder for anyone else uploading to `assignments` or `tests`, or
      nothing more. */
  function SubjectFileUploadPath(slug: string -> string, uploader: Option<Uploader>,
                                 profFullName: string, profUsername: string,
                                 subjectName: string, categoryName: string, filename: string): (r: string)
    ensures EndsWith(r, "/" + filename)
    ensures NoSlash(slug) ==> (
      var parts := Split(r, '/');
      var category := slug(categoryName);
      && |parts| >= 4
      && parts[0] == slug(Or(profFullName, profUsername))
      && parts[1] == slug(subjectName)
      && (IsStudent(uploader) ==> (
            && |parts| >= 5 && parts[2] == category
            && parts[3] == slug(Or(uploader.value.fullName, uploader.value.username))))
      && (!IsStudent(uploader) && Lower(category) in ["assignments", "tests"] ==> parts[2] == category + " Files")
      && (!IsStudent(uploader) && Lower(category) !in ["assignments", "tests"] ==> parts[2] == category))
  {
    var prof := slug(Or(profFullName, profUsername));
    var subj := slug(subjectName);
    var category := slug(categoryName);
    var parts :=
      if IsStudent(uploader) then [prof, subj, category, slug(Or(uploader.value.fullName, uploader.value.username))]
      else if Lower(category) in ["assignments", "tests"] then [prof, subj, category + " Files"]
      else [prof, subj, category];
    assert NoSlash(slug) ==> '/' !in prof && '/' !in subj && '/' !in category + " Files" by {
      if NoSlash(slug) {
        assert '/' !in category;
      }
    }
    assert NoSlash(slug) ==> forall i | 0 <= i < |parts| :: '/' !in parts[i];
    SegmentAt(NoSlash(slug), parts, filename);
    JoinPath(parts, filename)
  }

  predicate IsStudent(uploader: Option<Uploader>) {
    uploader.Some? && uploader.value.role == Some("student")
  }
}

=== FILE: paths.dfy ===
/** The `pathlib` views of a relative path that the autograder uses. Paths are
    the normalised, slash-separated relative paths an archive walk yields:
    no empty component, no trailing slash, `.` for the root itself. */
module Paths {
  import opened Strings

  /** Position just after the last `/`, or 0 when there is none. */
  function NameStart(p: string): (k: nat)
    ensures k <= |p|
    ensures k > 0 ==> p[k - 1] == '/'
    ensures forall i | k <= i < |p| :: p[i] != '/'
    decreases |p|
  {
    if |p| == 0 then 0
    else if p[|p| - 1] == '/' then |p|
    else NameStart(p[..|p| - 1])
  }

  /** `Path(p).name`: the last component. */
  function Name(p: string): (r: string)
    ensures '/' !in r
    ensures EndsWith(p, r)
  {
    var k := NameStart(p);
    assert forall i | 0 <= i < |p[k..]| :: p[k..][i] == p[k + i];
    p[k..]
  }

  /** `str(Path(p).parent)`: everything before the last `/`, `.` at the top. */
  function Parent(p: string): (r: string)
    ensures '/' in p ==> p == r + "/" + Name(p)
    ensures '/' !in p ==> r == "."
  {
    var k := NameStart(p);
    if k == 0 then
      assert '/' !in p by {
        forall i | 0 <= i < |p| ensures p[i] != '/' { }
      }
      "."
    else
      assert p == p[..k - 1] + "/" + p[k..];
      p[..k - 1]
  }

  /** Position of the last `.` in `s`, if any. */
  function LastDot(s: string): (r: int)
    ensures -1 <= r < |s|
    ensures r >= 0 ==> s[r] == '.'
    ensures forall i | r < i < |s| :: s[i] != '.'
    decreases |s|
  {
    if |s| == 0 then -1
    else if s[|s| - 1] == '.' then |s| - 1
    else LastDot(s[..|s| - 1])
  }

  /** `Path(p).suffix`: from the last dot of the name, unless that dot starts
      or ends the name. */
  function Suffix(p: string): (r: string)
    ensures |r| > 0 ==> r[0] == '.' && EndsWith(Name(p), r) && |r| < |Name(p)|
    ensures |Name(p)| > 1 && '.' in Name(p)[1..] && Name(p)[|Name(p)| - 1] != '.' ==> |r| > 0
  {
    var n := Name(p);
    var i := LastDot(n);
    if 0 < i < |n| - 1 then n[i..] else ""
  }

  /** `len(Path(p).parts)`: the number of components (`.` has none). */
  function Depth(p: string): nat {
    if p == "." || p == "" then 0 else |Split(p, '/')|
  }

  /** The last component and its parent of a path built from them. */
  lemma {:induction false} NameStartOfJoin(a: string, b: string)
    requires '/' !in b
    ensures NameStart(a + "/" + b) == |a| + 1
    decreases |b|
  {
    var p := a + "/" + b;
    if |b| > 0 {
      assert p[..|p| - 1] == a + "/" + b[..|b| - 1];
      assert b[|b| - 1] in b;
      var c := b[..|b| - 1];
      assert '/' !in c by {
        forall i | 0 <= i < |c| ensures c[i] != '/' {
          assert b[i] in b;
        }
      }
      NameStartOfJoin(a, b[..|b| - 1]);
    }
  }

  lemma ParentOfJoin(a: string, b: string)
    requires '/' !in b
    ensures Parent(a + "/" + b) == a
    ensures Name(a + "/" + b) == b
  {
    NameStartOfJoin(a, b);
    assert (a + "/" + b)[..|a|] == a;
    assert (a + "/" + b)[|a| + 1..] == b;
  }
}

=== FILE: plan.dfy ===
/** Run plans for the archive pipeline (UniGrading/assignments/autograder.py):
    the allowlist of container images, `_sanitize_plan`, which turns an
    untrusted model-produced plan into bounded services, and
    `_fallback_plan`, which derives one service from the marker files. */
module Plan {
  import opened Wrappers
  import opened Strings
  import opened Json
  import Paths

  /** The images a plan may name when `AUTOGRADER_ALLOWED_IMAGES` is unset. */
  const DefaultAllowed: seq<string> := [
    "python:3.12", "python:3.11", "python:3.10",
    "node:20", "node:18",
    "maven:3.9-eclipse-temurin-17",
    "gradle:8.8-jdk17",
    "gcc:13",
    "golang:1.22",
    "rust:1.79",
    "ruby:3.3",
    "php:8.3-cli",
    "mcr.microsoft.com/dotnet/sdk:8.0"
  ]

  /** The process-wide settings read from the environment at import time. */
  datatype Config = Config(allowed: seq<string>, defaultImage: string, allowNet: bool)

  /** `AUTOGRADER_IMAGE_DEFAULT`, with `python:3.11` when unset. */
  function DefaultImageFrom(env: Option<string>): string {
    env.GetOr("python:3.11")
  }

  /** The non-empty strings of a list, in list order (`[s for s in xs if s]`). */
  function NonEmpty(xs: seq<string>): (r: seq<string>)
    ensures |r| <= |xs|
    ensures forall i | 0 <= i < |r| :: |r[i]| > 0 && r[i] in xs
    ensures forall i | 0 <= i < |xs| :: |xs[i]| > 0 ==> xs[i] in r
    decreases |xs|
  {
    if |xs| == 0 then []
    else
      var rest := NonEmpty(xs[1..]);
      assert forall i | 1 <= i < |xs| :: xs[i] == xs[1..][i - 1];
      if |xs[0]| > 0 then [xs[0]] + rest else rest
  }

  /** The filter keeps order: the non-empty strings of two lists are those of
      the first followed by those of the second. */
  lemma {:induction false} NonEmptyConcat(a: seq<string>, b: seq<string>)
    ensures NonEmpty(a + b) == NonEmpty(a) + NonEmpty(b)
    decreases |a|
  {
    if |a| > 0 {
      assert (a + b)[1..] == a[1..] + b;
      NonEmptyConcat(a[1..], b);
    } else {
      assert a + b == b;
    }
  }

  /** The stripped non-empty pieces of a comma-separated list: each item is a
      stripped piece, and every piece that strips to something is an item. */
  function NonBlankItems(pieces: seq<string>): (r: seq<string>)
    ensures |r| <= |pieces|
    ensures forall i | 0 <= i < |r| :: |r[i]| > 0 && r[i] in Map(Strip, pieces)
    ensures forall i | 0 <= i < |pieces| :: |Strip(pieces[i])| > 0 ==> Strip(pieces[i]) in r
  {
    var stripped := Map(Strip, pieces);
    assert forall i | 0 <= i < |pieces| :: stripped[i] == Strip(pieces[i]);
    NonEmpty(stripped)
  }

  /** The pieces' items keep the pieces' order: splitting the list of pieces
      anywhere splits its items at the same place. */
  lemma NonBlankItemsConcat(a: seq<string>, b: seq<string>)
    ensures NonBlankItems(a + b) == NonBlankItems(a) + NonBlankItems(b)
  {
    MapConcat(Strip, a, b);
    NonEmptyConcat(Map(Strip, a), Map(Strip, b));
  }

  /** `ALLOWED_IMAGES`: the configured list when it names at least one image,
      otherwise the built-in list. Never empty, never a blank entry. */
  function AllowedImagesFrom(env: string): (r: seq<string>)
    ensures |r| > 0
    ensures forall i | 0 <= i < |r| :: |r[i]| > 0
    ensures |NonBlankItems(Split(env, ','))| == 0 ==> r == DefaultAllowed
    ensures |NonBlankItems(Split(env, ','))| > 0 ==> r == NonBlankItems(Split(env, ','))
  {
    var items := NonBlankItems(Split(env, ','));
    DefaultAllowedNonBlank();
    if |items| > 0 then items else DefaultAllowed
  }

  lemma DefaultAllowedNonBlank()
    ensures |DefaultAllowed| > 0
    ensures forall i | 0 <= i < |DefaultAllowed| :: |DefaultAllowed[i]| > 0
  {
  }

  /** One sanitised service. */
  datatype Service = Service(
    name: string,
    image: string,
    workdir: string,
    setup: seq<string>,
    run: seq<string>,
    env: seq<(string, string)>,
    network: bool,
    timeout: int)

  /** What `_sanitize_plan` gives back: `{}` for input that is not a plan,
      the services otherwise, or the `ValueError`/`TypeError` that `int(...)`
      raises on a timeout that is not a number. */
  datatype Sanitized = NotAPlan | Services(services: seq<Service>) | Raised

  const MinTimeout: int := 30
  const MaxTimeout: int := 240
  const DefaultTimeout: int := 180
  const MaxCommands: nat := 12
  const MaxNameLength: nat := 64
  const MaxEnvKeyLength: nat := 64
  const MaxEnvValueLength: nat := 200
  const NoOpRun: string := "echo 'no-op'"

  predicate DistinctKeys(m: seq<(string, string)>) {
    forall i, j | 0 <= i < j < |m| :: m[i].0 != m[j].0
  }

  /** The bounds every sanitised service meets. */
  predicate SafeService(cfg: Config, s: Service) {
    && MinTimeout <= s.timeout <= MaxTimeout
    && (s.image in cfg.allowed || s.image == cfg.defaultImage)
    && 1 <= |s.run| <= MaxCommands
    && |s.setup| <= MaxCommands
    && |s.name| <= MaxNameLength
    && DistinctKeys(s.env)
    && (forall i | 0 <= i < |s.env| :: |s.env[i].0| <= MaxEnvKeyLength && |s.env[i].1| <= MaxEnvValueLength)
  }

  /** `max(30, min(t, 240))`. */
  function ClampTimeout(t: int): (r: int)
    ensures MinTimeout <= r <= MaxTimeout
    ensures MinTimeout <= t <= MaxTimeout ==> r == t
    ensures t < MinTimeout ==> r == MinTimeout
    ensures t > MaxTimeout ==> r == MaxTimeout
  {
    if t < MinTimeout then MinTimeout else if t > MaxTimeout then MaxTimeout else t
  }

  /** The first image of the allowlist with the given prefix (`next(...)`). */
  function FirstWithPrefix(allowed: seq<string>, prefix: string): (r: Option<string>)
    ensures r.Some? ==> r.value in allowed && StartsWith(r.value, prefix)
    ensures r.None? <==> forall i | 0 <= i < |allowed| :: !StartsWith(allowed[i], prefix)
    ensures r.Some? ==> exists k | 0 <= k < |allowed| ::
      (allowed[k] == r.value && forall i | 0 <= i < k :: !StartsWith(allowed[i], prefix))
    decreases |allowed|
  {
    if |allowed| == 0 then None
    else if StartsWith(allowed[0], prefix) then Some(allowed[0])
    else
      var r := FirstWithPrefix(allowed[1..], prefix);
      assert forall i | 1 <= i < |allowed| :: allowed[i] == allowed[1..][i - 1];
      if r.Some? then
        var k :| 0 <= k < |allowed[1..]| && allowed[1..][k] == r.value
          && forall i | 0 <= i < k :: !StartsWith(allowed[1..][i], prefix);
        assert allowed[k + 1] == r.value;
        r
      else r
  }

  /** `FirstWithPrefix` or the given fallback. */
  function PickOr(allowed: seq<string>, prefix: string, image: string): (r: string)
    ensures r == image || (r in allowed && StartsWith(r, prefix))
  {
    match FirstWithPrefix(allowed, prefix)
    case Some(i) => i
    case None => image
  }

  /** The image override for commands that clearly need Maven, Gradle or
      Node: checked in that order on the lower-cased joined commands. */
  function AutoPick(allowed: seq<string>, joined: string, image: string): (r: string)
    ensures r == image || r in allowed
    ensures (NeedsMaven(joined) && FirstWithPrefix(allowed, "maven:").Some?)
      ==> r == FirstWithPrefix(allowed, "maven:").value
    ensures (!NeedsMaven(joined) && Contains(joined, "gradle") && FirstWithPrefix(allowed, "gradle:").Some?)
      ==> r == FirstWithPrefix(allowed, "gradle:").value
    ensures (!NeedsMaven(joined) && !Contains(joined, "gradle") && NeedsNode(joined)
      && FirstWithPrefix(allowed, "node:").Some?) ==> r == FirstWithPrefix(allowed, "node:").value
    ensures !NeedsMaven(joined) && !Contains(joined, "gradle") && !NeedsNode(joined) ==> r == image
  {
    if NeedsMaven(joined) then PickOr(allowed, "maven:", image)
    else if Contains(joined, "gradle") then PickOr(allowed, "gradle:", image)
    else if NeedsNode(joined) then PickOr(allowed, "node:", image)
    else image
  }

  predicate NeedsMaven(joined: string) {
    Contains(joined, "mvn") || Contains(joined, "maven")
  }

  predicate NeedsNode(joined: string) {
    Contains(joined, "npm ") || Contains(joined, "pnpm") || Contains(joined, "yarn") || Contains(joined, "node ")
  }

  /** `svc.get(key) or []`, replaced by `[]` when it is not a list. */
  function CommandItems(fields: seq<(string, Json)>, key: string): seq<Json> {
    match GetOr(fields, key, JList([]))
    case JList(items) => items
    case _ => []
  }

  /** `[str(c) for c in items]`. */
  function Strs(items: seq<Json>): (r: seq<string>)
    ensures |r| == |items|
    ensures forall i | 0 <= i < |items| :: r[i] == Str(items[i])
  {
    seq(|items|, i requires 0 <= i < |items| => Str(items[i]))
  }

  /** `svc.get("env") or {}`, replaced by `{}` when it is not an object. */
  function EnvItems(fields: seq<(string, Json)>): seq<(string, Json)> {
    match GetOr(fields, "env", JObj([]))
    case JObj(items) => items
    case _ => []
  }

  /** `d[k] = v` on an insertion-ordered dict: an existing key keeps its
      place and takes the new value, a new key goes last. */
  function Put(m: seq<(string, string)>, k: string, v: string): (r: seq<(string, string)>)
    requires DistinctKeys(m)
    ensures DistinctKeys(r)
    ensures (k, v) in r
    ensures forall i | 0 <= i < |r| :: r[i] == (k, v) || r[i] in m
    ensures forall i | 0 <= i < |m| && m[i].0 != k :: m[i] in r
    ensures |r| == |m| || |r| == |m| + 1
  {
    if exists i | 0 <= i < |m| :: m[i].0 == k then
      var i :| 0 <= i < |m| && m[i].0 == k;
      var r := m[i := (k, v)];
      assert r[i] == (k, v);
      forall j | 0 <= j < |m| && m[j].0 != k ensures m[j] in r {
        assert r[j] == m[j];
      }
      r
    else m + [(k, v)]
  }

  /** `{str(k)[:64]: str(v)[:200] for k, v in items}`. */
  function EnvMap(items: seq<(string, Json)>): (r: seq<(string, string)>)
    ensures DistinctKeys(r)
    ensures forall i | 0 <= i < |r| :: |r[i].0| <= MaxEnvKeyLength && |r[i].1| <= MaxEnvValueLength
    ensures forall i | 0 <= i < |items| :: exists j | 0 <= j < |r| :: r[j].0 == Take(items[i].0, MaxEnvKeyLength)
    decreases |items|
  {
    if |items| == 0 then []
    else
      var prev := EnvMap(items[..|items| - 1]);
      var last := items[|items| - 1];
      var k := Take(last.0, MaxEnvKeyLength);
      var r := Put(prev, k, Take(Str(last.1), MaxEnvValueLength));
      forall i | 0 <= i < |items| ensures exists j | 0 <= j < |r| :: r[j].0 == Take(items[i].0, MaxEnvKeyLength) {
        if i < |items| - 1 {
          assert items[i] == items[..|items| - 1][i];
          var j :| 0 <= j < |prev| && prev[j].0 == Take(items[i].0, MaxEnvKeyLength);
          if prev[j].0 != k {
            assert prev[j] in r;
          } else {
            assert (k, Take(Str(last.1), MaxEnvValueLength)) in r;
          }
        } else {
          assert (k, Take(Str(last.1), MaxEnvValueLength)) in r;
        }
      }
      r
  }

  /** The index of the last input pair whose key truncates to `k`. */
  function LastWithKey(items: seq<(string, Json)>, k: string): (r: Option<nat>)
    ensures r.Some? ==> r.value < |items| && Take(items[r.value].0, MaxEnvKeyLength) == k
    ensures r.Some? ==> forall l | r.value < l < |items| :: Take(items[l].0, MaxEnvKeyLength) != k
    ensures r.None? ==> forall l | 0 <= l < |items| :: Take(items[l].0, MaxEnvKeyLength) != k
    decreases |items|
  {
    if |items| == 0 then None
    else if Take(items[|items| - 1].0, MaxEnvKeyLength) == k then Some(|items| - 1)
    else
      var init := items[..|items| - 1];
      assert forall l | 0 <= l < |init| :: init[l] == items[l];
      LastWithKey(init, k)
  }

  /** Every key of the sanitised environment is an input key, truncated, and
      it holds the value of the last pair with that key, `str`-ed and
      truncated: a later duplicate overwrites an earlier one. */
  lemma EnvMapLastBinding(items: seq<(string, Json)>)
    ensures forall j | 0 <= j < |EnvMap(items)| :: BoundLast(items, EnvMap(items)[j])
  {
    forall j | 0 <= j < |EnvMap(items)| ensures BoundLast(items, EnvMap(items)[j]) {
      EnvMapEntry(items, j);
    }
  }

  lemma {:induction false} EnvMapEntry(items: seq<(string, Json)>, j: nat)
    requires j < |EnvMap(items)|
    ensures BoundLast(items, EnvMap(items)[j])
    decreases |items|
  {
    var init := items[..|items| - 1];
    var prev := EnvMap(init);
    var last := items[|items| - 1];
    var kv := (Take(last.0, MaxEnvKeyLength), Take(Str(last.1), MaxEnvValueLength));
    var r := EnvMap(items);
    if r[j] == kv {
      assert LastWithKey(items, kv.0) == Some(|items| - 1);
    } else {
      var q :| 0 <= q < |r| && r[q] == kv;
      assert r[j].0 != kv.0;
      var m :| 0 <= m < |prev| && prev[m] == r[j];
      EnvMapEntry(init, m);
      BoundLastExtends(items, prev[m]);
    }
  }

  /** A later pair with another key leaves a binding as it was. */
  lemma BoundLastExtends(items: seq<(string, Json)>, kv: (string, string))
    requires |items| > 0 && Take(items[|items| - 1].0, MaxEnvKeyLength) != kv.0
    requires BoundLast(items[..|items| - 1], kv)
    ensures BoundLast(items, kv)
  {
    var init := items[..|items| - 1];
    assert LastWithKey(items, kv.0) == LastWithKey(init, kv.0);
    assert items[LastWithKey(init, kv.0).value] == init[LastWithKey(init, kv.0).value];
  }

  /** `kv` holds the value of the last input pair whose key truncates to its key. */
  predicate BoundLast(items: seq<(string, Json)>, kv: (string, string)) {
    var i := LastWithKey(items, kv.0);
    i.Some? && kv.1 == Take(Str(items[i.value].1), MaxEnvValueLength)
  }

  /** `int(svc.get("timeout") or 180)`: `None` where `int` raises. */
  function RawTimeout(fields: seq<(string, Json)>): Option<int> {
    ToInt(GetOr(fields, "timeout", JInt(DefaultTimeout)))
  }

  /** One dictionary entry of `services`, sanitised. `emitted` is the number of
      services already sanitised, which numbers the default name. */
  function SanitizeService(cfg: Config, fields: seq<(string, Json)>, emitted: nat): (r: Option<Service>)
    requires forall i | 0 <= i < |cfg.allowed| :: |cfg.allowed[i]| > 0
    ensures r.None? <==> RawTimeout(fields).None?
    ensures r.Some? ==> SafeService(cfg, r.value)
    ensures r.Some? ==> r.value.timeout == ClampTimeout(RawTimeout(fields).value)
    ensures r.Some? && r.value.image != cfg.defaultImage ==> r.value.image in cfg.allowed
    ensures r.Some? ==> var picked := AutoPick(cfg.allowed, JoinedCommands(fields), Str(GetOr(fields, "image", JStr(cfg.defaultImage))));
      r.value.image == (if picked in cfg.allowed then picked else cfg.defaultImage)
    ensures r.Some? ==> r.value.name == Take(Str(GetOr(fields, "name", JStr("svc" + IntToString(emitted + 1)))), MaxNameLength)
    ensures r.Some? ==> r.value.workdir == Str(GetOr(fields, "workdir", JStr(".")))
    ensures r.Some? ==> FirstCommands(r.value.setup, CommandItems(fields, "setup"))
    ensures r.Some? && |CommandItems(fields, "run")| == 0 ==> r.value.run == [NoOpRun]
    ensures r.Some? && |CommandItems(fields, "run")| > 0 ==> FirstCommands(r.value.run, CommandItems(fields, "run"))
    ensures r.Some? ==> r.value.env == EnvMap(EnvItems(fields))
    ensures r.Some? ==> r.value.network == Truthy(Get(fields, "network").GetOr(JBool(false)))
  {
    var setup := CommandItems(fields, "setup");
    var run := CommandItems(fields, "run");
    var image := AutoPick(cfg.allowed, JoinedCommands(fields), Str(GetOr(fields, "image", JStr(cfg.defaultImage))));
    match RawTimeout(fields)
    case None => None
    case Some(t) =>
      TakeStrs(setup);
      TakeStrs(run);
      var runCmds := Take(Strs(run), MaxCommands);
      Some(Service(
        name := Take(Str(GetOr(fields, "name", JStr("svc" + IntToString(emitted + 1)))), MaxNameLength),
        image := if image in cfg.allowed then image else cfg.defaultImage,
        workdir := Str(GetOr(fields, "workdir", JStr("."))),
        setup := Take(Strs(setup), MaxCommands),
        run := if |runCmds| > 0 then runCmds else [NoOpRun],
        env := EnvMap(EnvItems(fields)),
        network := Truthy(Get(fields, "network").GetOr(JBool(false))),
        timeout := ClampTimeout(t)))
  }

  /** The lower-cased setup and run commands joined by ` && `, which the
      image override inspects. */
  function JoinedCommands(fields: seq<(string, Json)>): string {
    Lower(Join(Strs(CommandItems(fields, "setup")) + Strs(CommandItems(fields, "run")), " && "))
  }

  /** `cmds` is `[str(c) for c in items][:12]`: the first twelve items at most,
      each as `str` gives it, in order. */
  predicate FirstCommands(cmds: seq<string>, items: seq<Json>) {
    && |cmds| == (if |items| <= MaxCommands then |items| else MaxCommands)
    && forall i | 0 <= i < |cmds| :: cmds[i] == Str(items[i])
  }

  lemma TakeStrs(items: seq<Json>)
    ensures FirstCommands(Take(Strs(items), MaxCommands), items)
  {
  }

  /** The number of dictionary entries in a list. */
  function CountObjects(items: seq<Json>): (n: nat)
    ensures n <= |items|
  {
    if |items| == 0 then 0
    else (if items[0].JObj? then 1 else 0) + CountObjects(items[1..])
  }

  /** Some dictionary entry has a timeout on which `int` raises. */
  predicate SomeBadTimeout(items: seq<Json>) {
    exists i | 0 <= i < |items| :: items[i].JObj? && RawTimeout(items[i].fields).None?
  }

  /** The loop of `_sanitize_plan` over `services`, `emitted` services in. */
  function SanitizeServices(cfg: Config, items: seq<Json>, emitted: nat): (r: Option<seq<Service>>)
    requires forall i | 0 <= i < |cfg.allowed| :: |cfg.allowed[i]| > 0
    ensures r.None? <==> SomeBadTimeout(items)
    ensures r.Some? ==> |r.value| == CountObjects(items)
    ensures r.Some? ==> AllSafe(cfg, r.value)
    ensures r.Some? ==> EachSanitized(cfg, ObjectFields(items), emitted, r.value)
    decreases |items|
  {
    if |items| == 0 then Some([])
    else
      BadTimeoutCons(items);
      if !items[0].JObj? then SanitizeServices(cfg, items[1..], emitted)
      else
        match SanitizeService(cfg, items[0].fields, emitted)
        case None => None
        case Some(s) =>
          match SanitizeServices(cfg, items[1..], emitted + 1)
          case None => None
          case Some(rest) =>
            AllSafeCons(cfg, s, rest);
            NumberedCons((f, n) => SanitizeService(cfg, f, n), items[0].fields, ObjectFields(items[1..]), emitted, s, rest);
            Some([s] + rest)
  }

  /** The fields of the dictionary entries of a list, in list order: the
      entries `_sanitize_plan` does not skip. */
  function ObjectFields(items: seq<Json>): (r: seq<seq<(string, Json)>>)
    ensures |r| == CountObjects(items)
    decreases |items|
  {
    if |items| == 0 then []
    else (if items[0].JObj? then [items[0].fields] else []) + ObjectFields(items[1..])
  }

  /** Service `k` of `out` is entry `k` of `objs` sanitised with `emitted + k`
      services before it, which numbers its default name. */
  ghost predicate EachSanitized(cfg: Config, objs: seq<seq<(string, Json)>>, emitted: nat, out: seq<Service>)
    requires forall i | 0 <= i < |cfg.allowed| :: |cfg.allowed[i]| > 0
  {
    Numbered((f, n) => SanitizeService(cfg, f, n), objs, emitted, out)
  }

  /** `out[k]` is what `g` makes of `objs[k]` as the `from + k`-th. */
  ghost predicate Numbered<A, B>(g: (A, nat) -> Option<B>, objs: seq<A>, from: nat, out: seq<B>) {
    |out| == |objs| && forall k | 0 <= k < |out| :: g(objs[k], from + k) == Some(out[k])
  }

  lemma NumberedCons<A, B>(g: (A, nat) -> Option<B>, f: A, objs: seq<A>, from: nat, s: B, rest: seq<B>)
    requires g(f, from) == Some(s) && Numbered(g, objs, from + 1, rest)
    ensures Numbered(g, [f] + objs, from, [s] + rest)
  {
    forall k | 0 <= k < |[s] + rest| ensures g(([f] + objs)[k], from + k) == Some(([s] + rest)[k]) {
      if k > 0 {
        assert ([f] + objs)[k] == objs[k - 1];
        assert from + k == from + 1 + (k - 1);
      }
    }
  }

  predicate AllSafe(cfg: Config, services: seq<Service>) {
    forall i | 0 <= i < |services| :: SafeService(cfg, services[i])
  }

  lemma AllSafeCons(cfg: Config, s: Service, rest: seq<Service>)
    requires SafeService(cfg, s) && AllSafe(cfg, rest)
    ensures AllSafe(cfg, [s] + rest)
  {
    forall i | 0 <= i < |[s] + rest| ensures SafeService(cfg, ([s] + rest)[i]) {
      if i > 0 {
        assert ([s] + rest)[i] == rest[i - 1];
      }
    }
  }

  /** A bad timeout lies in the first entry or in the rest. */
  lemma BadTimeoutCons(items: seq<Json>)
    requires |items| > 0
    ensures SomeBadTimeout(items) <==>
      (items[0].JObj? && RawTimeout(items[0].fields).None?) || SomeBadTimeout(items[1..])
  {
    if SomeBadTimeout(items[1..]) {
      var i :| 0 <= i < |items[1..]| && items[1..][i].JObj? && RawTimeout(items[1..][i].fields).None?;
      assert items[i + 1] == items[1..][i];
    }
    if SomeBadTimeout(items) {
      var i :| 0 <= i < |items| && items[i].JObj? && RawTimeout(items[i].fields).None?;
      if i > 0 {
        assert items[1..][i - 1] == items[i];
      }
    }
  }

  /** `_sanitize_plan(plan)`. */
  function Sanitize(cfg: Config, plan: Json): (r: Sanitized)
    requires forall i | 0 <= i < |cfg.allowed| :: |cfg.allowed[i]| > 0
    ensures r.NotAPlan? <==> !(plan.JObj? && ServicesList(plan.fields).Some?)
    ensures r.Raised? <==> (plan.JObj? && ServicesList(plan.fields).Some?
      && SomeBadTimeout(ServicesList(plan.fields).value))
    ensures r.Services? ==> (|r.services| == CountObjects(ServicesList(plan.fields).value)
      && |r.services| <= |ServicesList(plan.fields).value|)
    ensures r.Services? ==> AllSafe(cfg, r.services)
    ensures r.Services? ==> EachSanitized(cfg, ObjectFields(ServicesList(plan.fields).value), 0, r.services)
  {
    if !plan.JObj? then NotAPlan
    else
      match ServicesList(plan.fields)
      case None => NotAPlan
      case Some(items) =>
        match SanitizeServices(cfg, items, 0)
        case None => Raised
        case Some(out) => Services(out)
  }

  /** `plan.get("services")` when it is a list. */
  function ServicesList(fields: seq<(string, Json)>): Option<seq<Json>> {
    match Get(fields, "services")
    case Some(JList(items)) => Some(items)
    case _ => None
  }

  /** A missing or falsy timeout becomes 180 seconds. */
  lemma TimeoutDefault(cfg: Config, fields: seq<(string, Json)>, emitted: nat)
    requires forall i | 0 <= i < |cfg.allowed| :: |cfg.allowed[i]| > 0
    requires Get(fields, "timeout").None? || !Truthy(Get(fields, "timeout").value)
    ensures SanitizeService(cfg, fields, emitted).Some?
    ensures SanitizeService(cfg, fields, emitted).value.timeout == DefaultTimeout
  {
    assert RawTimeout(fields) == Some(DefaultTimeout);
  }

  /** A numeric timeout is kept when it lies in [30, 240] and pinned to the
      nearer bound otherwise. */
  lemma TimeoutClamped(cfg: Config, fields: seq<(string, Json)>, emitted: nat, t: int)
    requires forall i | 0 <= i < |cfg.allowed| :: |cfg.allowed[i]| > 0
    requires Get(fields, "timeout") == Some(JInt(t))
    ensures SanitizeService(cfg, fields, emitted).Some?
    ensures var s := SanitizeService(cfg, fields, emitted).value;
      (t == 0 ==> s.timeout == DefaultTimeout)
      && (t != 0 && t < MinTimeout ==> s.timeout == MinTimeout)
      && (t > MaxTimeout ==> s.timeout == MaxTimeout)
      && (MinTimeout <= t <= MaxTimeout ==> s.timeout == t)
  {
    RawTimeoutOfInt(fields, t);
    var r := SanitizeService(cfg, fields, emitted);
    assert r.Some? && r.value.timeout == ClampTimeout(if t == 0 then DefaultTimeout else t);
  }

  /** `int(0 or 180)` is 180; any other integer is itself. */
  lemma RawTimeoutOfInt(fields: seq<(string, Json)>, t: int)
    requires Get(fields, "timeout") == Some(JInt(t))
    ensures RawTimeout(fields) == Some(if t == 0 then DefaultTimeout else t)
  {
  }

  /** A plan whose commands call Maven runs on the first Maven image of the
      allowlist, whatever image it asked for. */
  lemma MavenCommandsPickMavenImage(cfg: Config, fields: seq<(string, Json)>, emitted: nat)
    requires forall i | 0 <= i < |cfg.allowed| :: |cfg.allowed[i]| > 0
    requires NeedsMaven(JoinedCommands(fields))
    requires FirstWithPrefix(cfg.allowed, "maven:").Some?
    requires RawTimeout(fields).Some?
    ensures SanitizeService(cfg, fields, emitted).Some?
    ensures SanitizeService(cfg, fields, emitted).value.image == FirstWithPrefix(cfg.allowed, "maven:").value
  {
  }

  // ---------------------------------------------------------------------
  // Fallback planner

  /** `has(name)`: some file's lower-cased name is `name`. */
  predicate Has(files: seq<string>, name: string) {
    exists i | 0 <= i < |files| :: Lower(Paths.Name(files[i])) == name
  }

  predicate IsPythonProject(files: seq<string>) {
    Has(files, "manage.py") || Has(files, "requirements.txt") || Has(files, "pyproject.toml")
  }

  predicate IsNodeProject(files: seq<string>) {
    Has(files, "package.json")
  }

  predicate IsJavaProject(files: seq<string>) {
    Has(files, "pom.xml") || Has(files, "build.gradle")
  }

  const PipRequirements: string := "pip install -r requirements.txt"
  const ManageCheck: string := "python manage.py check"

  const PythonSetup: seq<string> := [
    "python -m pip install -U pip wheel setuptools || true",
    "[ -f requirements.txt ] && " + PipRequirements + " || true",
    "[ -f pyproject.toml ] && pip install . || true"
  ]

  const PythonRun: seq<string> := [
    "[ -f manage.py ] && " + ManageCheck + " || true",
    "pytest -q || true",
    "python -m unittest -q || true",
    "echo 'done'"
  ]

  /** The marker family `_fallback_plan` recognises, first match wins. */
  datatype Marker = PythonMarkers | NodeMarkers | JavaMarkers | NoMarkers

  function Detect(files: seq<string>): (m: Marker)
    ensures m == PythonMarkers <==> IsPythonProject(files)
    ensures m == NodeMarkers <==> !IsPythonProject(files) && IsNodeProject(files)
    ensures m == JavaMarkers <==> !IsPythonProject(files) && !IsNodeProject(files) && IsJavaProject(files)
    ensures m == NoMarkers <==> !IsPythonProject(files) && !IsNodeProject(files) && !IsJavaProject(files)
  {
    if IsPythonProject(files) then PythonMarkers
    else if IsNodeProject(files) then NodeMarkers
    else if IsJavaProject(files) then JavaMarkers
    else NoMarkers
  }

  /** The name of the one service of each fallback plan. */
  function ServiceName(m: Marker): string {
    match m
    case PythonMarkers => "python-checks"
    case NodeMarkers => "node-checks"
    case JavaMarkers => "java-tests"
    case NoMarkers => "static-snapshot"
  }

  /** The service names tell the four plans apart. */
  lemma ServiceNamesDistinct(m: Marker, n: Marker)
    ensures ServiceName(m) == ServiceName(n) <==> m == n
  {
    if m != n {
      assert ServiceName(m)[0] != ServiceName(n)[0];
    }
  }

  /** `_fallback_plan(projdir)` over the listed files: exactly one service,
      named after the first matching marker family in the order Python,
      Node, Java, none. Keys the source leaves out (`setup`, `env`) read as
      empty. */
  function Fallback(cfg: Config, files: seq<string>): (r: seq<Service>)
    ensures |r| == 1
    ensures FallbackShape(cfg, r[0], ServiceName(Detect(files)))
  {
    [FallbackFor(cfg, Detect(files))]
  }

  /** The service of the fallback plan for one marker family. */
  function FallbackFor(cfg: Config, m: Marker): (s: Service)
    ensures FallbackShape(cfg, s, ServiceName(m))
  {
    match m
    case PythonMarkers => PythonChecks(cfg)
    case NodeMarkers => NodeChecks(cfg)
    case JavaMarkers => JavaTests(cfg)
    case NoMarkers => StaticSnapshot(cfg)
  }

  /** The plan's service name says which marker family was found. */
  lemma FallbackNames(cfg: Config, files: seq<string>)
    ensures var name := Fallback(cfg, files)[0].name;
      && (name == "python-checks" <==> IsPythonProject(files))
      && (name == "node-checks" <==> !IsPythonProject(files) && IsNodeProject(files))
      && (name == "java-tests" <==> !IsPythonProject(files) && !IsNodeProject(files) && IsJavaProject(files))
      && (name == "static-snapshot"
        <==> !IsPythonProject(files) && !IsNodeProject(files) && !IsJavaProject(files))
  {
    var m := Detect(files);
    ServiceNamesDistinct(m, PythonMarkers);
    ServiceNamesDistinct(m, NodeMarkers);
    ServiceNamesDistinct(m, JavaMarkers);
    ServiceNamesDistinct(m, NoMarkers);
  }

  /** The fixed parts of a fallback service. */
  predicate FallbackShape(cfg: Config, s: Service, name: string) {
    SafeService(cfg, s) && s.name == name && !s.network && s.workdir == "."
  }

  function PythonChecks(cfg: Config): (s: Service)
    ensures FallbackShape(cfg, s, ServiceName(PythonMarkers)) && s.image == cfg.defaultImage
  {
    Service(ServiceName(PythonMarkers), cfg.defaultImage, ".", PythonSetup, PythonRun, [], false, 180)
  }

  function NodeChecks(cfg: Config): (s: Service)
    ensures FallbackShape(cfg, s, ServiceName(NodeMarkers))
  {
    var img := if "node:20" in cfg.allowed then "node:20" else cfg.defaultImage;
    Service(ServiceName(NodeMarkers), img, ".", ["npm ci --silent || npm i --silent || true"],
      ["npm test --silent || npm run build --silent || true", "echo 'done'"], [], false, 180)
  }

  function JavaTests(cfg: Config): (s: Service)
    ensures FallbackShape(cfg, s, ServiceName(JavaMarkers))
  {
    var img := match FirstWithPrefix(cfg.allowed, "maven:") case Some(i) => i case None => cfg.defaultImage;
    Service(ServiceName(JavaMarkers), img, ".", [],
      ["mvn -B -q -DskipTests=false test || mvn -B -q -DskipTests package || true"], [], false, 180)
  }

  function StaticSnapshot(cfg: Config): (s: Service)
    ensures FallbackShape(cfg, s, ServiceName(NoMarkers))
  {
    Service(ServiceName(NoMarkers), cfg.defaultImage, ".", [], ["echo 'no build system detected'"], [], false, 60)
  }

  /** The Python fallback runs on the default image, installs the
      requirements and runs Django's system check. */
  lemma FallbackPython(cfg: Config, files: seq<string>)
    requires IsPythonProject(files)
    ensures var s := Fallback(cfg, files)[0];
      s.image == cfg.defaultImage
      && (exists i | 0 <= i < |s.setup| :: Contains(s.setup[i], PipRequirements))
      && (exists i | 0 <= i < |s.run| :: Contains(s.run[i], ManageCheck))
  {
    var s := Fallback(cfg, files)[0];
    assert s == PythonChecks(cfg);
    ContainsMiddle("[ -f requirements.txt ] && ", PipRequirements, " || true");
    assert s.setup[1] == "[ -f requirements.txt ] && " + PipRequirements + " || true";
    ContainsMiddle("[ -f manage.py ] && ", ManageCheck, " || true");
    assert s.run[0] == "[ -f manage.py ] && " + ManageCheck + " || true";
  }
}

=== FILE: quiz.dfy ===
/** Multiple-choice tests (UniGrading/tests/views.py): reading the dynamic
    question form of `test_detail`, scoring an attempt in `submit_attempt`,
    the one-attempt rule, and the percentage shown in the listings. A form
    body is the list of its fields in order; a key sent twice reads as its
    last value, as Django's `QueryDict.get` does. */
module Quiz {
  import opened Wrappers
  import opened Strings

  type Post = seq<(string, string)>

  /** `request.POST.get(key)`: the last value sent under `key`. */
  function Get(post: Post, key: string): (r: Option<string>)
    ensures r.Some? <==> exists i | 0 <= i < |post| :: post[i].0 == key
    ensures r.Some? ==> exists i | 0 <= i < |post| :: (post[i] == (key, r.value)
      && forall j | i < j < |post| :: post[j].0 != key)
  {
    var i := LastBefore(post, key, |post|);
    if i < 0 then None else Some(post[i].1)
  }

  /** The position of the last pair sent under `key` among the first `n`,
      or -1 when there is none. */
  function LastBefore(post: Post, key: string, n: nat): (r: int)
    requires n <= |post|
    ensures -1 <= r < n
    ensures r >= 0 ==> post[r].0 == key
    ensures forall j | r < j < n :: post[j].0 != key
  {
    if n == 0 then -1
    else if post[n - 1].0 == key then n - 1
    else LastBefore(post, key, n - 1)
  }

  /** A non-blank text with no blank at either end. */
  predicate Stripped(t: string) {
    |t| > 0 && !IsSpace(t[0]) && !IsSpace(t[|t| - 1])
  }

  /** `(request.POST.get(key) or "").strip()`. */
  function Field(post: Post, key: string): (r: string)
    ensures r == "" || Stripped(r)
    ensures Get(post, key).None? ==> r == ""
  {
    Strip(Get(post, key).GetOr(""))
  }

  /** Python's `s[a:b]` for `0 <= a` and `0 <= b <= |s|`: empty when the
      bounds cross. */
  function Slice(s: string, a: nat, b: nat): (r: string)
    requires b <= |s|
    ensures a <= b ==> r == s[a..b]
    ensures a > b ==> r == ""
  {
    if a <= b then s[a..b] else ""
  }

  // ---------------------------------------------------------------------
  // Increasing index lists

  predicate Increasing(s: seq<int>) {
    forall i, j | 0 <= i < j < |s| :: s[i] < s[j]
  }

  /** Adding an index to `sorted(set)`. */
  function InsertIndex(x: int, s: seq<int>): (r: seq<int>)
    requires Increasing(s)
    ensures Increasing(r)
    ensures forall y :: y in r <==> y == x || y in s
    decreases |s|
  {
    if |s| == 0 then [x]
    else if x == s[0] then s
    else if x < s[0] then [x] + s
    else
      var rest := InsertIndex(x, s[1..]);
      assert forall y | y in rest :: y > s[0] by {
        forall y | y in rest ensures y > s[0] {
          if y != x {
            assert y in s[1..];
            var k :| 0 <= k < |s[1..]| && s[1..][k] == y;
            assert s[k + 1] == y;
          }
        }
      }
      assert s == [s[0]] + s[1..];
      var r := [s[0]] + rest;
      assert Increasing(r) by {
        forall i, j | 0 <= i < j < |r| ensures r[i] < r[j] {
          if i == 0 {
            assert r[j] == rest[j - 1] && rest[j - 1] in rest;
          } else {
            assert r[i] == rest[i - 1] && r[j] == rest[j - 1];
          }
        }
      }
      assert forall y :: y in r <==> y == s[0] || y in rest;
      r
  }

  /** The indices of a sequence of optional parses, as a sorted set. */
  function IndexSet(parsed: seq<Option<int>>): (r: seq<int>)
    ensures Increasing(r)
    ensures forall y :: y in r <==> Some(y) in parsed
    decreases |parsed|
  {
    if |parsed| == 0 then []
    else
      var prev := IndexSet(parsed[..|parsed| - 1]);
      assert parsed == parsed[..|parsed| - 1] + [parsed[|parsed| - 1]];
      match parsed[|parsed| - 1]
      case None => prev
      case Some(x) => InsertIndex(x, prev)
  }

  // ---------------------------------------------------------------------
  // `test_detail`: reading the question blocks

  datatype ChoiceDraft = ChoiceDraft(text: string, isCorrect: bool)
  datatype QuestionDraft = QuestionDraft(text: string, choices: seq<ChoiceDraft>)

  /** The question index a key carries: `int(key.split("-")[1])` for keys
      `questions-…-text`. */
  function QuestionIndex(key: string): Option<int> {
    if StartsWith(key, "questions-") && EndsWith(key, "-text") then
      var parts := Split(key, '-');
      if |parts| < 2 then None else ParseInt(parts[1])
    else None
  }

  function ChoicePrefix(qi: int): string {
    "questions-" + IntToString(qi) + "-choice-"
  }

  function ChoiceKey(qi: int, cj: int): string {
    ChoicePrefix(qi) + IntToString(cj) + "-text"
  }

  /** The choice index a key carries for question `qi`: the text between
      `questions-{qi}-choice-` and `-text`. */
  function ChoiceIndex(key: string, qi: int): Option<int> {
    var prefix := ChoicePrefix(qi);
    if StartsWith(key, prefix) && EndsWith(key, "-text") then
      ParseInt(Slice(key, |prefix|, |key| - 5))
    else None
  }

  /** The sorted set of choice indices of question `qi`. */
  function ChoiceIndices(post: Post, qi: int): (r: seq<int>)
    ensures Increasing(r)
    ensures forall y :: y in r <==> exists i | 0 <= i < |post| :: ChoiceIndex(post[i].0, qi) == Some(y)
  {
    IndicesBy(post, key => ChoiceIndex(key, qi))
  }

  /** The sorted set of the indices `index` reads off the form's keys. */
  function IndicesBy(post: Post, index: string -> Option<int>): (r: seq<int>)
    ensures Increasing(r)
    ensures forall y :: y in r <==> exists i | 0 <= i < |post| :: index(post[i].0) == Some(y)
  {
    var parsed := seq(|post|, i requires 0 <= i < |post| => index(post[i].0));
    forall y ensures Some(y) in parsed <==> exists i | 0 <= i < |post| :: index(post[i].0) == Some(y) {
      if exists i | 0 <= i < |post| :: index(post[i].0) == Some(y) {
        var i :| 0 <= i < |post| && index(post[i].0) == Some(y);
        assert parsed[i] == Some(y);
      }
    }
    IndexSet(parsed)
  }

  /** The sorted set of question indices the form's keys name. */
  function QuestionIndices(post: Post): (r: seq<int>)
    ensures Increasing(r)
    ensures forall y :: y in r <==> exists i | 0 <= i < |post| :: QuestionIndex(post[i].0) == Some(y)
  {
    IndicesBy(post, QuestionIndex)
  }

  /** `(request.POST.get(f"questions-{qi}-text") or "").strip()`. */
  function QuestionText(post: Post, qi: int): string {
    Field(post, "questions-" + IntToString(qi) + "-text")
  }

  /** The stripped text of choice `cj` of question `qi`. */
  function ChoiceText(post: Post, qi: int, cj: int): string {
    Field(post, ChoiceKey(qi, cj))
  }

  /** The question texts, by index. */
  function QuestionTexts(post: Post): int -> string {
    qi => QuestionText(post, qi)
  }

  /** The choice texts of question `qi`, by index. */
  function ChoiceTexts(post: Post, qi: int): int -> string {
    cj => ChoiceText(post, qi, cj)
  }

  /** An increasing list stays increasing with its first element put back
      in front of some of the later ones. */
  lemma PrependIncreasing(s: seq<int>, rest: seq<int>)
    requires |s| > 0 && forall y | y in rest :: y in s[1..]
    requires Increasing(s) ==> Increasing(rest)
    ensures Increasing(s) ==> Increasing([s[0]] + rest)
  {
    if Increasing(s) {
      IncreasingTail(s);
      var r := [s[0]] + rest;
      forall i, j | 0 <= i < j < |r| ensures r[i] < r[j] {
        assert r[j] == rest[j - 1] && rest[j - 1] in rest;
        if i > 0 {
          assert r[i] == rest[i - 1];
        }
      }
    }
  }

  lemma IncreasingTail(s: seq<int>)
    requires Increasing(s) && |s| > 0
    ensures Increasing(s[1..])
    ensures forall y | y in s[1..] :: y in s && y > s[0]
  {
    forall y | y in s[1..] ensures y in s && y > s[0] {
      var k :| 0 <= k < |s[1..]| && s[1..][k] == y;
      assert s[k + 1] == y;
    }
  }

  /** The indices of `s` whose text is not blank, in their order: the
      `if not text: continue` of both loops. */
  function Kept(s: seq<int>, text: int -> string): (r: seq<int>)
    ensures forall y :: y in r <==> y in s && text(y) != ""
    ensures Increasing(s) ==> Increasing(r)
    decreases |s|
  {
    if |s| == 0 then []
    else
      var rest := Kept(s[1..], text);
      assert s == [s[0]] + s[1..];
      assert Increasing(s) ==> Increasing(s[1..]) by {
        if Increasing(s) { IncreasingTail(s); }
      }
      if text(s[0]) == "" then rest
      else
        PrependIncreasing(s, rest);
        [s[0]] + rest
  }

  /** `int(raw) if raw not in (None, "") else None`, a failed parse being
      `None` too. */
  function CorrectIndex(post: Post, qi: int): Option<int> {
    var raw := Get(post, "questions-" + IntToString(qi) + "-correct");
    if raw.None? || raw.value == "" then None else ParseInt(raw.value)
  }

  function CorrectCount(cs: seq<ChoiceDraft>): nat
    decreases |cs|
  {
    if |cs| == 0 then 0 else (if cs[0].isCorrect then 1 else 0) + CorrectCount(cs[1..])
  }

  /** The choices created for the listed indices `cis`: one per index with a
      non-blank text, in index order, correct when its index is the marked
      one. */
  function BuildChoices(text: int -> string, cis: seq<int>, correct: Option<int>): (r: seq<ChoiceDraft>)
    ensures var kc := Kept(cis, text);
      |r| == |kc| && forall t | 0 <= t < |r| :: r[t] == ChoiceDraft(text(kc[t]), correct == Some(kc[t]))
    decreases |cis|
  {
    if |cis| == 0 then []
    else
      var rest := BuildChoices(text, cis[1..], correct);
      if text(cis[0]) == "" then rest
      else
        var c := ChoiceDraft(text(cis[0]), correct == Some(cis[0]));
        ConsInStep(c, rest, cis[0], Kept(cis[1..], text),
          (k: int, d: ChoiceDraft) => d == ChoiceDraft(text(k), correct == Some(k)));
        [c] + rest
  }

  /** Two lists in step, `ok` relating each element of one to the element
      of the other at the same place, stay in step with one more element in
      front of each. */
  lemma ConsInStep<A, B>(a: A, rest: seq<A>, k: B, kr: seq<B>, ok: (B, A) -> bool)
    requires ok(k, a) && |rest| == |kr|
    requires forall t | 0 <= t < |rest| :: ok(kr[t], rest[t])
    ensures |[a] + rest| == |[k] + kr|
    ensures forall t | 0 <= t < |rest| + 1 :: ok(([k] + kr)[t], ([a] + rest)[t])
  {
    forall t | 0 < t < |rest| + 1 ensures ok(([k] + kr)[t], ([a] + rest)[t]) {
      assert ([a] + rest)[t] == rest[t - 1] && ([k] + kr)[t] == kr[t - 1];
    }
  }

  /** Choices flagged against increasing indices: exactly one is correct
      when the marked index is among them, none otherwise. */
  lemma {:induction false} MarkedCount(cs: seq<ChoiceDraft>, kc: seq<int>, correct: Option<int>)
    requires Increasing(kc) && |cs| == |kc|
    requires forall t | 0 <= t < |cs| :: cs[t].isCorrect == (correct == Some(kc[t]))
    ensures CorrectCount(cs) == (if correct.Some? && correct.value in kc then 1 else 0)
    decreases |cs|
  {
    if |cs| > 0 {
      IncreasingTail(kc);
      assert forall t | 0 <= t < |cs[1..]| :: cs[1..][t] == cs[t + 1] && kc[1..][t] == kc[t + 1];
      MarkedCount(cs[1..], kc[1..], correct);
      assert kc == [kc[0]] + kc[1..];
    }
  }

  /** With no choice marked, the first one created becomes correct. */
  function MarkDefault(cs: seq<ChoiceDraft>): (r: seq<ChoiceDraft>)
    requires CorrectCount(cs) <= 1
    ensures |r| == |cs| && forall i | 0 <= i < |cs| :: r[i].text == cs[i].text
    ensures |cs| > 0 ==> CorrectCount(r) == 1
    ensures CorrectCount(cs) == 1 ==> r == cs
    ensures forall i | 0 <= i < |cs| :: r[i].isCorrect <==> cs[i].isCorrect || (i == 0 && CorrectCount(cs) == 0)
  {
    if |cs| > 0 && CorrectCount(cs) == 0 then
      var r := [cs[0].(isCorrect := true)] + cs[1..];
      assert r[1..] == cs[1..];
      r
    else cs
  }

  /** The choices saved for listed indices `cis` with texts `text` and
      marked index `correct`: one choice per index with a non-blank text,
      in index order; the marked one is correct, and when none of them is
      marked the first one is. */
  predicate ChoicesFrom(text: int -> string, cis: seq<int>, correct: Option<int>, choices: seq<ChoiceDraft>) {
    var kc := Kept(cis, text);
    var marked := correct.Some? && correct.value in kc;
    && |choices| == |kc|
    && (forall t | 0 <= t < |kc| :: choices[t].text == text(kc[t]))
    && (forall t | 0 <= t < |kc| :: choices[t].isCorrect <==> correct == Some(kc[t]) || (t == 0 && !marked))
  }

  /** What `test_detail` saves as the choices of question `qi`. */
  predicate ChoicesAsSent(post: Post, qi: int, choices: seq<ChoiceDraft>) {
    ChoicesFrom(ChoiceTexts(post, qi), ChoiceIndices(post, qi), CorrectIndex(post, qi), choices)
  }

  /** What `test_detail` saves as question `qi`: its stripped text and its
      choices as sent. */
  predicate QuestionAsSent(post: Post, qi: int, q: QuestionDraft) {
    q.text == QuestionText(post, qi) && ChoicesAsSent(post, qi, q.choices)
  }

  /** Building the choices and then marking the first one by default gives
      the choices as sent. */
  lemma DraftedChoices(text: int -> string, cis: seq<int>, correct: Option<int>)
    requires Increasing(cis)
    ensures var cs := BuildChoices(text, cis, correct);
      CorrectCount(cs) <= 1 && ChoicesFrom(text, cis, correct, MarkDefault(cs))
  {
    var cs := BuildChoices(text, cis, correct);
    MarkedCount(cs, Kept(cis, text), correct);
  }

  /** One question block, unless its text is blank. */
  function BuildQuestion(post: Post, qi: int): (r: Option<QuestionDraft>)
    ensures r.Some? <==> QuestionText(post, qi) != ""
    ensures r.Some? ==> QuestionAsSent(post, qi, r.value)
    ensures r.Some? ==> r.value.text != "" && (|r.value.choices| > 0 ==> CorrectCount(r.value.choices) == 1)
  {
    var text := QuestionText(post, qi);
    if text == "" then None
    else
      var texts := ChoiceTexts(post, qi);
      var cis := ChoiceIndices(post, qi);
      var correct := CorrectIndex(post, qi);
      DraftedChoices(texts, cis, correct);
      Some(QuestionDraft(text, MarkDefault(BuildChoices(texts, cis, correct))))
  }

  function BuildQuestions(post: Post, qis: seq<int>): (r: seq<QuestionDraft>)
    ensures var ks := Kept(qis, QuestionTexts(post));
      |r| == |ks| && forall k | 0 <= k < |r| :: QuestionAsSent(post, ks[k], r[k])
    decreases |qis|
  {
    if |qis| == 0 then []
    else
      var rest := BuildQuestions(post, qis[1..]);
      match BuildQuestion(post, qis[0])
      case None => rest
      case Some(q) =>
        ConsInStep(q, rest, qis[0], Kept(qis[1..], QuestionTexts(post)),
          (k: int, d: QuestionDraft) => QuestionAsSent(post, k, d));
        [q] + rest
  }

  /** The question blocks `test_detail` saves: one per question index the
      keys name whose text is not blank, in increasing index order, each
      with its stripped text and its choices as sent; a question with
      choices has exactly one correct choice. */
  function ParseTestForm(post: Post): (r: seq<QuestionDraft>)
    ensures var ks := Kept(QuestionIndices(post), QuestionTexts(post));
      && Increasing(ks)
      && (forall y :: y in ks <==>
            (exists i | 0 <= i < |post| :: QuestionIndex(post[i].0) == Some(y)) && QuestionText(post, y) != "")
      && |r| == |ks|
      && forall k | 0 <= k < |r| :: QuestionAsSent(post, ks[k], r[k])
    ensures forall q | q in r :: q.text != "" && (|q.choices| > 0 ==> CorrectCount(q.choices) == 1)
  {
    var qis := QuestionIndices(post);
    var r := BuildQuestions(post, qis);
    AllSavedShaped(post, qis, r);
    r
  }

  /** Every question saved from the kept indices has a text, and exactly
      one correct choice when it has choices. */
  lemma AllSavedShaped(post: Post, qis: seq<int>, r: seq<QuestionDraft>)
    requires var ks := Kept(qis, QuestionTexts(post));
      |r| == |ks| && forall k | 0 <= k < |r| :: QuestionAsSent(post, ks[k], r[k])
    ensures forall q | q in r :: q.text != "" && (|q.choices| > 0 ==> CorrectCount(q.choices) == 1)
  {
    var ks := Kept(qis, QuestionTexts(post));
    forall q | q in r ensures q.text != "" && (|q.choices| > 0 ==> CorrectCount(q.choices) == 1) {
      var k :| 0 <= k < |r| && r[k] == q;
      assert ks[k] in ks;
      assert QuestionTexts(post)(ks[k]) == QuestionText(post, ks[k]);
      SavedShape(post, ks[k], q);
    }
  }

  /** A saved question has a text, and exactly one correct choice when it
      has choices. */
  lemma SavedShape(post: Post, qi: int, q: QuestionDraft)
    requires QuestionAsSent(post, qi, q) && QuestionText(post, qi) != ""
    ensures q.text != "" && (|q.choices| > 0 ==> CorrectCount(q.choices) == 1)
  {
    ChoicesFromCount(ChoiceTexts(post, qi), ChoiceIndices(post, qi), CorrectIndex(post, qi), q.choices);
  }

  /** Choices as sent have exactly one correct choice when there are any. */
  lemma ChoicesFromCount(text: int -> string, cis: seq<int>, correct: Option<int>, choices: seq<ChoiceDraft>)
    requires Increasing(cis) && ChoicesFrom(text, cis, correct, choices)
    ensures |choices| > 0 ==> CorrectCount(choices) == 1
  {
    var kc := Kept(cis, text);
    if |choices| > 0 {
      if correct.Some? && correct.value in kc {
        MarkedCount(choices, kc, correct);
      } else {
        IncreasingTail(kc);
        var tail := choices[1..];
        assert forall t | 0 <= t < |tail| :: tail[t] == choices[t + 1] && kc[1..][t] == kc[t + 1];
        MarkedCount(tail, kc[1..], None);
      }
    }
  }

  /** Every text key of question `n`, its own and its choices', names `n`
      as a question index. */
  lemma QuestionKeyIndex(n: nat, tail: string)
    requires EndsWith("-" + tail, "-text")
    ensures QuestionIndex("questions-" + NatToString(n) + "-" + tail) == Some(n)
  {
    var d := NatToString(n);
    var key := "questions-" + d + "-" + tail;
    assert StartsWith(key, "questions-") by {
      assert key[..10] == "questions-";
    }
    assert EndsWith(key, "-text") by {
      assert key == "questions-" + d + ("-" + tail);
      assert key[|key| - 5..] == ("-" + tail)[|"-" + tail| - 5..];
    }
    SecondSegment(d, tail);
    ParseIntOfDigits(n);
  }

  lemma SecondSegment(d: string, tail: string)
    requires '-' !in d
    ensures var parts := Split("questions-" + d + "-" + tail, '-'); |parts| >= 2 && parts[1] == d
  {
    assert "questions-" + d + "-" + tail == "questions" + ['-'] + (d + ['-'] + tail);
    SplitAtFirst("questions", '-', d + ['-'] + tail);
    SplitAtFirst(d, '-', tail);
  }

  /** A choice key names its own index back. */
  lemma ChoiceKeyIndex(qi: int, cj: int)
    ensures ChoiceIndex(ChoiceKey(qi, cj), qi) == Some(cj)
  {
    var prefix := ChoicePrefix(qi);
    var digits := IntToString(cj);
    var key := ChoiceKey(qi, cj);
    Framed(prefix, digits, key);
    assert Slice(key, |prefix|, |key| - 5) == digits;
    ParseIntRoundTrip(cj);
  }

  /** The text between a prefix and the `-text` suffix is the middle part. */
  lemma Framed(prefix: string, mid: string, key: string)
    requires key == prefix + mid + "-text"
    ensures StartsWith(key, prefix) && EndsWith(key, "-text")
    ensures |prefix| <= |key| - 5 && key[|prefix|..|key| - 5] == mid
  {
    assert key[..|prefix|] == prefix;
    assert key[|key| - 5..] == "-text";
  }

  /** The marked choice wins: when the correct index names a choice with a
      non-blank text, the saved question has exactly one correct choice, and
      it carries that text. */
  lemma MarkedChoiceIsTheCorrectOne(post: Post, qi: int)
    requires BuildQuestion(post, qi).Some?
    requires CorrectIndex(post, qi).Some? && ChoiceText(post, qi, CorrectIndex(post, qi).value) != ""
    ensures var cs := BuildQuestion(post, qi).value.choices;
      && CorrectCount(cs) == 1
      && forall c | c in cs :: c.isCorrect ==> c.text == ChoiceText(post, qi, CorrectIndex(post, qi).value)
  {
    var correct := CorrectIndex(post, qi);
    ListedChoice(post, qi, correct.value);
    MarkedWins(ChoiceTexts(post, qi), ChoiceIndices(post, qi), correct, BuildQuestion(post, qi).value.choices);
  }

  /** Choices as sent, when the marked index is among them with a text:
      exactly that choice is correct. */
  lemma MarkedWins(text: int -> string, cis: seq<int>, correct: Option<int>, choices: seq<ChoiceDraft>)
    requires Increasing(cis) && ChoicesFrom(text, cis, correct, choices)
    requires correct.Some? && correct.value in cis && text(correct.value) != ""
    ensures CorrectCount(choices) == 1
    ensures forall c | c in choices :: c.isCorrect ==> c.text == text(correct.value)
  {
    var kc := Kept(cis, text);
    assert correct.value in kc;
    MarkedCount(choices, kc, correct);
    forall c | c in choices && c.isCorrect ensures c.text == text(correct.value) {
      var t :| 0 <= t < |choices| && choices[t] == c;
    }
  }

  /** A choice whose text key was sent is among the listed indices. */
  lemma ListedChoice(post: Post, qi: int, cj: int)
    requires Get(post, ChoiceKey(qi, cj)).Some?
    ensures cj in ChoiceIndices(post, qi)
  {
    var i :| 0 <= i < |post| && post[i].0 == ChoiceKey(qi, cj);
    ChoiceKeyIndex(qi, cj);
    assert ChoiceIndex(post[i].0, qi) == Some(cj);
  }

  // ---------------------------------------------------------------------
  // `submit_attempt`: scoring

  datatype Choice = Choice(id: int, isCorrect: bool)
  datatype Question = Question(id: int, choices: seq<Choice>)

  function FindChoice(cs: seq<Choice>, id: int): (r: Option<Choice>)
    ensures r.Some? ==> r.value in cs && r.value.id == id
    ensures r.None? ==> forall c | c in cs :: c.id != id
    decreases |cs|
  {
    if |cs| == 0 then None
    else if cs[0].id == id then Some(cs[0])
    else
      assert forall c | c in cs[1..] :: c in cs;
      assert forall c | c in cs :: c == cs[0] || c in cs[1..];
      FindChoice(cs[1..], id)
  }

  /** The choice a student picked for `q`: the `answer-{id}` field, when it
      is non-empty, parses and names a choice of that question. */
  function Picked(post: Post, q: Question): (r: Option<Choice>)
    ensures r.Some? ==> r.value in q.choices
  {
    var raw := Get(post, "answer-" + IntToString(q.id));
    if raw.None? || raw.value == "" then None
    else match ParseInt(raw.value)
      case None => None
      case Some(id) => FindChoice(q.choices, id)
  }

  predicate AnsweredCorrectly(post: Post, q: Question) {
    var p := Picked(post, q);
    p.Some? && p.value.isCorrect
  }

  /** The independent definition of the score: questions answered with a
      correct choice of their own. */
  function CorrectAnswers(post: Post, qs: seq<Question>): (n: nat)
    ensures n <= |qs|
    decreases |qs|
  {
    if |qs| == 0 then 0
    else CorrectAnswers(post, qs[..|qs| - 1]) + Point(post, qs[|qs| - 1])
  }

  /** One point for a question answered correctly. */
  function Point(post: Post, q: Question): (n: nat)
    ensures n == 1 <==> AnsweredCorrectly(post, q)
    ensures n <= 1
  {
    if AnsweredCorrectly(post, q) then 1 else 0
  }

  /** The scoring loop of `submit_attempt`. */
  method ScoreAttempt(post: Post, qs: seq<Question>) returns (score: nat, maxScore: nat)
    ensures maxScore == |qs|
    ensures score == CorrectAnswers(post, qs)
    ensures score <= maxScore
    ensures (forall q | q in qs :: AnsweredCorrectly(post, q)) ==> score == maxScore
  {
    maxScore := |qs|;
    score := 0;
    var i := 0;
    while i < |qs|
      invariant 0 <= i <= |qs|
      invariant score == CorrectAnswers(post, qs[..i])
    {
      ScorePrefix(post, qs, i);
      score := score + Point(post, qs[i]);
      i := i + 1;
    }
    assert qs[..i] == qs;
    AllCorrect(post, qs);
  }

  /** One more question scored. */
  lemma ScorePrefix(post: Post, qs: seq<Question>, i: nat)
    requires i < |qs|
    ensures CorrectAnswers(post, qs[..i + 1])
      == CorrectAnswers(post, qs[..i]) + Point(post, qs[i])
  {
    assert qs[..i + 1][..i] == qs[..i];
    assert qs[..i + 1][i] == qs[i];
  }

  lemma {:induction false} AllCorrect(post: Post, qs: seq<Question>)
    ensures (forall q | q in qs :: AnsweredCorrectly(post, q)) ==> CorrectAnswers(post, qs) == |qs|
    decreases |qs|
  {
    if |qs| > 0 && forall q | q in qs :: AnsweredCorrectly(post, q) {
      assert forall q | q in qs[..|qs| - 1] :: q in qs;
      AllCorrect(post, qs[..|qs| - 1]);
      assert qs[|qs| - 1] in qs;
    }
  }


  /** `round((score * 100.0) / max_score, 2) if max_score else 0.0`, before
      the rounding. */
  function Percent(score: nat, maxScore: nat): (r: real)
    ensures maxScore == 0 ==> r == 0.0
    ensures score <= maxScore ==> 0.0 <= r <= 100.0
    ensures maxScore > 0 && score == maxScore ==> r == 100.0
  {
    if maxScore == 0 then 0.0 else (score as real * 100.0) / (maxScore as real)
  }

  // ---------------------------------------------------------------------
  // One attempt per student and test

  datatype Attempt = Attempt(test: int, student: int, score: nat, maxScore: nat)

  predicate OneAttemptEach(attempts: seq<Attempt>) {
    forall i, j | 0 <= i < j < |attempts| ::
      (attempts[i].test, attempts[i].student) != (attempts[j].test, attempts[j].student)
  }

  predicate HasAttempt(attempts: seq<Attempt>, test: int, student: int) {
    exists i | 0 <= i < |attempts| :: attempts[i].test == test && attempts[i].student == student
  }

  datatype SubmitReply = NotAllowed | AlreadySubmitted | Submitted(score: nat, maxScore: nat)

  /** `submit_attempt`: only an enrolled student or the owning professor may
      submit, and only once per test. */
  method SubmitAttempt(attempts: seq<Attempt>, test: int, student: int, enrolled: bool, owner: bool,
                       post: Post, qs: seq<Question>) returns (reply: SubmitReply, after: seq<Attempt>)
    ensures OneAttemptEach(attempts) ==> OneAttemptEach(after)
    ensures !enrolled && !owner ==> reply == NotAllowed && after == attempts
    ensures (enrolled || owner) && HasAttempt(attempts, test, student) ==> reply == AlreadySubmitted && after == attempts
    ensures reply.Submitted? <==> (enrolled || owner) && !HasAttempt(attempts, test, student)
    ensures reply.Submitted? ==> (
      && after == attempts + [Attempt(test, student, reply.score, reply.maxScore)]
      && reply.score == CorrectAnswers(post, qs) && reply.maxScore == |qs|)
  {
    if !enrolled && !owner {
      return NotAllowed, attempts;
    }
    if HasAttempt(attempts, test, student) {
      return AlreadySubmitted, attempts;
    }
    var score, maxScore := ScoreAttempt(post, qs);
    after := attempts + [Attempt(test, student, score, maxScore)];
    reply := Submitted(score, maxScore);
  }
}

=== FILE: safecmd.dfy ===
/** The light command sanitiser applied to every plan command before it is
    handed to the container shell (UniGrading/assignments/autograder.py,
    `_safe_cmd`). Each forbidden pattern is replaced by one blank, in list
    order, and the result is stripped and cut to 2000 characters. */
module SafeCmd {
  import opened Strings

  /** The patterns, in the order they are replaced. */
  const Forbidden: seq<string> := ["&>", ">/dev", "nohup ", "daemon", "systemctl", "service "]

  const MaxCommandLength: nat := 2000

  predicate SpaceFree(p: string) {
    forall i | 0 <= i < |p| :: p[i] != ' '
  }

  predicate AllNonEmpty(bad: seq<string>) {
    forall i | 0 <= i < |bad| :: |bad[i]| > 0
  }

  /** `for b in bad: out = out.replace(b, " ")`. */
  function ReplaceEach(s: string, bad: seq<string>): string
    requires AllNonEmpty(bad)
    decreases |bad|
  {
    if |bad| == 0 then s else ReplaceEach(Replace(s, bad[0], " "), bad[1..])
  }

  /** `_safe_cmd(cmd)`: every space-free forbidden pattern is gone from the
      result, which is at most 2000 characters long. The two patterns that end
      in a blank are not covered: see `NohupCanSurvive`. */
  function Safe(cmd: string): (r: string)
    ensures |r| <= MaxCommandLength
    ensures forall p | p in Forbidden && SpaceFree(p) :: !Contains(r, p)
    ensures |r| > 0 ==> !IsSpace(r[0])
    ensures (forall p | p in Forbidden :: !Contains(cmd, p)) ==> r == Take(Strip(cmd), MaxCommandLength)
  {
    ReplaceEachKeepsClean(cmd, Forbidden);
    var replaced := ReplaceEach(cmd, Forbidden);
    var stripped := Strip(replaced);
    var r := Take(stripped, MaxCommandLength);
    forall p | p in Forbidden && SpaceFree(p) ensures !Contains(r, p) {
      AbsentAfterReplaceEach(cmd, Forbidden, p);
      StripIsPiece(replaced);
      ContainsTransitive(replaced, stripped, p);
      assert OccursAt(stripped, r, 0);
      ContainsTransitive(stripped, r, p);
    }
    r
  }

  /** The sanitiser as evidently intended: the replacements are repeated
      until no forbidden pattern is left, so none survives in the result,
      the two that end in a blank included. */
  function SafeIntended(cmd: string): (r: string)
    ensures |r| <= MaxCommandLength
    ensures forall p | p in Forbidden :: !Contains(r, p)
    ensures |r| > 0 ==> !IsSpace(r[0])
  {
    var scrubbed := Scrub(cmd);
    var stripped := Strip(scrubbed);
    var r := Take(stripped, MaxCommandLength);
    forall p | p in Forbidden ensures !Contains(r, p) {
      StripIsPiece(scrubbed);
      ContainsTransitive(scrubbed, stripped, p);
      assert OccursAt(stripped, r, 0);
      ContainsTransitive(stripped, r, p);
    }
    r
  }

  /** The list's replacements, repeated until no pattern occurs. Each round
      that finds a pattern makes the text shorter, as every pattern is at
      least two characters long and is replaced by one. */
  function Scrub(s: string): (r: string)
    ensures |r| <= |s|
    ensures forall p | p in Forbidden :: !Contains(r, p)
    decreases |s|
  {
    if forall p | p in Forbidden :: !Contains(s, p) then s
    else
      ReplaceEachShrinks(s, Forbidden);
      Scrub(ReplaceEach(s, Forbidden))
  }

  /** Where one round already clears every pattern, the intended sanitiser
      and the one as written agree. */
  lemma SafeIntendedAgrees(cmd: string)
    requires forall p | p in Forbidden :: !Contains(ReplaceEach(cmd, Forbidden), p)
    ensures SafeIntended(cmd) == Safe(cmd)
  {
    ScrubOnce(cmd);
  }

  /** One round that clears every pattern is all `Scrub` does. */
  lemma ScrubOnce(s: string)
    requires forall p | p in Forbidden :: !Contains(ReplaceEach(s, Forbidden), p)
    ensures Scrub(s) == ReplaceEach(s, Forbidden)
  {
    var t := ReplaceEach(s, Forbidden);
    if forall p | p in Forbidden :: !Contains(s, p) {
      ReplaceEachAbsent(s, Forbidden);
      assert Scrub(s) == s;
    } else {
      assert Scrub(s) == Scrub(t);
      assert Scrub(t) == t;
    }
  }

  predicate LongPatterns(bad: seq<string>) {
    forall i | 0 <= i < |bad| :: |bad[i]| >= 2
  }

  // ---------------------------------------------------------------------
  // Length facts

  lemma {:induction false} ReplaceNoLonger(s: string, q: string)
    requires |q| > 0
    ensures |Replace(s, q, " ")| <= |s|
    decreases |s|
  {
    if |s| >= |q| {
      if s[..|q|] == q {
        ReplaceNoLonger(s[|q|..], q);
      } else {
        ReplaceNoLonger(s[1..], q);
      }
    }
  }

  /** Replacing a pattern of two or more characters that occurs shortens
      the text. */
  lemma {:induction false} ReplaceShrinks(s: string, q: string)
    requires |q| >= 2 && Contains(s, q)
    ensures |Replace(s, q, " ")| < |s|
    decreases |s|
  {
    var i :| 0 <= i <= |s| - |q| && OccursAt(s, q, i);
    if s[..|q|] == q {
      ReplaceNoLonger(s[|q|..], q);
    } else {
      assert i > 0;
      assert s[1..][i - 1..i - 1 + |q|] == s[i..i + |q|];
      assert OccursAt(s[1..], q, i - 1);
      ReplaceShrinks(s[1..], q);
    }
  }

  /** A pattern that does not occur is not replaced. */
  lemma {:induction false} ReplaceAbsent(s: string, q: string)
    requires |q| > 0 && !Contains(s, q)
    ensures Replace(s, q, " ") == s
    decreases |s|
  {
    if |s| >= |q| {
      assert !OccursAt(s, q, 0);
      ContainsSuffix(s, 1, q);
      ReplaceAbsent(s[1..], q);
      assert s == [s[0]] + s[1..];
    }
  }

  lemma {:induction false} ReplaceEachNoLonger(s: string, bad: seq<string>)
    requires AllNonEmpty(bad)
    ensures |ReplaceEach(s, bad)| <= |s|
    decreases |bad|
  {
    if |bad| > 0 {
      ReplaceNoLonger(s, bad[0]);
      ReplaceEachNoLonger(Replace(s, bad[0], " "), bad[1..]);
    }
  }

  lemma {:induction false} ReplaceEachShrinks(s: string, bad: seq<string>)
    requires AllNonEmpty(bad) && LongPatterns(bad)
    requires exists p | p in bad :: Contains(s, p)
    ensures |ReplaceEach(s, bad)| < |s|
    decreases |bad|
  {
    if Contains(s, bad[0]) {
      ReplaceShrinks(s, bad[0]);
      ReplaceEachNoLonger(Replace(s, bad[0], " "), bad[1..]);
    } else {
      ReplaceAbsent(s, bad[0]);
      var p :| p in bad && Contains(s, p);
      assert p in bad[1..];
      ReplaceEachShrinks(s, bad[1..]);
    }
  }

  lemma {:induction false} ReplaceEachAbsent(s: string, bad: seq<string>)
    requires AllNonEmpty(bad) && forall p | p in bad :: !Contains(s, p)
    ensures ReplaceEach(s, bad) == s
    decreases |bad|
  {
    if |bad| > 0 {
      ReplaceAbsent(s, bad[0]);
      ReplaceEachAbsent(s, bad[1..]);
    }
  }

  /** `ReplaceEachAbsent`, stated for every text. */
  lemma ReplaceEachKeepsClean(s: string, bad: seq<string>)
    requires AllNonEmpty(bad)
    ensures (forall p | p in bad :: !Contains(s, p)) ==> ReplaceEach(s, bad) == s
  {
    if forall p | p in bad :: !Contains(s, p) {
      ReplaceEachAbsent(s, bad);
    }
  }

  // ---------------------------------------------------------------------
  // Occurrence facts

  lemma StartsWithCons(c: char, t: string, p: string)
    ensures StartsWith([c] + t, p) <==> |p| == 0 || (p[0] == c && StartsWith(t, p[1..]))
  {
    if |p| > 0 && p[0] == c && StartsWith(t, p[1..]) {
      assert ([c] + t)[..|p|] == [c] + t[..|p| - 1];
    }
    if |p| > 0 && StartsWith([c] + t, p) {
      assert t[..|p| - 1] == ([c] + t)[1..|p|];
    }
  }

  /** An occurrence in `[c] + t` is at the front or lies inside `t`. */
  lemma ContainsCons(c: char, t: string, p: string)
    ensures Contains([c] + t, p) ==> StartsWith([c] + t, p) || Contains(t, p)
  {
    var s := [c] + t;
    if Contains(s, p) {
      var i :| 0 <= i <= |s| - |p| && OccursAt(s, p, i);
      if i > 0 {
        assert s[i..i + |p|] == t[i - 1..i - 1 + |p|];
        assert OccursAt(t, p, i - 1);
      } else {
        assert s[..|p|] == s[i..i + |p|];
      }
    }
  }

  /** An occurrence in a piece of `s` is an occurrence in `s`. */
  lemma ContainsTransitive(s: string, r: string, p: string)
    requires Contains(s, r)
    ensures Contains(r, p) ==> Contains(s, p)
  {
    if Contains(r, p) {
      var k :| 0 <= k <= |s| - |r| && OccursAt(s, r, k);
      var i :| 0 <= i <= |r| - |p| && OccursAt(r, p, i);
      assert r == s[k..k + |r|];
      forall j | 0 <= j < |p| ensures s[k + i + j] == p[j] {
        assert r[i + j] == p[j];
      }
      assert s[k + i..k + i + |p|] == p;
      assert OccursAt(s, p, k + i);
    }
  }

  lemma ContainsSuffix(s: string, k: nat, p: string)
    requires k <= |s|
    ensures Contains(s[k..], p) ==> Contains(s, p)
  {
    assert OccursAt(s, s[k..], k);
    ContainsTransitive(s, s[k..], p);
  }

  // ---------------------------------------------------------------------
  // Replacing by a blank

  /** A blank-free prefix of the replaced string was already a prefix of the
      original: replacement only ever introduces blanks. */
  lemma {:induction false} PrefixThroughReplace(t: string, q: string, w: string)
    requires |q| > 0 && SpaceFree(w)
    ensures StartsWith(Replace(t, q, " "), w) ==> StartsWith(t, w)
    decreases |t|
  {
    if |t| >= |q| && |w| > 0 {
      if t[..|q|] == q {
        StartsWithCons(' ', Replace(t[|q|..], q, " "), w);
      } else {
        var rest := Replace(t[1..], q, " ");
        StartsWithCons(t[0], rest, w);
        PrefixThroughReplace(t[1..], q, w[1..]);
        assert t == [t[0]] + t[1..];
        StartsWithCons(t[0], t[1..], w);
      }
    }
  }

  /** `s.replace(p, " ")` leaves no occurrence of a blank-free `p`. */
  lemma {:induction false} ReplaceRemoves(s: string, p: string)
    requires |p| > 0 && SpaceFree(p)
    ensures !Contains(Replace(s, p, " "), p)
    decreases |s|
  {
    if |s| >= |p| {
      if s[..|p|] == p {
        var rest := Replace(s[|p|..], p, " ");
        ReplaceRemoves(s[|p|..], p);
        ContainsCons(' ', rest, p);
        StartsWithCons(' ', rest, p);
      } else {
        var rest := Replace(s[1..], p, " ");
        ReplaceRemoves(s[1..], p);
        ContainsCons(s[0], rest, p);
        StartsWithCons(s[0], rest, p);
        PrefixThroughReplace(s[1..], p, p[1..]);
        assert s == [s[0]] + s[1..];
        StartsWithCons(s[0], s[1..], p);
      }
    }
  }

  /** Replacing any pattern by a blank never creates a blank-free pattern that
      was absent. */
  lemma {:induction false} ReplaceKeepsAbsent(s: string, q: string, p: string)
    requires |q| > 0 && |p| > 0 && SpaceFree(p)
    ensures !Contains(s, p) ==> !Contains(Replace(s, q, " "), p)
    decreases |s|
  {
    if |s| >= |q| {
      if s[..|q|] == q {
        var rest := Replace(s[|q|..], q, " ");
        ReplaceKeepsAbsent(s[|q|..], q, p);
        ContainsSuffix(s, |q|, p);
        ContainsCons(' ', rest, p);
        StartsWithCons(' ', rest, p);
      } else {
        var rest := Replace(s[1..], q, " ");
        ReplaceKeepsAbsent(s[1..], q, p);
        ContainsSuffix(s, 1, p);
        ContainsCons(s[0], rest, p);
        StartsWithCons(s[0], rest, p);
        PrefixThroughReplace(s[1..], q, p[1..]);
        assert s == [s[0]] + s[1..];
        StartsWithCons(s[0], s[1..], p);
        assert StartsWith(s, p) ==> OccursAt(s, p, 0);
      }
    }
  }

  lemma {:induction false} ReplaceEachKeepsAbsent(s: string, bad: seq<string>, p: string)
    requires AllNonEmpty(bad) && |p| > 0 && SpaceFree(p)
    ensures !Contains(s, p) ==> !Contains(ReplaceEach(s, bad), p)
    decreases |bad|
  {
    if |bad| > 0 {
      ReplaceKeepsAbsent(s, bad[0], p);
      ReplaceEachKeepsAbsent(Replace(s, bad[0], " "), bad[1..], p);
    }
  }

  /** Every blank-free pattern of the list is absent once the whole list has
      been replaced: later replacements cannot bring it back. */
  lemma {:induction false} AbsentAfterReplaceEach(s: string, bad: seq<string>, p: string)
    requires AllNonEmpty(bad) && p in bad && SpaceFree(p)
    ensures !Contains(ReplaceEach(s, bad), p)
    decreases |bad|
  {
    if bad[0] == p {
      ReplaceRemoves(s, p);
      ReplaceEachKeepsAbsent(Replace(s, p, " "), bad[1..], p);
    } else {
      assert p in bad[1..];
      AbsentAfterReplaceEach(Replace(s, bad[0], " "), bad[1..], p);
    }
  }

  /** Characters that cannot start the pattern are copied unchanged. */
  lemma {:induction false} ReplaceSkipPrefix(a: string, t: string, p: string, r: string)
    requires |p| > 0 && p[0] !in a
    ensures Replace(a + t, p, r) == a + Replace(t, p, r)
    decreases |a|
  {
    if |a| > 0 {
      var s := a + t;
      assert s[0] == a[0];
      assert s[1..] == a[1..] + t;
      assert a[0] in a;
      assert |s| >= |p| ==> s[..|p|][0] != p[0];
      assert p[0] !in a[1..] by {
        forall i | 0 <= i < |a| - 1 ensures a[1..][i] != p[0] {
          assert a[1..][i] == a[i + 1];
          assert a[i + 1] in a;
        }
      }
      ReplaceSkipPrefix(a[1..], t, p, r);
      assert a == [a[0]] + a[1..];
      if |s| < |p| {
        assert Replace(t, p, r) == t;
      } else {
        assert Replace(s, p, r) == [a[0]] + Replace(a[1..] + t, p, r);
        assert [a[0]] + (a[1..] + Replace(t, p, r)) == a + Replace(t, p, r);
      }
    } else {
      assert a + t == t;
    }
  }

  lemma ReplaceAtFront(p: string, t: string, r: string)
    requires |p| > 0
    ensures Replace(p + t, p, r) == r + Replace(t, p, r)
  {
    assert (p + t)[..|p|] == p;
    assert (p + t)[|p|..] == t;
  }

  lemma NohupStepsBeforeDaemon()
    ensures Replace("nohupdaemonx", "&>", " ") == "nohupdaemonx"
    ensures Replace("nohupdaemonx", ">/dev", " ") == "nohupdaemonx"
    ensures Replace("nohupdaemonx", "nohup ", " ") == "nohupdaemonx"
  {
    NoPatternStart("nohupdaemonx", "&>");
    NoPatternStart("nohupdaemonx", ">/dev");
    NohupNotAtFront("nohupdaemonx");
  }

  /** A text without the pattern's first character is left alone. */
  lemma NoPatternStart(s: string, p: string)
    requires |p| > 0 && p[0] !in s
    ensures Replace(s, p, " ") == s
  {
    ReplaceSkipPrefix(s, "", p, " ");
    assert s + "" == s;
  }

  lemma NohupNotAtFront(s: string)
    requires s == "nohupdaemonx"
    ensures Replace(s, "nohup ", " ") == s
  {
    assert s[..6] != "nohup " by { assert s[..6][5] == 'd'; }
    ReplaceSkipPrefix(s[1..10], s[10..], "nohup ", " ");
    assert s[1..] == s[1..10] + s[10..];
  }

  lemma NohupDaemonStep()
    ensures Replace("nohupdaemonx", "daemon", " ") == "nohup x"
  {
    ReplaceAtFront("daemon", "x", " ");
    ReplaceSkipPrefix("nohup", "daemon" + "x", "daemon", " ");
    assert "nohupdaemonx" == "nohup" + ("daemon" + "x");
  }

  lemma NohupStepsAfterDaemon()
    ensures Replace("nohup x", "systemctl", " ") == "nohup x"
    ensures Replace("nohup x", "service ", " ") == "nohup x"
  {
    var t := "nohup x";
    ReplaceSkipPrefix(t, "", "systemctl", " ");
    ReplaceSkipPrefix(t, "", "service ", " ");
    assert t + "" == t;
  }

  /** The patterns ending in a blank can survive: removing `daemon` from
      `nohupdaemonx` joins `nohup` to a fresh blank. */
  lemma NohupCanSurvive()
    ensures Contains(Safe("nohupdaemonx"), "nohup ")
  {
    NohupReplaced("nohupdaemonx");
    NohupSurvives("nohupdaemonx", "nohup x");
  }

  lemma NohupSurvives(cmd: string, t: string)
    requires ReplaceEach(cmd, Forbidden) == t
    requires t == "nohup x"
    ensures Contains(Safe(cmd), "nohup ")
  {
    StripUnchanged(t);
    NohupPrefix();
  }

  /** The six replacements, one after another. */
  lemma NohupReplaced(cmd: string)
    requires cmd == "nohupdaemonx"
    ensures ReplaceEach(cmd, Forbidden) == "nohup x"
  {
    ForbiddenNonEmpty();
    NohupStepsBeforeDaemon();
    NohupDaemonStep();
    NohupStepsAfterDaemon();
    SixSteps(cmd, "nohup x", Forbidden);
  }

  lemma ForbiddenNonEmpty()
    ensures AllNonEmpty(Forbidden)
  {
  }

  lemma SixSteps(s: string, t: string, bad: seq<string>)
    requires AllNonEmpty(bad) && |bad| == 6
    requires Replace(s, bad[0], " ") == s && Replace(s, bad[1], " ") == s && Replace(s, bad[2], " ") == s
    requires Replace(s, bad[3], " ") == t
    requires Replace(t, bad[4], " ") == t && Replace(t, bad[5], " ") == t
    ensures ReplaceEach(s, bad) == t
  {
    ReplaceEachStep(s, bad);
    ReplaceEachStep(s, bad[1..]);
    ReplaceEachStep(s, bad[2..]);
    assert bad[2..][1..] == bad[3..];
    ReplaceEachStep(s, bad[3..]);
    assert bad[3..][1..] == bad[4..];
    ReplaceEachStep(t, bad[4..]);
    assert bad[4..][1..] == bad[5..];
    ReplaceEachStep(t, bad[5..]);
    assert bad[5..][1..] == [];
  }

  lemma ReplaceEachStep(s: string, bad: seq<string>)
    requires AllNonEmpty(bad) && |bad| > 0
    ensures ReplaceEach(s, bad) == ReplaceEach(Replace(s, bad[0], " "), bad[1..])
  {
  }

  lemma NohupPrefix()
    ensures Contains("nohup x", "nohup ")
  {
    var t := "nohup x";
    assert t[0..6] == "nohup ";
    assert OccursAt(t, "nohup ", 0);
  }
}

=== FILE: sandbox.dfy ===
/** How `_run_services_plan` turns each planned service into a container
    request, and how the outcome of the containers becomes the plan's verdict
    (UniGrading/assignments/autograder.py). The Docker daemon is not modelled:
    what each container did is an input. */
module Sandbox {
  import opened Wrappers
  import opened Strings
  import Plan
  import SafeCmd

  /** The arguments passed to `client.containers.run`. */
  datatype ContainerRequest = ContainerRequest(
    image: string,
    command: seq<string>,
    workingDir: string,
    networkMode: string,
    memLimit: string,
    nanoCpus: int,
    env: seq<(string, string)>,
    timeout: int)

  /** `"bridge"` only when the deployment allows it and the service asks. */
  function NetworkMode(allowNet: bool, wantsNetwork: bool): (r: string)
    ensures r == "bridge" <==> allowNet && wantsNetwork
    ensures r == "bridge" || r == "none"
  {
    if allowNet && wantsNetwork then "bridge" else "none"
  }

  /** The environment without any key that upper-cases to `PATH`. */
  function PassEnv(env: seq<(string, string)>): (r: seq<(string, string)>)
    ensures forall i | 0 <= i < |r| :: Upper(r[i].0) != "PATH" && r[i] in env
    ensures forall i | 0 <= i < |env| :: Upper(env[i].0) != "PATH" ==> env[i] in r
    ensures |r| <= |env|
    decreases |env|
  {
    if |env| == 0 then []
    else
      var rest := PassEnv(env[1..]);
      assert forall i | 1 <= i < |env| :: env[i] == env[1..][i - 1];
      if Upper(env[0].0) != "PATH" then [env[0]] + rest else rest
  }

  /** `" && ".join(_safe_cmd(c) for c in cmds)`. */
  function SafeJoin(cmds: seq<string>): (r: string)
    ensures |cmds| == 0 ==> r == ""
    ensures |cmds| == 1 ==> r == SafeCmd.Safe(cmds[0])
  {
    Join(seq(|cmds|, i requires 0 <= i < |cmds| => SafeCmd.Safe(cmds[i])), " && ")
  }

  /** The shell line: setup failures are tolerated, the run part decides. */
  function Compound(setup: seq<string>, run: seq<string>): (r: string)
    ensures EndsWith(r, ")")
    ensures SafeJoin(setup) == "" ==> r == "(" + RunPart(run) + ")"
    ensures SafeJoin(setup) != "" ==> r == "(" + SafeJoin(setup) + ") || true; (" + RunPart(run) + ")"
  {
    var setupCmd := SafeJoin(setup);
    var tail := "(" + RunPart(run) + ")";
    assert tail[|tail| - 1..] == ")";
    if setupCmd != "" then
      var r := "(" + setupCmd + ") || true; (" + RunPart(run) + ")";
      assert r[|r| - 1..] == ")";
      r
    else tail
  }

  /** The run commands, or `echo no-op` when they join to nothing. */
  function RunPart(run: seq<string>): (r: string)
    ensures |r| > 0
    ensures SafeJoin(run) != "" ==> r == SafeJoin(run)
    ensures SafeJoin(run) == "" ==> r == "echo no-op"
  {
    var runCmd := SafeJoin(run);
    if |runCmd| > 0 then runCmd else "echo no-op"
  }

  /** The container request for one service. */
  function RequestFor(allowNet: bool, s: Plan.Service): (r: ContainerRequest)
    ensures r.networkMode == "bridge" <==> allowNet && s.network
    ensures forall i | 0 <= i < |r.env| :: Upper(r.env[i].0) != "PATH"
    ensures r.image == s.image && r.workingDir == "/work"
    ensures r.command == ["sh", "-lc", Compound(s.setup, s.run)]
    ensures r.env == PassEnv(s.env)
    ensures r.memLimit == "1g" && r.nanoCpus == 2000000000
    ensures s.timeout != 0 ==> r.timeout == s.timeout
    ensures s.timeout == 0 ==> r.timeout == Plan.DefaultTimeout
  {
    ContainerRequest(
      image := s.image,
      command := ["sh", "-lc", Compound(s.setup, s.run)],
      workingDir := "/work",
      networkMode := NetworkMode(allowNet, s.network),
      memLimit := "1g",
      nanoCpus := 2000000000,
      env := PassEnv(s.env),
      timeout := if s.timeout == 0 then Plan.DefaultTimeout else s.timeout)
  }

  /** What `_poll_wait_or_kill` observed: the container reached `exited` or
      `dead` (with its `ExitCode` field, which may be absent or null), the
      timeout passed first, or the Docker API raised. */
  datatype PollEnd = Stopped(exitCode: Option<int>) | TimedOut | ApiError

  /** The poll verdict as the source computes it: `int(exit_code or 1) == 0`.
      A zero exit code is falsy and turns into 1. */
  function PollAsWritten(e: PollEnd): bool {
    match e
    case Stopped(code) =>
      var c := if code.None? || code.value == 0 then 1 else code.value;
      c == 0
    case TimedOut => false
    case ApiError => false
  }

  /** The evident intent: success exactly when the container stopped with
      exit code 0 (a missing code counts as 1). */
  function Poll(e: PollEnd): (ok: bool)
    ensures ok <==> e == Stopped(Some(0))
  {
    match e
    case Stopped(code) => code.GetOr(1) == 0
    case TimedOut => false
    case ApiError => false
  }

  /** As written, no container is ever reported successful. */
  lemma PollAsWrittenNeverSucceeds(e: PollEnd)
    ensures !PollAsWritten(e)
  {
  }

  /** The input that shows it: a clean exit. */
  lemma CleanExitMisreported()
    ensures Poll(Stopped(Some(0))) && !PollAsWritten(Stopped(Some(0)))
  {
  }

  /** What happened to one service's container. */
  datatype Launch = CreateFailed | Launched(end: PollEnd)

  /** `_run_services_plan`: the requests issued and whether any service
      succeeded. Without Docker, or without services, nothing is issued and
      the verdict is false. */
  function RunServices(dockerAvailable: bool, allowNet: bool, services: seq<Plan.Service>,
                       launches: seq<Launch>, poll: PollEnd -> bool): (r: (bool, seq<ContainerRequest>))
    requires |launches| == |services|
    ensures !dockerAvailable || |services| == 0 ==> r == (false, [])
    ensures dockerAvailable ==> (|r.1| == |services|
      && forall i | 0 <= i < |services| :: r.1[i] == RequestFor(allowNet, services[i]))
    ensures r.0 <==> dockerAvailable && exists i | 0 <= i < |launches| :: launches[i].Launched? && poll(launches[i].end)
  {
    if !dockerAvailable || |services| == 0 then (false, [])
    else
      var reqs := seq(|services|, i requires 0 <= i < |services| => RequestFor(allowNet, services[i]));
      (AnySucceeded(launches, poll), reqs)
  }

  function AnySucceeded(launches: seq<Launch>, poll: PollEnd -> bool): (ok: bool)
    ensures ok <==> exists i | 0 <= i < |launches| :: launches[i].Launched? && poll(launches[i].end)
    decreases |launches|
  {
    if |launches| == 0 then false
    else
      var rest := AnySucceeded(launches[1..], poll);
      assert forall i | 1 <= i < |launches| :: launches[i] == launches[1..][i - 1];
      (launches[0].Launched? && poll(launches[0].end)) || rest
  }

  /** With the poll as written, a plan run never succeeds, however its
      containers end. */
  lemma RunServicesAsWrittenNeverSucceeds(dockerAvailable: bool, allowNet: bool,
                                          services: seq<Plan.Service>, launches: seq<Launch>)
    requires |launches| == |services|
    ensures !RunServices(dockerAvailable, allowNet, services, launches, PollAsWritten).0
  {
  }
}

=== FILE: sorting.dfy ===
/** Python's `sorted(...)` as a stable insertion sort over a caller-supplied
    "goes no later than" relation, and the orders the autograder sorts by. */
module Sorting {

  /** `le` is a total preorder: every pair is comparable and it is transitive
      (reflexivity follows from totality). */
  ghost predicate IsTotalPreorder<T(!new)>(le: (T, T) -> bool) {
    && (forall a, b :: le(a, b) || le(b, a))
    && (forall a, b, c :: le(a, b) && le(b, c) ==> le(a, c))
  }

  predicate SortedBy<T>(s: seq<T>, le: (T, T) -> bool) {
    forall i, j | 0 <= i < j < |s| :: le(s[i], s[j])
  }

  /** Inserts `x` in front of the first element it may precede; elements that
      compare equal to `x` therefore stay in front of it only when they were
      already there, which is what makes `SortBy` stable. */
  function Insert<T(!new)>(x: T, s: seq<T>, le: (T, T) -> bool): (r: seq<T>)
    requires IsTotalPreorder(le)
    requires SortedBy(s, le)
    ensures SortedBy(r, le)
    ensures multiset(r) == multiset(s) + multiset{x}
    ensures |r| == |s| + 1
    decreases |s|
  {
    if |s| == 0 then [x]
    else if le(x, s[0]) then
      assert forall j | 0 < j < |s| + 1 :: le(x, ([x] + s)[j]) by {
        forall j | 0 < j < |s| + 1 ensures le(x, ([x] + s)[j]) {
          if j > 1 { assert le(s[0], s[j - 1]); }
        }
      }
      [x] + s
    else
      var rest := Insert(x, s[1..], le);
      assert s == [s[0]] + s[1..];
      forall k | 0 <= k < |rest| ensures le(s[0], rest[k]) {
        FromTailOrNew(x, s, rest, k);
      }
      [s[0]] + rest
  }

  /** Python's `sorted(s)` with the order `le`. */
  function SortBy<T(!new)>(s: seq<T>, le: (T, T) -> bool): (r: seq<T>)
    requires IsTotalPreorder(le)
    ensures SortedBy(r, le)
    ensures multiset(r) == multiset(s)
    ensures |r| == |s|
    decreases |s|
  {
    if |s| == 0 then []
    else
      assert s == [s[0]] + s[1..];
      Insert(s[0], SortBy(s[1..], le), le)
  }

  /** `pos` increases along `s`: it numbers the elements in their order. */
  predicate Ascending<T>(s: seq<T>, pos: T -> int) {
    forall i, j | 0 <= i < j < |s| :: pos(s[i]) < pos(s[j])
  }

  /** Elements that compare equal under `le` appear in `pos` order. */
  predicate StableBy<T>(s: seq<T>, le: (T, T) -> bool, pos: T -> int) {
    forall i, j | 0 <= i < j < |s| :: le(s[j], s[i]) ==> pos(s[i]) < pos(s[j])
  }

  /** `x`, numbered before everything in `s`, goes in front of the elements
      equal to it. */
  lemma {:induction false} InsertStable<T(!new)>(x: T, s: seq<T>, le: (T, T) -> bool, pos: T -> int)
    requires IsTotalPreorder(le)
    requires SortedBy(s, le) && StableBy(s, le, pos)
    requires forall k | 0 <= k < |s| :: pos(x) < pos(s[k])
    ensures StableBy(Insert(x, s, le), le, pos)
    decreases |s|
  {
    var r := Insert(x, s, le);
    if |s| > 0 && !le(x, s[0]) {
      var rest := Insert(x, s[1..], le);
      assert r == [s[0]] + rest;
      InsertStable(x, s[1..], le, pos);
      forall i, j | 0 <= i < j < |r| && le(r[j], r[i]) ensures pos(r[i]) < pos(r[j]) {
        if i == 0 {
          assert r[j] == rest[j - 1];
          FromTailOrNew(x, s, rest, j - 1);
          if rest[j - 1] != x {
            var m :| 1 <= m < |s| && s[m] == r[j];
            assert le(s[m], s[0]) ==> pos(s[0]) < pos(s[m]);
          }
        } else {
          assert r[i] == rest[i - 1] && r[j] == rest[j - 1];
        }
      }
    } else if |s| > 0 {
      assert r == [x] + s;
      forall i, j | 0 <= i < j < |r| && le(r[j], r[i]) ensures pos(r[i]) < pos(r[j]) {
        assert r[j] == s[j - 1];
        if i > 0 {
          assert r[i] == s[i - 1];
        }
      }
    }
  }

  /** An element of `x` inserted into the tail of `s` is `x` or comes from
      that tail. */
  lemma FromTailOrNew<T>(x: T, s: seq<T>, rest: seq<T>, k: int)
    requires |s| > 0 && multiset(rest) == multiset(s[1..]) + multiset{x}
    requires 0 <= k < |rest|
    ensures rest[k] == x || exists m | 1 <= m < |s| :: s[m] == rest[k]
  {
    assert rest[k] in multiset(rest);
    if rest[k] != x {
      assert rest[k] in multiset(s[1..]);
      var m :| 0 <= m < |s[1..]| && s[1..][m] == rest[k];
      assert s[m + 1] == rest[k];
    }
  }

  /** `sorted` is stable: elements that compare equal keep the order they
      had in the input. */
  lemma {:induction false} SortByStable<T(!new)>(s: seq<T>, le: (T, T) -> bool, pos: T -> int)
    requires IsTotalPreorder(le)
    requires Ascending(s, pos)
    ensures StableBy(SortBy(s, le), le, pos)
    decreases |s|
  {
    if |s| > 0 {
      assert s == [s[0]] + s[1..];
      var t := SortBy(s[1..], le);
      assert Ascending(s[1..], pos) by {
        forall i, j | 0 <= i < j < |s[1..]| ensures pos(s[1..][i]) < pos(s[1..][j]) {
          assert s[1..][i] == s[i + 1] && s[1..][j] == s[j + 1];
        }
      }
      SortByStable(s[1..], le, pos);
      forall k | 0 <= k < |t| ensures pos(s[0]) < pos(t[k]) {
        assert t[k] in multiset(t);
        assert t[k] in multiset(s[1..]);
        var m :| 0 <= m < |s[1..]| && s[1..][m] == t[k];
        assert s[m + 1] == t[k];
      }
      InsertStable(s[0], t, le, pos);
    }
  }

  /** Python's ordering of `str` values: lexicographic by code point. */
  predicate LexLe(a: string, b: string)
    decreases |a|
  {
    if |a| == 0 then true
    else if |b| == 0 then false
    else if a[0] != b[0] then a[0] < b[0]
    else LexLe(a[1..], b[1..])
  }

  lemma {:induction false} LexLeTotal(a: string, b: string)
    ensures LexLe(a, b) || LexLe(b, a)
    decreases |a|
  {
    if |a| > 0 && |b| > 0 && a[0] == b[0] {
      LexLeTotal(a[1..], b[1..]);
    }
  }

  lemma {:induction false} LexLeTransitive(a: string, b: string, c: string)
    requires LexLe(a, b) && LexLe(b, c)
    ensures LexLe(a, c)
    decreases |a|
  {
    if |a| > 0 && |b| > 0 && |c| > 0 && a[0] == b[0] && b[0] == c[0] {
      LexLeTransitive(a[1..], b[1..], c[1..]);
    }
  }

  /** Lexicographic order on strings is a total preorder, so `sorted` of a
      list of strings is well defined. */
  lemma LexLeIsTotalPreorder()
    ensures IsTotalPreorder((a: string, b: string) => LexLe(a, b))
  {
    forall a: string, b: string ensures LexLe(a, b) || LexLe(b, a) {
      LexLeTotal(a, b);
    }
    forall a: string, b: string, c: string | LexLe(a, b) && LexLe(b, c)
      ensures LexLe(a, c)
    {
      LexLeTransitive(a, b, c);
    }
  }

  /** Python's `sorted(strings)`. */
  function SortStrings(s: seq<string>): (r: seq<string>)
    ensures multiset(r) == multiset(s)
    ensures forall i, j | 0 <= i < j < |r| :: LexLe(r[i], r[j])
  {
    LexLeIsTotalPreorder();
    SortBy(s, (a: string, b: string) => LexLe(a, b))
  }

  /** Python's `sorted(ints)`. */
  function SortInts(s: seq<int>): (r: seq<int>)
    ensures multiset(r) == multiset(s)
    ensures forall i, j | 0 <= i < j < |r| :: r[i] <= r[j]
  {
    SortBy(s, (a: int, b: int) => a <= b)
  }
}

=== FILE: strings.dfy ===
/** String helpers shared by the whole model. Strings are `seq<char>`;
    case mapping and whitespace are modelled on the ASCII range only. */
module Strings {
  import opened Wrappers

  predicate StartsWith(s: string, p: string) {
    |p| <= |s| && s[..|p|] == p
  }

  predicate EndsWith(s: string, p: string) {
    |p| <= |s| && s[|s| - |p|..] == p
  }

  /** `p` occurs in `s` at position `i`. */
  predicate OccursAt(s: string, p: string, i: int) {
    0 <= i && i + |p| <= |s| && s[i..i + |p|] == p
  }

  /** Python's `p in s` for strings. */
  predicate Contains(s: string, p: string) {
    exists i | 0 <= i <= |s| - |p| :: OccursAt(s, p, i)
  }

  /** Python's `s[:n]`. */
  function Take<T>(s: seq<T>, n: nat): (r: seq<T>)
    ensures |r| <= n && |r| <= |s|
    ensures |r| == n || |r| == |s|
    ensures r == s[..|r|]
    ensures |s| <= n ==> r == s
  {
    if |s| <= n then s else s[..n]
  }

  /** Python's `s[-n:]` for a positive `n`. With `n == 0` this gives the empty
      sequence, where Python's `s[-0:]` is all of `s`; every use passes a
      positive constant. */
  function TakeLast<T>(s: seq<T>, n: nat): (r: seq<T>)
    ensures |r| <= n && |r| <= |s|
    ensures |r| == n || |r| == |s|
    ensures r == s[|s| - |r|..]
  {
    if |s| <= n then s else s[|s| - n..]
  }

  function LowerChar(c: char): char {
    if 'A' <= c <= 'Z' then (c as int + 32) as char else c
  }

  function UpperChar(c: char): char {
    if 'a' <= c <= 'z' then (c as int - 32) as char else c
  }

  /** Python's `s.lower()` on the ASCII range. */
  function Lower(s: string): (r: string)
    ensures |r| == |s|
    ensures forall i | 0 <= i < |s| :: r[i] == LowerChar(s[i])
  {
    seq(|s|, i requires 0 <= i < |s| => LowerChar(s[i]))
  }

  /** Python's `s.upper()` on the ASCII range. */
  function Upper(s: string): (r: string)
    ensures |r| == |s|
    ensures forall i | 0 <= i < |s| :: r[i] == UpperChar(s[i])
  {
    seq(|s|, i requires 0 <= i < |s| => UpperChar(s[i]))
  }

  /** Case-insensitive equality (`name__iexact`, `casefold() ==`). */
  predicate SameFold(a: string, b: string) {
    Lower(a) == Lower(b)
  }

  predicate IsSpace(c: char) {
    c == ' ' || c == '\t' || c == '\n' || c == '\r' || c == '\U{B}' || c == '\U{C}'
    || ('\U{1C}' <= c <= '\U{1F}')
  }

  function TrimLeft(s: string): (r: string)
    ensures |r| <= |s| && r == s[|s| - |r|..]
    ensures |r| > 0 ==> !IsSpace(r[0])
    ensures forall i | 0 <= i < |s| - |r| :: IsSpace(s[i])
    decreases |s|
  {
    if |s| > 0 && IsSpace(s[0]) then TrimLeft(s[1..]) else s
  }

  function TrimRight(s: string): (r: string)
    ensures |r| <= |s| && r == s[..|r|]
    ensures |r| > 0 ==> !IsSpace(r[|r| - 1])
    ensures forall i | |r| <= i < |s| :: IsSpace(s[i])
    decreases |s|
  {
    if |s| > 0 && IsSpace(s[|s| - 1]) then TrimRight(s[..|s| - 1]) else s
  }

  /** Python's `s.strip()`: a contiguous piece of `s` with no blank at either
      end, and only blanks around it. */
  function Strip(s: string): (r: string)
    ensures |r| <= |s|
    ensures |r| > 0 ==> !IsSpace(r[0]) && !IsSpace(r[|r| - 1])
    ensures exists a | 0 <= a <= |s| - |r| :: Around(s, r, a)
  {
    var l := TrimLeft(s);
    var r := TrimRight(l);
    assert Around(s, r, |s| - |l|) by {
      assert r == s[|s| - |l|..][..|r|];
      forall i | |s| - |l| + |r| <= i < |s| ensures IsSpace(s[i]) {
        assert s[i] == l[i - (|s| - |l|)];
      }
    }
    r
  }

  /** `s` is `r` at position `a` with blanks only before and after it. */
  predicate Around(s: string, r: string, a: int) {
    && 0 <= a <= |s| - |r|
    && s[a..a + |r|] == r
    && (forall i | 0 <= i < a :: IsSpace(s[i]))
    && (forall i | a + |r| <= i < |s| :: IsSpace(s[i]))
  }

  /** A string strips to nothing exactly when it is all blanks. */
  lemma StripEmptyIffBlank(s: string)
    ensures Strip(s) == "" <==> forall i | 0 <= i < |s| :: IsSpace(s[i])
  {
    if Strip(s) != "" {
      var a :| 0 <= a <= |s| - |Strip(s)| && Around(s, Strip(s), a);
      assert s[a] == Strip(s)[0];
    }
  }

  /** The stripped text is a contiguous piece of the original. */
  lemma StripIsPiece(s: string)
    ensures Contains(s, Strip(s))
  {
    var l := TrimLeft(s);
    var r := TrimRight(l);
    assert r == s[|s| - |l|..][..|r|];
    assert OccursAt(s, r, |s| - |l|);
  }

  lemma ContainsMiddle(a: string, p: string, b: string)
    ensures Contains(a + p + b, p)
  {
    assert (a + p + b)[|a|..|a| + |p|] == p;
    assert OccursAt(a + p + b, p, |a|);
  }

  /** Python's `s.replace(p, r)`: left-to-right, non-overlapping. */
  function Replace(s: string, p: string, r: string): string
    requires |p| > 0
    decreases |s|
  {
    if |s| < |p| then s
    else if s[..|p|] == p then r + Replace(s[|p|..], p, r)
    else [s[0]] + Replace(s[1..], p, r)
  }

  /** Python's `s.split(c)` for a one-character separator. */
  function Split(s: string, c: char): (parts: seq<string>)
    ensures |parts| >= 1
    ensures forall i | 0 <= i < |parts| :: c !in parts[i]
    ensures c !in s ==> parts == [s]
    decreases |s|
  {
    if |s| == 0 then [""]
    else
      var rest := Split(s[1..], c);
      assert [s[0]] + s[1..] == s;
      if s[0] == c then [""] + rest else [[s[0]] + rest[0]] + rest[1..]
  }

  /** Splitting at the first separator: the text before it is the first
      part, and the rest splits on its own. */
  lemma {:induction false} SplitAtFirst(a: string, c: char, b: string)
    requires c !in a
    ensures Split(a + [c] + b, c) == [a] + Split(b, c)
    decreases |a|
  {
    if |a| > 0 {
      assert (a + [c] + b)[1..] == a[1..] + [c] + b;
      SplitAtFirst(a[1..], c, b);
      assert [a[0]] + a[1..] == a;
    } else {
      assert a + [c] + b == [c] + b;
    }
  }

  /** Python's `sep.join(parts)`. */
  function Join(parts: seq<string>, sep: string): string
    decreases |parts|
  {
    if |parts| == 0 then ""
    else if |parts| == 1 then parts[0]
    else parts[0] + sep + Join(parts[1..], sep)
  }

  /** Joining parts that do not contain the separator and splitting again
      gives the parts back. */
  lemma {:induction false} SplitJoinRoundTrip(parts: seq<string>, c: char)
    requires |parts| >= 1
    requires forall i | 0 <= i < |parts| :: c !in parts[i]
    ensures Split(Join(parts, [c]), c) == parts
    decreases |parts|
  {
    if |parts| > 1 {
      var rest := Join(parts[1..], [c]);
      assert Join(parts, [c]) == parts[0] + [c] + rest;
      SplitAtFirst(parts[0], c, rest);
      SplitJoinRoundTrip(parts[1..], c);
      assert [parts[0]] + parts[1..] == parts;
    }
  }

  function DigitChar(d: nat): char
    requires d < 10
  {
    ('0' as int + d) as char
  }

  /** Decimal rendering of a natural number (`str(n)`). */
  function NatToString(n: nat): (r: string)
    ensures |r| >= 1
    ensures forall i | 0 <= i < |r| :: '0' <= r[i] <= '9'
    decreases n
  {
    if n < 10 then [DigitChar(n)] else NatToString(n / 10) + [DigitChar(n % 10)]
  }

  /** Decimal rendering of an integer (`str(i)`, `f"{i}"`): a leading minus
      exactly for a negative number, digits everywhere else. */
  function IntToString(i: int): (r: string)
    ensures |r| >= 1
    ensures r[0] == '-' <==> i < 0
    ensures forall k | 0 < k < |r| :: IsDigit(r[k])
  {
    if i < 0 then "-" + NatToString(-i) else NatToString(i)
  }

  predicate IsDigit(c: char) {
    '0' <= c <= '9'
  }

  /** Value of a non-empty run of ASCII digits. */
  function DigitsValue(s: string): nat
    requires forall i | 0 <= i < |s| :: IsDigit(s[i])
    decreases |s|
  {
    if |s| == 0 then 0
    else 10 * DigitsValue(s[..|s| - 1]) + DigitValue(s[|s| - 1])
  }

  function DigitValue(c: char): nat
    requires IsDigit(c)
  {
    c as int - '0' as int
  }

  predicate AllDigits(s: string) {
    |s| > 0 && forall i | 0 <= i < |s| :: IsDigit(s[i])
  }

  /** Python's `int(s)` for a string: surrounding blanks, an optional sign
      and ASCII digits; `None` where Python raises `ValueError`. */
  function ParseInt(s: string): Option<int> {
    ParseSigned(Strip(s))
  }

  /** An optional sign followed by at least one digit. */
  function ParseSigned(t: string): (r: Option<int>)
    ensures r.Some? ==> |t| > 0 && (r.value < 0 ==> t[0] == '-')
  {
    if |t| == 0 then None
    else if t[0] == '-' || t[0] == '+' then
      if AllDigits(t[1..]) then Some(Signed(t[0] == '-', DigitsValue(t[1..]))) else None
    else if AllDigits(t) then Some(DigitsValue(t))
    else None
  }

  function Signed(negative: bool, v: nat): int {
    if negative then -(v as int) else v
  }

  lemma {:induction false} DigitsValueOfNatToString(n: nat)
    ensures AllDigits(NatToString(n))
    ensures DigitsValue(NatToString(n)) == n
    decreases n
  {
    var s := NatToString(n);
    if n >= 10 {
      DigitsValueOfNatToString(n / 10);
      assert s[..|s| - 1] == NatToString(n / 10);
    }
  }

  lemma StripUnchanged(t: string)
    requires |t| > 0 && !IsSpace(t[0]) && !IsSpace(t[|t| - 1])
    ensures Strip(t) == t
  {
    assert TrimLeft(t) == t;
    assert TrimRight(t) == t;
  }

  lemma ParseIntOfDigits(n: nat)
    ensures ParseInt(NatToString(n)) == Some(n)
  {
    DigitsValueOfNatToString(n);
    PlainDigits(NatToString(n), n);
  }

  /** Digits alone parse to their value. */
  lemma PlainDigits(d: string, v: nat)
    requires AllDigits(d) && DigitsValue(d) == v
    ensures ParseInt(d) == Some(v)
  {
    assert IsDigit(d[0]) && IsDigit(d[|d| - 1]);
    StripUnchanged(d);
    UnsignedDigits(d);
  }

  lemma UnsignedDigits(d: string)
    requires AllDigits(d)
    ensures ParseSigned(d) == Some(DigitsValue(d))
  {
    assert IsDigit(d[0]);
  }

  lemma ParseIntOfNegative(n: nat)
    requires n > 0
    ensures ParseInt("-" + NatToString(n)) == Some(-(n as int))
  {
    DigitsValueOfNatToString(n);
    NegativeDigits(NatToString(n), n);
  }

  /** A minus sign before digits parses to the negated value. */
  lemma NegativeDigits(d: string, v: nat)
    requires AllDigits(d) && DigitsValue(d) == v
    ensures ParseInt("-" + d) == Some(-(v as int))
  {
    var t := "-" + d;
    assert t[|t| - 1] == d[|d| - 1];
    StripUnchanged(t);
    SignedDigits(d);
  }

  lemma SignedDigits(d: string)
    requires AllDigits(d)
    ensures ParseSigned("-" + d) == Some(-(DigitsValue(d) as int))
  {
    assert ("-" + d)[1..] == d;
  }

  /** `int(str(i)) == i`: the decimal rendering parses back to the integer. */
  lemma ParseIntRoundTrip(i: int)
    ensures ParseInt(IntToString(i)) == Some(i)
  {
    var n: nat := if i < 0 then -i else i;
    if i < 0 {
      ParseIntOfNegative(n);
      assert "-" + NatToString(n) == IntToString(i);
    } else {
      ParseIntOfDigits(n);
      assert NatToString(n) == IntToString(i);
    }
  }

  /** Python's `s.title()` on the ASCII range: a letter is upper-cased when the
      character before it is not a letter, lower-cased otherwise. */
  function Title(s: string): (r: string)
    ensures |r| == |s|
    ensures forall i | 0 <= i < |s| :: IsLetter(r[i]) == IsLetter(s[i])
    ensures forall i | 0 <= i < |s| :: r[i] == (if i > 0 && IsLetter(s[i - 1]) then LowerChar(s[i]) else UpperChar(s[i]))
  {
    seq(|s|, i requires 0 <= i < |s| =>
      if i > 0 && IsLetter(s[i - 1]) then LowerChar(s[i]) else UpperChar(s[i]))
  }

  predicate IsLetter(c: char) {
    ('a' <= c <= 'z') || ('A' <= c <= 'Z')
  }

  /** Python's `s.replace(a, b)` for single characters. */
  function ReplaceChar(s: string, a: char, b: char): (r: string)
    ensures |r| == |s|
    ensures forall i | 0 <= i < |s| :: r[i] == (if s[i] == a then b else s[i])
  {
    seq(|s|, i requires 0 <= i < |s| => if s[i] == a then b else s[i])
  }

  /** Title-casing a title-cased string changes nothing: case mapping keeps
      letters letters, so every word boundary stays where it was. */
  lemma TitleIdempotent(s: string)
    ensures Title(Title(s)) == Title(s)
  {
    var t := Title(s);
    forall i | 0 <= i < |s| ensures Title(t)[i] == t[i] {
      if i > 0 && IsLetter(s[i - 1]) {
        assert LowerChar(LowerChar(s[i])) == LowerChar(s[i]);
      }
    }
  }
}

=== FILE: subjects.dfy ===
/** Subjects and their category folders (UniGrading/subjects/views.py). The
    database is a store of subject and category records; the primary keys of
    new records are inputs, fresh as the database would make them. Files are
    represented by the set of category ids that hold at least one file. */
module Subjects {
  import opened Wrappers
  import opened Strings

  datatype Subject = Subject(id: int, professor: int, name: string, description: string)

  /** A category folder: top-level when it has no parent. */
  datatype Category = Category(id: int, subject: int, parent: Option<int>, name: string)

  datatype Store = Store(subjects: seq<Subject>, cats: seq<Category>, filesIn: set<int>)

  /** A JSON or form answer: accepted, an error with its HTTP status, or a
      redirect back to the page. */
  datatype Reply = Accepted | Error(status: int) | Redirect

  /** The categories every new subject gets; the same four names are
      protected at the top level. */
  const DefaultCategories: seq<string> := ["Courses", "Assignments", "Tests", "Other"]

  predicate IsProtected(c: Category) {
    c.parent.None? && c.name in DefaultCategories
  }

  // ---------------------------------------------------------------------
  // Pairwise properties and filtering

  /** Every earlier element is `ok` with every later one. */
  predicate Pairwise<T>(s: seq<T>, ok: (T, T) -> bool) {
    forall i, j | 0 <= i < j < |s| :: ok(s[i], s[j])
  }

  /** The categories whose primary key is not in `ids`, in order. */
  function WithoutIds(cats: seq<Category>, ids: set<int>): (r: seq<Category>)
    ensures |r| <= |cats|
    ensures forall c :: c in r <==> c in cats && c.id !in ids
    decreases |cats|
  {
    if |cats| == 0 then []
    else
      var rest := WithoutIds(cats[1..], ids);
      assert forall c :: c in cats <==> c == cats[0] || c in cats[1..];
      if cats[0].id !in ids then [cats[0]] + rest else rest
  }

  /** Deleting records keeps every pairwise property. */
  lemma {:induction false} WithoutIdsPairwise(cats: seq<Category>, ids: set<int>, ok: (Category, Category) -> bool)
    requires Pairwise(cats, ok)
    ensures Pairwise(WithoutIds(cats, ids), ok)
    decreases |cats|
  {
    if |cats| > 0 {
      var t := cats[1..];
      assert Pairwise(t, ok) by {
        forall i, j | 0 <= i < j < |t| ensures ok(t[i], t[j]) {
          assert t[i] == cats[i + 1] && t[j] == cats[j + 1];
        }
      }
      WithoutIdsPairwise(t, ids, ok);
      var rest := WithoutIds(t, ids);
      if cats[0].id !in ids {
        var r := [cats[0]] + rest;
        forall i, j | 0 <= i < j < |r| ensures ok(r[i], r[j]) {
          if i == 0 {
            assert r[j] in t;
            var k :| 0 <= k < |t| && t[k] == r[j];
            assert cats[k + 1] == r[j];
          }
        }
      }
    }
  }

  // ---------------------------------------------------------------------
  // Store lookups and invariants

  predicate DifferentIds(a: Category, b: Category) {
    a.id != b.id
  }

  predicate DistinctIds(cats: seq<Category>) {
    Pairwise(cats, DifferentIds)
  }

  /** With distinct primary keys, a key names one record. */
  lemma SameId(cats: seq<Category>, i: int, c: Category)
    requires DistinctIds(cats) && 0 <= i < |cats| && c in cats && cats[i].id == c.id
    ensures cats[i] == c
  {
    var k :| 0 <= k < |cats| && cats[k] == c;
    assert forall a, b | 0 <= a < b < |cats| :: cats[a].id != cats[b].id by {
      forall a, b | 0 <= a < b < |cats| ensures cats[a].id != cats[b].id {
        assert DifferentIds(cats[a], cats[b]);
      }
    }
    assert k == i;
  }

  /** With distinct primary keys, different records have different keys. */
  lemma DifferentRecords(cats: seq<Category>, c: Category, d: Category)
    requires DistinctIds(cats) && c in cats && d in cats && c != d
    ensures c.id != d.id
  {
    var i :| 0 <= i < |cats| && cats[i] == c;
    var k :| 0 <= k < |cats| && cats[k] == d;
    assert i != k;
    if i < k {
      assert DifferentIds(cats[i], cats[k]);
    } else {
      assert DifferentIds(cats[k], cats[i]);
    }
  }

  predicate DistinctSubjectIds(subjects: seq<Subject>) {
    forall i, j | 0 <= i < j < |subjects| :: subjects[i].id != subjects[j].id
  }

  function FindSubject(subjects: seq<Subject>, id: int): (r: Option<Subject>)
    ensures r.Some? ==> r.value in subjects && r.value.id == id
    ensures r.None? ==> forall s | s in subjects :: s.id != id
    decreases |subjects|
  {
    if |subjects| == 0 then None
    else if subjects[0].id == id then Some(subjects[0])
    else
      assert forall s | s in subjects :: s == subjects[0] || s in subjects[1..];
      FindSubject(subjects[1..], id)
  }

  function FindCategory(cats: seq<Category>, id: int): (r: Option<Category>)
    ensures r.Some? ==> r.value in cats && r.value.id == id
    ensures r.None? ==> forall c | c in cats :: c.id != id
    decreases |cats|
  {
    if |cats| == 0 then None
    else if cats[0].id == id then Some(cats[0])
    else
      assert forall c | c in cats :: c == cats[0] || c in cats[1..];
      FindCategory(cats[1..], id)
  }

  /** No professor has two subjects whose names differ only in case. */
  predicate UniquePerProfessor(subjects: seq<Subject>) {
    forall i, j | 0 <= i < j < |subjects| ::
      subjects[i].professor == subjects[j].professor ==> !SameFold(subjects[i].name, subjects[j].name)
  }

  predicate NoTopLevelClash(a: Category, b: Category) {
    a.parent.None? && b.parent.None? && a.subject == b.subject ==> a.name != b.name
  }

  /** No subject has two top-level categories of the same exact name. */
  predicate TopLevelUnique(cats: seq<Category>) {
    Pairwise(cats, NoTopLevelClash)
  }

  predicate NoSiblingClash(a: Category, b: Category) {
    a.parent.Some? && a.parent == b.parent && a.subject == b.subject ==> !SameFold(a.name, b.name)
  }

  /** No folder has two subfolders whose names differ only in case. */
  predicate SiblingsUnique(cats: seq<Category>) {
    Pairwise(cats, NoSiblingClash)
  }

  /** A subfolder belongs to the subject of its parent. */
  predicate SubjectsAgree(cats: seq<Category>) {
    forall c, p | c in cats && p in cats && c.parent == Some(p.id) :: c.subject == p.subject
  }

  /** Another subject of `professor` (not `except`) has `name` up to case. */
  predicate SubjectNameTaken(subjects: seq<Subject>, professor: int, name: string, except: Option<int>) {
    exists s | s in subjects :: s.professor == professor && SameFold(s.name, name) && Some(s.id) != except
  }

  /** Another top-level category of `subject` (not `except`) is called exactly `name`. */
  predicate TopLevelTaken(cats: seq<Category>, subject: int, name: string, except: Option<int>) {
    exists c | c in cats :: c.subject == subject && c.parent.None? && c.name == name && Some(c.id) != except
  }

  /** Saving `c` under `name` breaks `unique_together = (subject, name, parent)`:
      another subfolder of its parent is called exactly `name`. A top-level
      category never does, as its parent is NULL and NULLs never collide. */
  predicate SiblingTaken(cats: seq<Category>, c: Category, name: string) {
    c.parent.Some? && exists x | x in cats :: x.subject == c.subject && x.parent == c.parent && x.name == name && x.id != c.id
  }

  /** Another subfolder of `parent` (not `except`) has `name` up to case. */
  predicate FolderNameTaken(cats: seq<Category>, subject: int, parent: int, name: string, except: Option<int>) {
    exists c | c in cats :: c.subject == subject && c.parent == Some(parent) && SameFold(c.name, name) && Some(c.id) != except
  }

  lemma SameFoldSymmetric(a: string, b: string)
    ensures SameFold(a, b) == SameFold(b, a)
  {
  }

  // ---------------------------------------------------------------------
  // Record updates

  function RenameSubjectIn(subjects: seq<Subject>, id: int, name: string): (r: seq<Subject>)
    ensures |r| == |subjects|
    ensures forall i | 0 <= i < |r| :: r[i] == if subjects[i].id == id then subjects[i].(name := name) else subjects[i]
  {
    seq(|subjects|, i requires 0 <= i < |subjects| =>
      if subjects[i].id == id then subjects[i].(name := name) else subjects[i])
  }

  function RenameCategoryIn(cats: seq<Category>, id: int, name: string): (r: seq<Category>)
    ensures |r| == |cats|
    ensures forall i | 0 <= i < |r| :: r[i] == if cats[i].id == id then cats[i].(name := name) else cats[i]
  {
    seq(|cats|, i requires 0 <= i < |cats| => if cats[i].id == id then cats[i].(name := name) else cats[i])
  }

  /** Renaming the subject `id` to a name no other subject of its professor
      has keeps the names unique. */
  lemma RenameKeepsUnique(subjects: seq<Subject>, s: Subject, name: string)
    requires UniquePerProfessor(subjects) && DistinctSubjectIds(subjects)
    requires s in subjects && !SubjectNameTaken(subjects, s.professor, name, Some(s.id))
    ensures UniquePerProfessor(RenameSubjectIn(subjects, s.id, name))
  {
    var r := RenameSubjectIn(subjects, s.id, name);
    forall i, j | 0 <= i < j < |r| && r[i].professor == r[j].professor
      ensures !SameFold(r[i].name, r[j].name)
    {
      if subjects[i].id == s.id && subjects[j].id != s.id {
        assert subjects[j] in subjects;
        SameFoldSymmetric(subjects[j].name, name);
      } else if subjects[j].id == s.id && subjects[i].id != s.id {
        assert subjects[i] in subjects;
      }
    }
  }

  // ---------------------------------------------------------------------
  // `CreateSubjectView.form_valid`

  predicate DistinctNames(names: seq<string>) {
    forall i, j | 0 <= i < j < |names| :: names[i] != names[j]
  }

  /** A non-blank extra category name the form sent, once stripped. */
  predicate IsExtra(extras: seq<string>, name: string) {
    name != "" && name in Map(Strip, extras)
  }

  /** `get_or_create` of a top-level category by exact name. */
  function GetOrCreate(names: seq<string>, n: string): (r: seq<string>)
    ensures forall x :: x in r <==> x in names || x == n
    ensures DistinctNames(names) ==> DistinctNames(r)
    ensures names <= r
  {
    if n in names then names else names + [n]
  }

  /** The top-level categories of a new subject: the four defaults, then
      each non-blank extra not yet present. */
  function InitialCategories(extras: seq<string>): (r: seq<string>)
    ensures DistinctNames(r)
    ensures DefaultCategories <= r
    ensures forall x :: x in r <==> x in DefaultCategories || IsExtra(extras, x)
    decreases |extras|
  {
    if |extras| == 0 then DefaultCategories
    else
      var prev := InitialCategories(extras[..|extras| - 1]);
      var n := Strip(extras[|extras| - 1]);
      IsExtraSnoc(extras);
      if n == "" then prev else GetOrCreate(prev, n)
  }

  lemma IsExtraSnoc(extras: seq<string>)
    requires |extras| > 0
    ensures forall x :: IsExtra(extras, x) <==>
      IsExtra(extras[..|extras| - 1], x) || (x != "" && x == Strip(extras[|extras| - 1]))
  {
    var init, last := extras[..|extras| - 1], extras[|extras| - 1];
    assert extras == init + [last];
    MapConcat(Strip, init, [last]);
  }

  /** Category records for `names`, numbered from `nextId`. */
  function TopLevel(subject: int, names: seq<string>, nextId: int): (r: seq<Category>)
    ensures |r| == |names|
    ensures forall k | 0 <= k < |r| :: r[k] == Category(nextId + k, subject, None, names[k])
  {
    seq(|names|, k requires 0 <= k < |names| => Category(nextId + k, subject, None, names[k]))
  }

  /** `CreateSubjectView.form_valid`: the stripped name must not match, up
      to case, another subject of the same professor; the new subject then
      gets its initial top-level categories. */
  function CreateSubject(st: Store, professor: int, rawName: string, description: string,
                         extras: seq<string>, subjectId: int, nextId: int): (r: (Reply, Store))
    requires forall s | s in st.subjects :: s.id != subjectId
    requires forall c | c in st.cats :: c.id < nextId
    ensures r.0 == Error(200) <==> SubjectNameTaken(st.subjects, professor, Strip(rawName), None)
    ensures r.0 == Error(200) ==> r.1 == st
    ensures r.0 != Error(200) ==> (
      && r.0 == Redirect
      && r.1.subjects == st.subjects + [Subject(subjectId, professor, Strip(rawName), description)]
      && r.1.cats == st.cats + TopLevel(subjectId, InitialCategories(extras), nextId))
    ensures UniquePerProfessor(st.subjects) ==> UniquePerProfessor(r.1.subjects)
    ensures DistinctIds(st.cats) ==> DistinctIds(r.1.cats)
  {
    var name := Strip(rawName);
    if SubjectNameTaken(st.subjects, professor, name, None) then (Error(200), st)
    else
      var subjects := st.subjects + [Subject(subjectId, professor, name, description)];
      var added := TopLevel(subjectId, InitialCategories(extras), nextId);
      var cats := st.cats + added;
      assert UniquePerProfessor(st.subjects) ==> UniquePerProfessor(subjects) by {
        if UniquePerProfessor(st.subjects) {
          forall i, j | 0 <= i < j < |subjects| && subjects[i].professor == subjects[j].professor
            ensures !SameFold(subjects[i].name, subjects[j].name)
          {
            if j == |st.subjects| {
              assert subjects[i] in st.subjects;
            }
          }
        }
      }
      assert DistinctIds(st.cats) ==> DistinctIds(cats) by {
        if DistinctIds(st.cats) {
          forall i, j | 0 <= i < j < |cats| ensures cats[i].id != cats[j].id {
            if i < |st.cats| && j >= |st.cats| {
              assert cats[i] in st.cats;
            }
          }
        }
      }
      (Redirect, Store(subjects, cats, st.filesIn))
  }

  /** A new subject's top-level categories hold each default and each
      non-blank extra exactly once. */
  lemma NewSubjectCategories(st: Store, professor: int, rawName: string, description: string,
                             extras: seq<string>, subjectId: int, nextId: int, name: string)
    requires forall s | s in st.subjects :: s.id != subjectId
    requires forall c | c in st.cats :: c.id < nextId
    requires forall c | c in st.cats :: c.subject != subjectId
    requires !SubjectNameTaken(st.subjects, professor, Strip(rawName), None)
    ensures var r := CreateSubject(st, professor, rawName, description, extras, subjectId, nextId).1;
      (exists c | c in r.cats :: c.subject == subjectId && c.parent.None? && c.name == name)
        <==> name in DefaultCategories || IsExtra(extras, name)
    ensures TopLevelUnique(CreateSubject(st, professor, rawName, description, extras, subjectId, nextId).1.cats)
      <== TopLevelUnique(st.cats)
  {
    var added := TopLevel(subjectId, InitialCategories(extras), nextId);
    TopLevelOfNew(st.cats, subjectId, InitialCategories(extras), nextId, name);
    if TopLevelUnique(st.cats) {
      AppendNewKeepsTopLevelUnique(st.cats, subjectId, InitialCategories(extras), nextId);
    }
  }

  lemma TopLevelOfNew(prior: seq<Category>, subjectId: int, names: seq<string>, nextId: int, name: string)
    requires forall c | c in prior :: c.subject != subjectId
    ensures (exists c | c in prior + TopLevel(subjectId, names, nextId) :: c.subject == subjectId && c.parent.None? && c.name == name)
      <==> name in names
  {
    var added := TopLevel(subjectId, names, nextId);
    var cats := prior + added;
    if name in names {
      var k :| 0 <= k < |names| && names[k] == name;
      assert cats[|prior| + k] == added[k];
      assert cats[|prior| + k] in cats;
    }
    if exists c | c in cats :: c.subject == subjectId && c.parent.None? && c.name == name {
      var c :| c in cats && c.subject == subjectId && c.parent.None? && c.name == name;
      assert c !in prior;
      var k :| 0 <= k < |added| && added[k] == c;
      assert names[k] == name;
    }
  }

  lemma AppendNewKeepsTopLevelUnique(prior: seq<Category>, subjectId: int, names: seq<string>, nextId: int)
    requires forall c | c in prior :: c.subject != subjectId
    requires TopLevelUnique(prior) && DistinctNames(names)
    ensures TopLevelUnique(prior + TopLevel(subjectId, names, nextId))
  {
    var added := TopLevel(subjectId, names, nextId);
    var cats := prior + added;
    forall i, j | 0 <= i < j < |cats| ensures NoTopLevelClash(cats[i], cats[j]) {
      if j < |prior| {
        assert NoTopLevelClash(prior[i], prior[j]);
      } else if i < |prior| {
        assert cats[i] in prior;
      } else {
        assert cats[i] == added[i - |prior|] && cats[j] == added[j - |prior|];
      }
    }
  }

  // ---------------------------------------------------------------------
  // `rename_subject`

  /** `rename_subject`: 404 for an unknown subject, 403 for anyone but its
      professor, 400 for a blank name; a name equal up to case is accepted
      unchanged; 409 when another subject of the professor has the name. */
  function RenameSubject(st: Store, pk: int, user: int, raw: Option<string>): (r: (Reply, Store))
    ensures r.0 != Accepted ==> r.1 == st
    ensures FindSubject(st.subjects, pk).None? ==> r.0 == Error(404)
    ensures FindSubject(st.subjects, pk).Some? ==> (
      var s := FindSubject(st.subjects, pk).value;
      var name := Strip(raw.GetOr(""));
      && (s.professor != user ==> r.0 == Error(403))
      && (s.professor == user && name == "" ==> r.0 == Error(400))
      && (s.professor == user && name != "" && SameFold(Strip(s.name), name) ==> r == (Accepted, st))
      && (r.0 == Error(409) <==>
            s.professor == user && name != "" && !SameFold(Strip(s.name), name)
            && SubjectNameTaken(st.subjects, user, name, Some(pk)))
      && (s.professor == user && name != "" && !SameFold(Strip(s.name), name)
            && !SubjectNameTaken(st.subjects, user, name, Some(pk)) ==>
            r == (Accepted, st.(subjects := RenameSubjectIn(st.subjects, pk, name)))))
    ensures UniquePerProfessor(st.subjects) && DistinctSubjectIds(st.subjects) ==> UniquePerProfessor(r.1.subjects)
  {
    match FindSubject(st.subjects, pk)
    case None => (Error(404), st)
    case Some(s) =>
      var name := Strip(raw.GetOr(""));
      if s.professor != user then (Error(403), st)
      else if name == "" then (Error(400), st)
      else if SameFold(Strip(s.name), name) then (Accepted, st)
      else if SubjectNameTaken(st.subjects, user, name, Some(pk)) then (Error(409), st)
      else
        assert UniquePerProfessor(st.subjects) && DistinctSubjectIds(st.subjects)
          ==> UniquePerProfessor(RenameSubjectIn(st.subjects, pk, name)) by {
          if UniquePerProfessor(st.subjects) && DistinctSubjectIds(st.subjects) {
            RenameKeepsUnique(st.subjects, s, name);
          }
        }
        (Accepted, st.(subjects := RenameSubjectIn(st.subjects, pk, name)))
  }

  // ---------------------------------------------------------------------
  // `SubjectDetailView.post`

  /** The action a request to the subject page carries. */
  datatype SubjectAction =
    | UpdateSubjectName(raw: Option<string>)
    | UpdateDescription(text: string)
    | NewCategory(name: string, newId: int)
    | DeleteCategory(categoryId: int)
    | UpdateCategory(categoryId: int, newName: string)
    | NoAction

  /** A fresh primary key for a new category. */
  predicate FreshFor(st: Store, a: SubjectAction) {
    a.NewCategory? ==> forall c | c in st.cats :: c.id != a.newId
  }

  /** The categories under `target` and `target` itself, which a delete
      removes with it. */
  predicate Under(cats: seq<Category>, c: Category, target: int) {
    exists x | x in AncestorChain(cats, c, |cats|) :: x.id == target
  }

  /** The primary keys of `target` and of every category under it: only
      keys of stored categories, and always `target` itself when it is stored. */
  function Descendants(cats: seq<Category>, target: int): (r: set<int>)
    ensures forall c | c in cats && c.id == target :: target in r
    ensures forall x | x in r :: exists c | c in cats :: c.id == x
  {
    var r := set c | c in cats && Under(cats, c, target) :: c.id;
    assert forall c | c in cats && c.id == target :: c.id in r by {
      forall c | c in cats && c.id == target ensures Under(cats, c, target) {
        var chain := AncestorChain(cats, c, |cats|);
        assert chain[|chain| - 1] in chain;
      }
    }
    r
  }

  /** `SubjectDetailView.post`. Any signed-in user may post; every answer
      but a success leaves the store as it was. */
  function SubjectPost(st: Store, pk: int, a: SubjectAction): (r: (Reply, Store))
    requires FreshFor(st, a)
    ensures FindSubject(st.subjects, pk).None? ==> r == (Error(404), st)
    ensures r.0 != Accepted ==> r.1 == st
    ensures a.UpdateSubjectName? && FindSubject(st.subjects, pk).Some? ==> (
      var s := FindSubject(st.subjects, pk).value;
      var name := Strip(a.raw.GetOr(""));
      && (name == "" ==> r.0 == Error(400))
      && (name != "" && SubjectNameTaken(st.subjects, s.professor, name, Some(pk)) ==> r.0 == Error(409))
      && (name != "" && !SubjectNameTaken(st.subjects, s.professor, name, Some(pk)) ==>
            r == (Accepted, st.(subjects := RenameSubjectIn(st.subjects, pk, name)))))
    ensures a.NewCategory? && FindSubject(st.subjects, pk).Some? ==> (
      && (Strip(a.name) == "" ==> r.0 == Redirect)
      && (r.0 == Accepted <==> Strip(a.name) != "" && !TopLevelTaken(st.cats, pk, Strip(a.name), None))
      && (r.0 == Accepted ==> r.1.cats == st.cats + [Category(a.newId, pk, None, Strip(a.name))]))
    ensures a.DeleteCategory? && FindSubject(st.subjects, pk).Some? ==> (
      && (FindCategory(st.cats, a.categoryId).None? ==> r.0 == Error(404))
      && (r.0 == Accepted <==> FindCategory(st.cats, a.categoryId).Some? && !IsProtected(FindCategory(st.cats, a.categoryId).value)))
    ensures a.UpdateCategory? && FindSubject(st.subjects, pk).Some? ==> (
      var c := FindCategory(st.cats, a.categoryId);
      && (r.0 == Accepted <==>
            Strip(a.newName) != "" && c.Some? && c.value.subject == pk && !IsProtected(c.value)
            && !TopLevelTaken(st.cats, pk, Strip(a.newName), Some(a.categoryId))
            && !SiblingTaken(st.cats, c.value, Strip(a.newName)))
      && ((Strip(a.newName) != "" && c.Some? && c.value.subject == pk && !IsProtected(c.value)
            && !TopLevelTaken(st.cats, pk, Strip(a.newName), Some(a.categoryId))
            && SiblingTaken(st.cats, c.value, Strip(a.newName))) ==> r.0 == Error(500))
      && (r.0 == Accepted ==> r.1.cats == RenameCategoryIn(st.cats, a.categoryId, Strip(a.newName))))
    ensures r.1.subjects == st.subjects || (a.UpdateSubjectName? || a.UpdateDescription?)
    ensures UniquePerProfessor(st.subjects) && DistinctSubjectIds(st.subjects) ==> UniquePerProfessor(r.1.subjects)
  {
    match FindSubject(st.subjects, pk)
    case None => (Error(404), st)
    case Some(s) =>
      match a
      case UpdateSubjectName(raw) => SubjectRename(st, s, Strip(raw.GetOr("")))
      case UpdateDescription(text) => DescriptionUpdate(st, pk, Strip(text))
      case NewCategory(raw, newId) => TopLevelCreate(st, pk, Strip(raw), newId)
      case DeleteCategory(id) => CategoryDelete(st, id)
      case UpdateCategory(id, raw) => CategoryRename(st, pk, id, Strip(raw))
      case NoAction => (Redirect, st)
  }

  /** The `update_subject_name` branch of the subject page, for the found
      subject `s` and the stripped name. */
  function SubjectRename(st: Store, s: Subject, name: string): (r: (Reply, Store))
    requires FindSubject(st.subjects, s.id) == Some(s)
    ensures r.0 != Accepted ==> r.1 == st
    ensures name == "" ==> r.0 == Error(400)
    ensures name != "" && SubjectNameTaken(st.subjects, s.professor, name, Some(s.id)) ==> r.0 == Error(409)
    ensures name != "" && !SubjectNameTaken(st.subjects, s.professor, name, Some(s.id)) ==>
      r == (Accepted, st.(subjects := RenameSubjectIn(st.subjects, s.id, name)))
    ensures UniquePerProfessor(st.subjects) && DistinctSubjectIds(st.subjects) ==> UniquePerProfessor(r.1.subjects)
  {
    if name == "" then (Error(400), st)
    else if SubjectNameTaken(st.subjects, s.professor, name, Some(s.id)) then (Error(409), st)
    else
      assert UniquePerProfessor(st.subjects) && DistinctSubjectIds(st.subjects)
        ==> UniquePerProfessor(RenameSubjectIn(st.subjects, s.id, name)) by {
        if UniquePerProfessor(st.subjects) && DistinctSubjectIds(st.subjects) {
          RenameKeepsUnique(st.subjects, s, name);
        }
      }
      (Accepted, st.(subjects := RenameSubjectIn(st.subjects, s.id, name)))
  }

  /** The `update_description` branch of the subject page, for the stripped
      text: a blank one only redirects; otherwise the subject's description
      is replaced and every other record kept. */
  function DescriptionUpdate(st: Store, pk: int, d: string): (r: (Reply, Store))
    ensures d == "" ==> r == (Redirect, st)
    ensures d != "" ==> r.0 == Accepted && r.1.cats == st.cats && r.1.filesIn == st.filesIn
    ensures |r.1.subjects| == |st.subjects|
    ensures forall i | 0 <= i < |st.subjects| ::
      r.1.subjects[i] == if d != "" && st.subjects[i].id == pk then st.subjects[i].(description := d) else st.subjects[i]
    ensures UniquePerProfessor(st.subjects) ==> UniquePerProfessor(r.1.subjects)
  {
    if d == "" then (Redirect, st)
    else (Accepted, st.(subjects := seq(|st.subjects|, i requires 0 <= i < |st.subjects| =>
      if st.subjects[i].id == pk then st.subjects[i].(description := d) else st.subjects[i])))
  }

  /** The `new_category` branch of the subject page, for the stripped name:
      a blank name redirects, an exact top-level duplicate re-renders the
      page, anything else appends a top-level category. */
  function TopLevelCreate(st: Store, pk: int, name: string, newId: int): (r: (Reply, Store))
    ensures r.0 != Accepted ==> r.1 == st
    ensures name == "" ==> r.0 == Redirect
    ensures r.0 == Accepted <==> name != "" && !TopLevelTaken(st.cats, pk, name, None)
    ensures r.0 == Accepted ==> r.1 == st.(cats := st.cats + [Category(newId, pk, None, name)])
  {
    if name == "" then (Redirect, st)
    else if TopLevelTaken(st.cats, pk, name, None) then (Error(200), st)
    else (Accepted, st.(cats := st.cats + [Category(newId, pk, None, name)]))
  }

  /** The `delete_category` branch of the subject page: 404 for an unknown
      category, the page again for a protected one, otherwise the category
      goes with everything under it. */
  function CategoryDelete(st: Store, id: int): (r: (Reply, Store))
    ensures r.0 != Accepted ==> r.1 == st
    ensures FindCategory(st.cats, id).None? ==> r.0 == Error(404)
    ensures r.0 == Accepted <==> FindCategory(st.cats, id).Some? && !IsProtected(FindCategory(st.cats, id).value)
    ensures r.0 == Accepted ==> r.1 == st.(cats := WithoutIds(st.cats, Descendants(st.cats, id)))
  {
    var found := FindCategory(st.cats, id);
    if found.None? then (Error(404), st)
    else if IsProtected(found.value) then (Error(200), st)
    else (Accepted, st.(cats := WithoutIds(st.cats, Descendants(st.cats, id))))
  }

  /** The `update_category` branch of the subject page, for the stripped
      name: blank names, unknown or foreign categories, protected ones and
      top-level clashes re-render the page; an exact sibling clash reaches
      the database. */
  function CategoryRename(st: Store, pk: int, id: int, name: string): (r: (Reply, Store))
    ensures r.0 != Accepted ==> r.1 == st
    ensures r.1.subjects == st.subjects
    ensures var c := FindCategory(st.cats, id);
      && (r.0 == Accepted <==>
            name != "" && c.Some? && c.value.subject == pk && !IsProtected(c.value)
            && !TopLevelTaken(st.cats, pk, name, Some(id)) && !SiblingTaken(st.cats, c.value, name))
      && ((name != "" && c.Some? && c.value.subject == pk && !IsProtected(c.value)
            && !TopLevelTaken(st.cats, pk, name, Some(id)) && SiblingTaken(st.cats, c.value, name)) ==> r.0 == Error(500))
      && (r.0 == Accepted ==> r.1 == st.(cats := RenameCategoryIn(st.cats, id, name)))
  {
    var found := FindCategory(st.cats, id);
    if name == "" then (Error(200), st)
    else if found.None? || found.value.subject != pk then (Error(200), st)
    else if IsProtected(found.value) then (Error(200), st)
    else if TopLevelTaken(st.cats, pk, name, Some(id)) then (Error(200), st)
    // The `IntegrityError` of `save()` is not caught: a server error.
    else if SiblingTaken(st.cats, found.value, name) then (Error(500), st)
    else (Accepted, st.(cats := RenameCategoryIn(st.cats, id, name)))
  }

  /** Adding and renaming through the subject page keep top-level names
      unique per subject. */
  lemma SubjectPostKeepsTopLevelUnique(st: Store, pk: int, a: SubjectAction)
    requires FreshFor(st, a)
    requires TopLevelUnique(st.cats) && DistinctIds(st.cats)
    ensures TopLevelUnique(SubjectPost(st, pk, a).1.cats)
  {
    var r := SubjectPost(st, pk, a);
    var cats := r.1.cats;
    if r.0 == Accepted && a.NewCategory? {
      forall i, j | 0 <= i < j < |cats| ensures NoTopLevelClash(cats[i], cats[j]) {
        if j == |st.cats| {
          assert cats[i] in st.cats;
        } else {
          assert NoTopLevelClash(st.cats[i], st.cats[j]);
        }
      }
    } else if r.0 == Accepted && a.UpdateCategory? {
      var found := FindCategory(st.cats, a.categoryId).value;
      forall i, j | 0 <= i < j < |cats| ensures NoTopLevelClash(cats[i], cats[j]) {
        assert NoTopLevelClash(st.cats[i], st.cats[j]);
        assert DifferentIds(st.cats[i], st.cats[j]);
        if st.cats[i].id == a.categoryId {
          SameId(st.cats, i, found);
          assert st.cats[j] in st.cats;
        } else if st.cats[j].id == a.categoryId {
          SameId(st.cats, j, found);
          assert st.cats[i] in st.cats;
        }
      }
    } else if r.0 == Accepted && a.DeleteCategory? {
      WithoutIdsPairwise(st.cats, Descendants(st.cats, a.categoryId), NoTopLevelClash);
    }
  }

  // ---------------------------------------------------------------------
  // `CategoryDetailView.post`: subfolders

  datatype FolderAction =
    | CreateFolder(name: Option<string>, newId: int)
    | RenameFolder(folderId: int, raw: Option<string>)
    | DeleteFolder(folderId: int)

  /** A folder with files or subfolders. */
  predicate NonEmpty(st: Store, id: int) {
    id in st.filesIn || exists c | c in st.cats :: c.parent == Some(id)
  }

  /** `Category.objects.get(id=id, parent=parent)`. */
  function Subfolder(cats: seq<Category>, id: int, parent: int): (r: Option<Category>)
    ensures r.Some? ==> r.value in cats && r.value.id == id && r.value.parent == Some(parent)
    ensures r.None? ==> forall c | c in cats :: !(c.id == id && c.parent == Some(parent))
    decreases |cats|
  {
    if |cats| == 0 then None
    else if cats[0].id == id && cats[0].parent == Some(parent) then Some(cats[0])
    else
      assert forall c | c in cats :: c == cats[0] || c in cats[1..];
      Subfolder(cats[1..], id, parent)
  }

  /** `CategoryDetailView.post` for folders: only the subject's professor,
      with the professor role, may act; names are stripped and must be
      non-blank; sibling names are unique up to case; only an empty folder
      can be deleted. */
  function FolderPost(st: Store, catId: int, user: int, role: string, a: FolderAction): (r: (Reply, Store))
    requires DistinctIds(st.cats)
    requires a.CreateFolder? ==> forall c | c in st.cats :: c.id != a.newId
    ensures r.0 != Accepted ==> r.1 == st
    ensures r.1.subjects == st.subjects && r.1.filesIn == st.filesIn
    ensures FindCategory(st.cats, catId).None? ==> r.0 == Error(404)
    ensures FindCategory(st.cats, catId).Some? ==> (
      var cat := FindCategory(st.cats, catId).value;
      var owner := role == "professor" && OwnerOf(st, cat.subject) == Some(user);
      && (!owner ==> r.0 == Error(403))
      && (owner && a.CreateFolder? ==> r == CreateFolderIn(st, cat, Strip(a.name.GetOr("")), a.newId))
      && (owner && a.RenameFolder? ==> r == RenameFolderIn(st, cat, a.folderId, Strip(a.raw.GetOr(""))))
      && (owner && a.DeleteFolder? ==> r == DeleteFolderIn(st, cat, a.folderId)))
    ensures SiblingsUnique(st.cats) && SubjectsAgree(st.cats) ==> SiblingsUnique(r.1.cats)
  {
    match FindCategory(st.cats, catId)
    case None => (Error(404), st)
    case Some(cat) =>
      var owner := role == "professor" && OwnerOf(st, cat.subject) == Some(user);
      if !owner then (Error(403), st)
      else
        match a
        case CreateFolder(raw, newId) => CreateFolderIn(st, cat, Strip(raw.GetOr("")), newId)
        case RenameFolder(id, raw) => RenameFolderIn(st, cat, id, Strip(raw.GetOr("")))
        case DeleteFolder(id) => DeleteFolderIn(st, cat, id)
  }

  /** The professor of subject `id`, if it exists. */
  function OwnerOf(st: Store, id: int): (r: Option<int>)
    ensures r.Some? <==> FindSubject(st.subjects, id).Some?
    ensures r.Some? ==> r.value == FindSubject(st.subjects, id).value.professor
  {
    match FindSubject(st.subjects, id)
    case None => None
    case Some(s) => Some(s.professor)
  }

  /** Creating subfolder `name` of `cat`: 400 for a blank name, 409 when a
      sibling has it up to case. */
  function CreateFolderIn(st: Store, cat: Category, name: string, newId: int): (r: (Reply, Store))
    requires forall c | c in st.cats :: c.id != newId
    ensures r.0 != Accepted ==> r.1 == st
    ensures name == "" ==> r.0 == Error(400)
    ensures name != "" && FolderNameTaken(st.cats, cat.subject, cat.id, name, None) ==> r.0 == Error(409)
    ensures r.0 == Accepted <==> name != "" && !FolderNameTaken(st.cats, cat.subject, cat.id, name, None)
    ensures r.0 == Accepted ==> r.1.cats == st.cats + [Category(newId, cat.subject, Some(cat.id), name)]
    ensures r.1.subjects == st.subjects && r.1.filesIn == st.filesIn
    ensures SiblingsUnique(st.cats) ==> SiblingsUnique(r.1.cats)
    ensures DistinctIds(st.cats) ==> DistinctIds(r.1.cats)
  {
    if name == "" then (Error(400), st)
    else if FolderNameTaken(st.cats, cat.subject, cat.id, name, None) then (Error(409), st)
    else
      var cats := st.cats + [Category(newId, cat.subject, Some(cat.id), name)];
      assert SiblingsUnique(st.cats) ==> SiblingsUnique(cats) by {
        if SiblingsUnique(st.cats) {
          forall i, j | 0 <= i < j < |cats| ensures NoSiblingClash(cats[i], cats[j]) {
            if j == |st.cats| {
              assert cats[i] in st.cats;
            } else {
              assert NoSiblingClash(st.cats[i], st.cats[j]);
            }
          }
        }
      }
      assert DistinctIds(st.cats) ==> DistinctIds(cats) by {
        if DistinctIds(st.cats) {
          forall i, j | 0 <= i < j < |cats| ensures DifferentIds(cats[i], cats[j]) {
            if j == |st.cats| {
              assert cats[i] in st.cats;
            } else {
              assert DifferentIds(st.cats[i], st.cats[j]);
            }
          }
        }
      }
      (Accepted, st.(cats := cats))
  }

  /** Renaming subfolder `id` of `cat`: 400 for a blank name, 404 when `cat`
      has no such subfolder, 409 when another sibling has the name up to
      case. */
  function RenameFolderIn(st: Store, cat: Category, id: int, name: string): (r: (Reply, Store))
    requires DistinctIds(st.cats)
    ensures r.0 != Accepted ==> r.1 == st
    ensures name == "" ==> r.0 == Error(400)
    ensures name != "" && Subfolder(st.cats, id, cat.id).None? ==> r.0 == Error(404)
    ensures r.0 == Accepted <==>
      name != "" && Subfolder(st.cats, id, cat.id).Some? && !FolderNameTaken(st.cats, cat.subject, cat.id, name, Some(id))
    ensures r.0 == Accepted ==> r.1.cats == RenameCategoryIn(st.cats, id, name)
    ensures r.1.subjects == st.subjects && r.1.filesIn == st.filesIn
    ensures cat in st.cats && SiblingsUnique(st.cats) && SubjectsAgree(st.cats) ==> SiblingsUnique(r.1.cats)
  {
    if name == "" then (Error(400), st)
    else
      match Subfolder(st.cats, id, cat.id)
      case None => (Error(404), st)
      case Some(sub) =>
        if FolderNameTaken(st.cats, cat.subject, cat.id, name, Some(id)) then (Error(409), st)
        else
          var cats := RenameCategoryIn(st.cats, id, name);
          assert cat in st.cats && SiblingsUnique(st.cats) && SubjectsAgree(st.cats) ==> SiblingsUnique(cats) by {
            if cat in st.cats && SiblingsUnique(st.cats) && SubjectsAgree(st.cats) {
              assert sub.subject == cat.subject;
              forall i, j | 0 <= i < j < |cats| ensures NoSiblingClash(cats[i], cats[j]) {
                assert NoSiblingClash(st.cats[i], st.cats[j]);
                assert DifferentIds(st.cats[i], st.cats[j]);
                if st.cats[i].id == id {
                  SameId(st.cats, i, sub);
                  assert st.cats[j] in st.cats;
                } else if st.cats[j].id == id {
                  SameId(st.cats, j, sub);
                  assert st.cats[i] in st.cats;
                }
              }
            }
          }
          (Accepted, st.(cats := cats))
  }

  /** Deleting subfolder `id` of `cat`: 404 when there is none, 409 when it
      holds files or subfolders. */
  function DeleteFolderIn(st: Store, cat: Category, id: int): (r: (Reply, Store))
    ensures r.0 != Accepted ==> r.1 == st
    ensures Subfolder(st.cats, id, cat.id).None? ==> r.0 == Error(404)
    ensures Subfolder(st.cats, id, cat.id).Some? ==> (r.0 == Error(409) <==> NonEmpty(st, id))
    ensures r.0 == Accepted <==> Subfolder(st.cats, id, cat.id).Some? && !NonEmpty(st, id)
    ensures r.0 == Accepted ==> r.1.cats == Without(st.cats, id)
    ensures r.1.subjects == st.subjects && r.1.filesIn == st.filesIn
    ensures SiblingsUnique(st.cats) ==> SiblingsUnique(r.1.cats)
  {
    match Subfolder(st.cats, id, cat.id)
    case None => (Error(404), st)
    case Some(sub) =>
      if NonEmpty(st, id) then (Error(409), st)
      else
        assert SiblingsUnique(st.cats) ==> SiblingsUnique(Without(st.cats, id)) by {
          if SiblingsUnique(st.cats) {
            WithoutIdsPairwise(st.cats, {id}, NoSiblingClash);
          }
        }
        (Accepted, st.(cats := Without(st.cats, id)))
  }

  /** The categories but the one with primary key `id`. */
  function Without(cats: seq<Category>, id: int): (r: seq<Category>)
    ensures forall c :: c in r <==> c in cats && c.id != id
  {
    WithoutIds(cats, {id})
  }

  /** A record whose key is not renamed keeps its place. */
  lemma RenameKeepsOthers(cats: seq<Category>, id: int, name: string, c: Category)
    requires c in cats && c.id != id
    ensures c in RenameCategoryIn(cats, id, name)
  {
    var k :| 0 <= k < |cats| && cats[k] == c;
    assert RenameCategoryIn(cats, id, name)[k] == c;
  }

  /** The four protected top-level categories survive every action of the
      subject page. */
  lemma SubjectPostKeepsProtected(st: Store, pk: int, a: SubjectAction, c: Category)
    requires FreshFor(st, a) && DistinctIds(st.cats)
    requires c in st.cats && IsProtected(c)
    ensures c in SubjectPost(st, pk, a).1.cats
  {
    var r := SubjectPost(st, pk, a);
    if r.0 == Accepted && a.DeleteCategory? {
      var found := FindCategory(st.cats, a.categoryId).value;
      DifferentRecords(st.cats, c, found);
      assert AncestorChain(st.cats, c, |st.cats|) == [c];
      assert !Under(st.cats, c, a.categoryId);
      forall d | d in st.cats && Under(st.cats, d, a.categoryId) ensures d.id != c.id {
        DifferentRecords(st.cats, d, c);
      }
      assert c.id !in Descendants(st.cats, a.categoryId);
    } else if r.0 == Accepted && a.UpdateCategory? {
      var found := FindCategory(st.cats, a.categoryId).value;
      DifferentRecords(st.cats, c, found);
      RenameKeepsOthers(st.cats, a.categoryId, Strip(a.newName), c);
    }
  }

  /** The four protected top-level categories survive every folder action. */
  lemma FolderPostKeepsProtected(st: Store, catId: int, user: int, role: string, a: FolderAction, c: Category)
    requires DistinctIds(st.cats)
    requires a.CreateFolder? ==> forall d | d in st.cats :: d.id != a.newId
    requires c in st.cats && IsProtected(c)
    ensures c in FolderPost(st, catId, user, role, a).1.cats
  {
    var r := FolderPost(st, catId, user, role, a);
    if r.0 == Accepted && (a.RenameFolder? || a.DeleteFolder?) {
      var id := a.folderId;
      var sub := Subfolder(st.cats, id, catId).value;
      DifferentRecords(st.cats, c, sub);
      if a.RenameFolder? {
        RenameKeepsOthers(st.cats, id, Strip(a.raw.GetOr("")), c);
      }
    }
  }

  /** Renaming through the subject page checks only top-level names, and the
      database refuses only an exact duplicate, so a subfolder can take its
      sibling's name with other letter case there. */
  lemma SubjectPageRenameSkipsSiblings()
    ensures var st := Store([Subject(1, 7, "Maths", "")], SiblingExample, {});
      && SiblingsUnique(st.cats)
      && SubjectPost(st, 1, UpdateCategory(4, "notes")).0 == Accepted
      && !SiblingsUnique(SubjectPost(st, 1, UpdateCategory(4, "notes")).1.cats)
  {
    var st := Store([Subject(1, 7, "Maths", "")], SiblingExample, {});
    SiblingExampleUnique();
    NotesRenameAccepted(st, "notes");
    RenamedSiblingsClash(SubjectPost(st, 1, UpdateCategory(4, "notes")).1.cats, "notes");
  }

  lemma NotesRenameAccepted(st: Store, name: string)
    requires st == Store([Subject(1, 7, "Maths", "")], SiblingExample, {})
    requires name == "notes"
    ensures SubjectPost(st, 1, UpdateCategory(4, name)).0 == Accepted
    ensures SubjectPost(st, 1, UpdateCategory(4, name)).1.cats == RenameCategoryIn(SiblingExample, 4, name)
  {
    StripUnchanged(name);
    assert st.subjects[0].id == 1;
    assert FindSubject(st.subjects, 1).Some?;
    SlidesFound(st.cats);
    NotesFreeAtTop(st.cats, name);
    NoExactSibling(st.cats, name);
  }

  lemma NoExactSibling(cats: seq<Category>, name: string)
    requires cats == SiblingExample && name == "notes"
    ensures !SiblingTaken(cats, Category(4, 1, Some(2), "Slides"), name)
  {
    assert "Notes"[0] != name[0];
    forall x | x in cats && x.parent == Some(2) && x.id != 4 ensures x.name != name {
      assert x == cats[1];
    }
  }

  /** Renaming a subfolder to its sibling's exact name passes the view's
      top-level check (a subfolder is never protected) and fails in the
      database: the page answers with a server error and nothing changes. */
  lemma SubjectPageExactSiblingFails(st: Store, pk: int, c: Category, sibling: Category)
    requires FindSubject(st.subjects, pk).Some?
    requires FindCategory(st.cats, c.id) == Some(c) && c.subject == pk && c.parent.Some?
    requires sibling in st.cats && sibling.subject == pk && sibling.parent == c.parent && sibling.id != c.id
    requires Strip(sibling.name) == sibling.name && sibling.name != ""
    requires !TopLevelTaken(st.cats, pk, sibling.name, Some(c.id))
    ensures SubjectPost(st, pk, UpdateCategory(c.id, sibling.name)) == (Error(500), st)
  {
    assert SiblingTaken(st.cats, c, sibling.name);
  }

  lemma SlidesFound(cats: seq<Category>)
    requires cats == SiblingExample
    ensures FindCategory(cats, 4) == Some(Category(4, 1, Some(2), "Slides"))
  {
    assert cats[0].id != 4 && cats[1].id != 4 && cats[2].id == 4;
    assert cats[1..][1..] == [cats[2]];
  }

  lemma NotesFreeAtTop(cats: seq<Category>, name: string)
    requires cats == SiblingExample && name == "notes"
    ensures !TopLevelTaken(cats, 1, name, Some(4))
  {
    assert "Week 1"[0] != name[0];
    forall c | c in cats && c.parent.None? ensures c.name != name {
      assert c == cats[0];
    }
  }

  lemma RenamedSiblingsClash(cats: seq<Category>, name: string)
    requires name == "notes" && cats == RenameCategoryIn(SiblingExample, 4, name)
    ensures !SiblingsUnique(cats)
  {
    assert cats[1] == Category(3, 1, Some(2), "Notes");
    assert cats[2] == Category(4, 1, Some(2), name);
    assert SameFold("Notes", name) by {
      assert Lower("Notes") == name;
    }
    assert !NoSiblingClash(cats[1], cats[2]);
  }

  /** A folder with two subfolders, `Notes` and `Slides`. */
  const SiblingExample: seq<Category> :=
    [Category(2, 1, None, "Week 1"), Category(3, 1, Some(2), "Notes"), Category(4, 1, Some(2), "Slides")]

  lemma SiblingExampleUnique()
    ensures SiblingsUnique(SiblingExample)
  {
    var cats := SiblingExample;
    assert !SameFold("Notes", "Slides") by {
      assert Lower("Notes")[0] != Lower("Slides")[0];
    }
    forall i, j | 0 <= i < j < |cats| ensures NoSiblingClash(cats[i], cats[j]) {
      if i == 1 && j == 2 {
        assert !SameFold(cats[1].name, cats[2].name);
      }
    }
  }

  // ---------------------------------------------------------------------
  // `delete_subcategory`

  /** `delete_subcategory(pk)`: any signed-in user may ask; a folder with
      files or subfolders is kept, any other is deleted, whatever its
      level. The flag says whether it was deleted. */
  function DeleteSubcategory(st: Store, pk: int): (r: (Reply, Store, bool))
    ensures FindCategory(st.cats, pk).None? ==> r == (Error(404), st, false)
    ensures FindCategory(st.cats, pk).Some? ==> r.0 == Redirect
    ensures r.2 <==> FindCategory(st.cats, pk).Some? && !NonEmpty(st, pk)
    ensures !r.2 ==> r.1 == st
    ensures r.2 ==> r.1.cats == Without(st.cats, pk)
  {
    match FindCategory(st.cats, pk)
    case None => (Error(404), st, false)
    case Some(c) =>
      if NonEmpty(st, pk) then (Redirect, st, false)
      else (Redirect, st.(cats := Without(st.cats, pk)), true)
  }

  /** The subject page refuses to delete a protected category, but the
      folder view deletes one as soon as it is empty. */
  lemma EmptyProtectedDeletableAsFolder()
    ensures var st := Store([Subject(1, 7, "Maths", "")], [Category(2, 1, None, "Courses")], {});
      && SubjectPost(st, 1, DeleteCategory(2)) == (Error(200), st)
      && DeleteSubcategory(st, 2).2
      && DeleteSubcategory(st, 2).1.cats == []
  {
    var st := Store([Subject(1, 7, "Maths", "")], [Category(2, 1, None, "Courses")], {});
    assert IsProtected(st.cats[0]);
    assert Without(st.cats, 2) == [];
  }

  // ---------------------------------------------------------------------
  // `CategoryDetailView.get_breadcrumbs`

  /** The category and its ancestors, root first, following parent links
      for at most `fuel` steps. */
  function AncestorChain(cats: seq<Category>, c: Category, fuel: nat): (r: seq<Category>)
    ensures 1 <= |r| <= fuel + 1
    ensures r[|r| - 1] == c
    ensures forall i | 0 <= i < |r| - 1 :: r[i + 1].parent == Some(r[i].id) && r[i] in cats
    ensures r[0].parent.None? || FindCategory(cats, r[0].parent.value).None? || |r| == fuel + 1
    decreases fuel
  {
    if fuel == 0 then [c]
    else
      match c.parent
      case None => [c]
      case Some(p) =>
        match FindCategory(cats, p)
        case None => [c]
        case Some(pc) => AncestorChain(cats, pc, fuel - 1) + [c]
  }

  type Link = (string, string)

  /** The crumbs of a category page: dashboard, subject list, subject, then
      one crumb per category of the chain, the page itself by its own path. */
  function CategoryCrumbs(chain: seq<Category>, current: Category, subjectName: string,
                          dashboardUrl: string, subjectsUrl: string, subjectUrl: string,
                          categoryUrl: int -> string, path: string): (r: seq<Link>)
    requires |chain| > 0 && chain[|chain| - 1] == current
    ensures |r| == 3 + |chain|
    ensures r[..3] == [("Dashboard", dashboardUrl), ("My Subjects", subjectsUrl), ("Subject: " + subjectName, subjectUrl)]
    ensures forall i | 0 <= i < |chain| :: r[3 + i].0 == "Category: " + chain[i].name
    ensures r[|r| - 1] == ("Category: " + current.name, path)
    ensures forall i | 0 <= i < |chain| && chain[i] != current :: r[3 + i].1 == categoryUrl(chain[i].id)
  {
    [("Dashboard", dashboardUrl), ("My Subjects", subjectsUrl), ("Subject: " + subjectName, subjectUrl)]
    + seq(|chain|, i requires 0 <= i < |chain| =>
        ("Category: " + chain[i].name, if chain[i] == current then path else categoryUrl(chain[i].id)))
  }
}

=== FILE: tasks.dfy ===
/** The background grading job `run_autograde` (UniGrading/assignments/tasks.py),
    with the effect of the current pipeline's `apply_result_to_submission`
    (UniGrading/assignments/autograder.py) on the fields it writes. The autograder's result for the
    submission is an input; the store maps submission ids to the fields the
    job writes. */
module Tasks {
  import opened Wrappers
  import Grading
  import LegacyGrader

  /** The grading fields of a stored submission. */
  datatype Stored = Stored(grade: Option<real>, status: string)

  /** The two keys of the autograder's result the job looks at. */
  datatype GraderResult = GraderResult(status: string, grade: Option<real>)

  /** The job's return value: `{"ok": False, "error": "submission_not_found"}`,
      or `{"ok": True, "status": …, "grade": …}` with `manual_review` set on
      the manual-review path. */
  datatype Reply = NotFound | Ran(status: string, manualReview: bool, grade: Option<real>)

  /** `run_autograde(submission_id)`: the reply, the new store, and the
      statuses saved for the submission in order. */
  function RunAutograde(store: map<int, Stored>, id: int, result: GraderResult): (r: (Reply, map<int, Stored>, seq<string>))
    ensures id !in store ==> r == (NotFound, store, [])
    ensures id in store ==> (
      && r.1.Keys == store.Keys
      && (forall k | k in store && k != id :: r.1[k] == store[k])
      && r.2 == ["running", r.1[id].status]
      && r.1[id].status in {"done", "failed"}
      && r.0 == Ran(r.1[id].status, result.grade.None?, r.1[id].grade))
    ensures id in store && result.grade.None? ==> r.1[id] == Stored(None, "failed")
    ensures id in store && result.grade.Some? ==> (
      && r.1[id].grade == result.grade
      && (r.1[id].status == "done" <==> result.status in {"done", "partial"}))
  {
    if id !in store then (NotFound, store, [])
    else
      var final :=
        if result.grade.None? then Stored(None, "failed")
        else
          // `apply_result_to_submission` writes the grade and copies the
          // status, which the job then overwrites.
          Stored(result.grade, if result.status in {"done", "partial"} then "done" else "failed");
      (Ran(final.status, result.grade.None?, final.grade), store[id := final], ["running", final.status])
  }

  /** The result dict of the current pipeline: a grade is always present. */
  function FromCurrent(o: Grading.Outcome): (r: GraderResult)
    ensures r.grade == Some(o.grade)
  {
    GraderResult(Grading.StatusName(o.status), Some(o.grade))
  }

  /** The result dict of the earlier pipeline. */
  function FromLegacy(o: LegacyGrader.Result): (r: GraderResult)
    ensures r.grade == o.grade
  {
    GraderResult(Grading.StatusName(o.status), o.grade)
  }

  /** With the current pipeline the manual-review path is never taken: the
      submission ends `done` exactly when the pipeline did not fail, with
      the pipeline's grade. */
  lemma CurrentPipelineNeverManual(store: map<int, Stored>, id: int, o: Grading.Outcome)
    requires id in store
    ensures var r := RunAutograde(store, id, FromCurrent(o));
      && r.0.Ran? && !r.0.manualReview
      && r.1[id] == Stored(Some(o.grade), if o.status == Grading.Failed then "failed" else "done")
  {
  }

  /** With the earlier pipeline, manual review is exactly the failed results,
      and the stored grade is cleared for them. */
  lemma LegacyPipelineManualExactlyOnFailure(store: map<int, Stored>, id: int, o: LegacyGrader.Result)
    requires id in store
    requires o.grade.None? <==> o.status == Grading.Failed
    ensures var r := RunAutograde(store, id, FromLegacy(o));
      && r.0.Ran?
      && (r.0.manualReview <==> o.status == Grading.Failed)
      && (r.1[id].status == "done" <==> o.status != Grading.Failed)
      && r.1[id].grade == o.grade
  {
  }
}

=== FILE: wrappers.dfy ===
/** How the model spells Python's `None`, and the generic `map` over a list. */
module Wrappers {

  datatype Option<+T> = None | Some(value: T) {

    /** The contained value, or `default` (Python's `x if x is not None else default`). */
    function GetOr(default: T): T {
      match this
      case Some(v) => v
      case None => default
    }
  }

  /** `[f(x) for x in s]`. */
  function Map<T, U>(f: T -> U, s: seq<T>): (r: seq<U>)
    ensures |r| == |s|
    ensures forall i | 0 <= i < |s| :: r[i] == f(s[i])
  {
    seq(|s|, i requires 0 <= i < |s| => f(s[i]))
  }

  /** Mapping distributes over concatenation. */
  lemma MapConcat<T, U>(f: T -> U, a: seq<T>, b: seq<T>)
    ensures Map(f, a + b) == Map(f, a) + Map(f, b)
  {
    forall i | 0 <= i < |a + b| ensures Map(f, a + b)[i] == (Map(f, a) + Map(f, b))[i] {
      if i < |a| {
        assert (a + b)[i] == a[i];
      } else {
        assert (a + b)[i] == b[i - |a|];
      }
    }
  }
}
